=== FILE: README.md ===
# Order placement, stock, payments and users — a Dafny model

This project models the core of a small e-commerce back end made of
micro-services.

- **Order placement saga** (order service). It creates an order at
  `(pending, started)` and writes one item row per line. It then reserves
  every item with the inventory service, through a circuit breaker. Next it
  saves `payment_processing`, charges the payment service through a second
  breaker, and records the payment. Finally it confirms the order at
  `(confirmed, completed)` and publishes `order.confirmed`.
  - A failure after the order exists runs `compensate`, then rethrows the
    original error. `compensate` saves `compensating` and refunds when the
    order holds a payment id. It then saves `(cancelled, failed)` and
    publishes `order.failed`. Every failure inside that last part is
    swallowed.
  - The release branch of `compensate` tests `sagaState` after it was
    overwritten with `compensating`. The inventory service is therefore never
    asked to release anything, and the model proves this.
- **Order API.** It covers the request validator of `POST /orders`, the
  handlers that create, read, list and cancel orders, and the cancel guard
  (only `pending` and `payment_processing` orders can be cancelled).
- **Inventory service.** One stock record per product, with available,
  reserved and total stock, and a reservations table. It has four routes:
  read, reserve, release and adjust. The `min: 0` validators decide when a
  save is refused.
- **Payment service.** It has a payments table and three routes: process
  (simulated charge), refund and read.
- **User service.**
  - The bearer-token middleware.
  - Registration, the login ladder, token refresh and the MFA life cycle over
    `(mfaEnabled, mfaSecret)`.
  - The profile, password, listing, role and soft-delete handlers.
  - The route-level validators and the admin gate.

**Form of the model.**

- Code that changes state step by step is modelled as classes whose methods
  update fields in place. This covers the saga, the order instance and the
  orders table, the two remote services' tables, and the users table.
- Each route handler of the inventory and payment services is also given as
  a function from the table before the request to the table after it. The
  in-place methods are proved to agree with these functions.
- Declarative parts are datatypes, predicates and functions. These are the
  schemas, the validators, the middleware and the login ladder.

**How the outside world enters.**

- Money is integer cents.
- A `uuid` column reads text the way PostgreSQL's `uuid` input does: 32
  hexadecimal digits of either case, optionally in braces, optionally with a
  hyphen after any group of four. It stores, compares and returns the
  canonical lower-case 8-4-4-4-12 text. Tables are keyed by that text, so
  every spelling of an id finds the same row, and text that is not a UUID
  is a database error.
- An INTEGER column holds a signed 32-bit value; a write outside that range
  is refused.
- Database writes that can fail, remote calls that get no answer, and open
  circuits are the `failing` set of the saga's environment `Env`. The same
  environment supplies the generated ids, the payment gateway's verdict and
  the database's error message.
- Password hashing, token signing and verification, and TOTP checking are
  parameters: a password matches exactly the one that was set, and a token is
  represented by its payload.
- The two remote services are the inventory and payment models themselves.
  The saga keeps ghost logs of the requests each one received, and its
  published events are a log.
- The breaker's fallback rethrows every failure of the wrapped action as
  "<Service> is currently unavailable. Please try again later."
  (services/order-service/src/utils/circuit-breaker.js:48-51). So
  insufficient stock, a declined payment and an open circuit all reach the
  saga as the same `Unavailable` error.

## Model

| member | source | states |
|---|---|---|
| `Common.Canonical` | services/order-service/src/models/order.model.js:10-12 | a `uuid` column turns any text PostgreSQL reads as a UUID (either case, optional braces, optional hyphens between groups of four digits) into canonical lower-case 8-4-4-4-12 text |
| `Common.ValidatedUuidParses` | services/order-service/src/routes/order.routes.js:8-10 | every id `isUUID()` accepts is read by a `uuid` column, as its lower case |
| `Common.CanonicalReadsBack` | services/order-service/src/models/order.model.js:5-8 | canonical text, such as a `UUIDV4` default, is stored unchanged |
| `Common.CanonicalIdempotent` | services/order-service/src/models/order.model.js:10-12 | storing an id that was read back from a `uuid` column stores the same text |
| `Common.SpellingFindsKey` | services/payment-service/src/routes/payment.routes.js:97-106 | every spelling of a stored UUID, and every upper- or mixed-case `isUUID()` spelling of it, is read as the key the row is stored under |
| `OrderModel.ParseStatus` | services/order-service/src/models/order.model.js:14-27 | the status column accepts a tag iff it is the name of one of the nine statuses |
| `OrderModel.ParseSagaState` | services/order-service/src/models/order.model.js:40-50 | the saga-state column accepts a tag iff it is the name of one of the six saga states |
| `OrderModel.EnumsRoundTrip` | services/order-service/src/models/order.model.js:14-50 | parsing a status or saga-state name gives back that value, so the ENUM labels are distinct |
| `OrderModel.NewOrderRow` | services/order-service/src/models/order.model.js:4-58 | a new order has the defaults `pending` and `started`, a null payment id, no items, and the given user, total and address |
| `OrderRoutes.ItemFieldErrorsExact` | services/order-service/src/routes/order.routes.js:10-12 | a wildcard item chain reports nothing iff every item passes its check; each error it reports names an in-range item that fails |
| `OrderRoutes.ValidationAccepts` | services/order-service/src/routes/order.routes.js:8-13 | the error array is empty iff the user id is a UUID, there is at least one item, every item has a UUID product, quantity at least 1 and price at least 0, and the address is an object |
| `OrderTable.ConfirmedIffCompleted` | services/order-service/src/sagas/order.saga.js:69-202 | among the (status, sagaState) pairs the service writes, outside `compensating`, status is `confirmed` iff sagaState is `completed`, and `cancelled` iff it is `failed` |
| `OrderTable.WriteKeepsWritable` | services/order-service/src/sagas/order.saga.js:69-202 | writing one of those pairs into a row keeps every row of the table at such a pair |
| `OrderTable.OrderStore.Insert` | services/order-service/src/sagas/order.saga.js:116-122 | `Order.create` adds the row, with its user id in canonical text, and appends its id to the creation order, iff the id is new, the user id is read as a UUID, the total fits DECIMAL(10,2), the address is not null and its items belong to it; otherwise the table is unchanged |
| `OrderTable.OrderStore.AddItem` | services/order-service/src/sagas/order.saga.js:126-131 | `OrderItem.create` appends the item to its order iff its order exists, its product id is read as a UUID, its quantity is an INTEGER of at least 1 (below 2^31) and its price fits DECIMAL(10,2); otherwise the table is unchanged |
| `OrderTable.OrderStore.Save` | services/order-service/src/sagas/order.saga.js:69-70 | `save()` writes the instance's status, sagaState and paymentId into its row and changes nothing else; a failed save changes nothing |
| `InventoryModel.NewInventory` | services/inventory-service/src/models/inventory.model.js:4-11 | a created record has no reserved stock and is balanced; it is storable iff the quantity is in [0, 2^31) and both ids are canonical UUIDs |
| `InventoryModel.Shift` | services/inventory-service/src/routes/inventory.routes.js:47-48 | moving q units takes q from available stock and adds q to reserved stock; the total and the ids do not change, and balance is kept |
| `InventoryModel.Restock` | services/inventory-service/src/routes/inventory.routes.js:115-116 | adding q units raises available and total stock by q, keeps reserved stock and the ids, and keeps balance |
| `InventoryModel.ShiftInverse` | services/inventory-service/src/routes/inventory.routes.js:84-85 | moving q units to reserved stock and then moving them back restores the record |
| `InventoryModel.TotalNeverNegative` | services/inventory-service/src/models/inventory.model.js:8-10 | a storable, balanced record has a non-negative total that bounds both available and reserved stock, although the total column has no lower bound |
| `InventoryRoutes.Lookup` | services/inventory-service/src/routes/inventory.routes.js:25-34 | `GET /:productId` answers 500 iff PostgreSQL cannot read the id as a UUID, 404 iff it reads it as an id with no record, and otherwise 200 with the record stored under the canonical id |
| `InventoryRoutes.LookupFindsEverySpelling` | services/inventory-service/src/routes/inventory.routes.js:25-34 | every spelling of a stored product id, including an upper-case one, finds that record |
| `InventoryRoutes.AfterReserve` | services/inventory-service/src/routes/inventory.routes.js:37-74 | 500 for a product id that is not read as a UUID. 400 iff there is no record or too little available stock. 200 iff the shifted record keeps both stocks in [0, 2^31), the quantity is an INTEGER and the order id is read as a UUID; then q units move to reserved stock and one `reserved` row with canonical ids is appended. A refused reservation row leaves the stock already moved |
| `InventoryRoutes.AfterRelease` | services/inventory-service/src/routes/inventory.routes.js:77-96 | 404 iff there is no record. 200 iff reserved stock covers q and available stock plus q stays below 2^31 (with no reservation check) and the order id is read as a UUID; then q units move back and every reservation of that order and product becomes `released`. A refused order id leaves the stock already moved |
| `InventoryRoutes.WarehouseOrDefault` | services/inventory-service/src/routes/inventory.routes.js:108 | a truthy warehouse id is kept; otherwise the default warehouse id is used |
| `InventoryRoutes.AfterAdjust` | services/inventory-service/src/routes/inventory.routes.js:99-124 | a missing product gets a record with available = total = q and no reserved stock iff q is in [0, 2^31) and the warehouse id is read as a UUID; an existing record gains q in available and total stock iff available stays non-negative and the total below 2^31; 500 and no change otherwise; other records and the reservations are unchanged |
| `InventoryRoutes.HandlePreservesValid` | services/inventory-service/src/routes/inventory.routes.js:37-124 | reserve, release and adjust keep every record under its canonical product id, with canonical UUIDs, INTEGER stocks, non-negative available and reserved stock, and balanced (available + reserved = total) |
| `InventoryRoutes.ReserveThenReleaseRestores` | services/inventory-service/src/routes/inventory.routes.js:47-88 | a successful reserve followed by a release of the same quantity for the same order succeeds and restores every stock record exactly |
| `InventoryRoutes.RepeatedReleaseDrainsReserved` | services/inventory-service/src/routes/inventory.routes.js:84-95 | repeated releases keep moving stock while reserved stock lasts; the first release that would take reserved stock below zero is refused |
| `InventoryRoutes.ReservedStockNeverFallsWithoutRelease` | services/inventory-service/src/routes/inventory.routes.js:37-124 | a sequence of requests without releases, whose reserves are non-negative, never lowers a product's reserved stock |
| `InventoryRoutes.InventoryService.Reserve` | services/inventory-service/src/routes/inventory.routes.js:37-74 | the in-place handler leaves the tables and the reply exactly as `AfterReserve` says, and keeps the ledger valid |
| `InventoryRoutes.InventoryService.Release` | services/inventory-service/src/routes/inventory.routes.js:77-96 | the in-place handler leaves the tables and the reply exactly as `AfterRelease` says, and keeps the ledger valid |
| `InventoryRoutes.InventoryService.Adjust` | services/inventory-service/src/routes/inventory.routes.js:99-124 | the in-place handler leaves the tables and the reply exactly as `AfterAdjust` says, and keeps the ledger valid |
| `PaymentRoutes.AfterProcess` | services/payment-service/src/routes/payment.routes.js:10-60 | 500 and nothing written iff the order or user id is not read as a UUID, the amount does not fit DECIMAL(10,2), or the new id is taken or not canonical. Otherwise exactly one row is added under the new id, with the canonical order and user ids and the amount: `completed` with the charge id if approved (200, naming the new id), else `failed` with the reason (400); other rows are untouched |
| `PaymentRoutes.AfterRefund` | services/payment-service/src/routes/payment.routes.js:63-94 | 500 iff the id is not read as a UUID, 404 iff it is read as an unknown id, both without changes; otherwise the payment stored under the canonical id becomes `refunded`, whatever its state, and nothing else changes |
| `PaymentRoutes.FindPayment` | services/payment-service/src/routes/payment.routes.js:97-106 | `GET /:id` answers 500 iff the id is not read as a UUID, 404 iff it is read as an unknown id, and otherwise 200 with the row stored under the canonical id |
| `PaymentRoutes.EverySpellingFindsPayment` | services/payment-service/src/routes/payment.routes.js:63-106 | every spelling of a stored payment id, including an upper-case one, finds that payment, and refunding through it refunds that payment |
| `PaymentRoutes.RoutesPreserveValid` | services/payment-service/src/routes/payment.routes.js:10-94 | both routes keep every row under its own id, with canonical UUID columns and an amount that fits DECIMAL(10,2) |
| `PaymentRoutes.RefundIdempotent` | services/payment-service/src/routes/payment.routes.js:73-74 | a second refund of the same payment answers 200 and leaves the table as the first one left it |
| `PaymentRoutes.ProcessIsNotDeduplicated` | services/payment-service/src/routes/payment.routes.js:15-20 | processing one order twice with an approving gateway creates two completed payments for it |
| `PaymentRoutes.PaymentService.Process` | services/payment-service/src/routes/payment.routes.js:10-60 | the in-place handler leaves the table and the reply exactly as `AfterProcess` says, and keeps the table valid |
| `PaymentRoutes.PaymentService.Refund` | services/payment-service/src/routes/payment.routes.js:63-94 | the in-place handler leaves the table and the reply exactly as `AfterRefund` says, and keeps the table valid |
| `Pagination.TotalPages` | services/order-service/src/controllers/order.controller.js:68 | for a non-zero limit the result is the ceiling of count / limit; a zero limit gives null |
| `Pagination.Paginate` | services/order-service/src/controllers/order.controller.js:52-60 | a negative limit or offset is refused. Otherwise the page holds at most `limit` rows, and its row k is row `(page-1)*limit + k` of the matching rows |
| `Pagination.EveryRowOnExactlyOnePage` | services/order-service/src/controllers/order.controller.js:52-68 | with a positive limit, every row lies on exactly one page, and that page is between 1 and totalPages |
| `Saga.TotalSplits` | services/order-service/src/sagas/order.saga.js:114 | the left-to-right sum of price × quantity splits over any concatenation of the lines |
| `Saga.TotalBoundsLines` | services/order-service/src/sagas/order.saga.js:114 | with validated lines, the total is non-negative and at least each line's amount |
| `Saga.RefundsSent` | services/order-service/src/sagas/order.saga.js:197-199 | compensation sends at most one refund; it sends one, for the order's payment, iff the order holds a payment id and the request is not lost |
| `Saga.RefundEvents` | services/order-service/src/sagas/order.saga.js:241-258 | `payment.refunded` is published iff the refund reached the payment service and was answered 200 |
| `Saga.ReservesKeepReserved` | services/order-service/src/sagas/order.saga.js:187-194 | the reserve requests of a run never lower a product's reserved stock; since no release is sent, whatever a failed run reserved stays reserved |
| `Saga.OrderSaga.PublishEvent` | services/order-service/src/sagas/order.saga.js:260-282 | publishing appends the event to the log and never fails |
| `Saga.OrderSaga.CreateOrder` | services/order-service/src/sagas/order.saga.js:112-135 | the order row is created at `(pending, started)` with total `Total(items)`, the user id in canonical text, and one item row per line, with the same product, quantity and price. A failed order insert writes nothing. A failed item insert leaves the row with the items before it |
| `Saga.OrderSaga.AddItems` | services/order-service/src/sagas/order.saga.js:125-132 | item rows are written in line order, stopping at the first insert that fails |
| `Saga.OrderSaga.ReserveInventoryAction` | services/order-service/src/sagas/order.saga.js:137-154 | one `/reserve` per item goes out in item order, stopping at the first one lost or refused. The ledger is what serving those requests gives. `inventory.reserved` is published iff all were accepted |
| `Saga.OrderSaga.ReserveItem` | services/order-service/src/sagas/order.saga.js:141-147 | one iteration of the reserve loop extends the request log and the served ledger by the next request |
| `Saga.OrderSaga.SendReserve` | services/order-service/src/sagas/order.saga.js:142-146 | one `/reserve` is served by the inventory service and logged |
| `Saga.OrderSaga.FireInventory` | services/order-service/src/sagas/order.saga.js:44-49 | an open inventory circuit sends nothing; the breaker fails iff the circuit is open or some reserve was not accepted, and any failure surfaces as "InventoryService is currently unavailable" |
| `Saga.OrderSaga.ProcessPaymentAction` | services/order-service/src/sagas/order.saga.js:156-173 | one `/process` for the order's id, total and user; success iff it is answered 200, and then its payment id is returned and `payment.completed` published |
| `Saga.OrderSaga.FirePayment` | services/order-service/src/sagas/order.saga.js:51-56 | at most one charge is sent; the breaker returns the new payment id iff the charge was sent and answered 200, and otherwise fails with "PaymentService is currently unavailable" |
| `Saga.OrderSaga.ReserveStage` | services/order-service/src/sagas/order.saga.js:68-71 | reserve through the breaker, then assign and save `inventory_reserved`; an unavailable service leaves the order at `(pending, started)` |
| `Saga.OrderSaga.ChargeStage` | services/order-service/src/sagas/order.saga.js:74-82 | save `(payment_processing, payment_processing)`, charge, then record the payment id and `payment_completed`; the payment id is set iff the charge was sent and accepted |
| `Saga.OrderSaga.RecordPayment` | services/order-service/src/sagas/order.saga.js:78-82 | the payment id and `payment_completed` are assigned iff the charge succeeded, and saved unless that save fails |
| `Saga.OrderSaga.ConfirmStage` | services/order-service/src/sagas/order.saga.js:85-95 | the order becomes `(confirmed, completed)` with its payment id kept; on a successful save, `order.confirmed` is published with the order's items |
| `Saga.OrderSaga.PayAndConfirm` | services/order-service/src/sagas/order.saga.js:74-95 | the row only ever holds forward pairs; success iff every save and the charge succeed, ending at `(confirmed, completed)` with the new payment id |
| `Saga.OrderSaga.Forward` | services/order-service/src/sagas/order.saga.js:68-98 | the run of steps 2-5. The reserve phase is served in item order. The charge is sent only after every reserve was accepted. Every error is a breaker or save failure. Success ends at `(confirmed, completed)` with the payment id the payment service returned |
| `Saga.OrderSaga.ExecuteOrderSaga` | services/order-service/src/sagas/order.saga.js:58-110 | a failure inside `createOrder` is rethrown with no compensation and no remote call. Otherwise: only reserves, one per item in order, reach the inventory service. The reserve phase is stated by `ReservePhase`: the accepted prefix, then at most one refused request. A charge is sent only when every reserve was accepted (`AllAccepted` over the ledger before the run), at most once, followed by at most one refund. Success is `(confirmed, completed)` with the new payment id. A failure rethrows the original error unless the `compensating` save fails, whose error escapes instead. Compensation refunds iff a payment id is held, and ends at `(cancelled, failed)` with `order.failed` published unless the last save fails. Every row stays at a writable pair |
| `Saga.OrderSaga.RunCreated` | services/order-service/src/sagas/order.saga.js:67-109 | the run of a created order and its `catch` block, with the same guarantees as `ExecuteOrderSaga` about requests, refunds, the rethrown error and the final pair. The reserve phase is stated by `ReservePhase` |
| `Saga.OrderSaga.Recover` | services/order-service/src/sagas/order.saga.js:100-109 | the `catch` block compensates with the error's message and rethrows it, unless the `compensating` save throws; the inventory service is not called |
| `Saga.OrderSaga.Compensate` | services/order-service/src/sagas/order.saga.js:185-217 | it throws iff the `compensating` save fails, and then nothing else changes. Otherwise it refunds iff a payment id is held, sends no release, and leaves the row at `(cancelled, failed)` with `order.failed` last, or at `compensating` when that save fails |
| `Saga.OrderSaga.CompensateGuarded` | services/order-service/src/sagas/order.saga.js:190-216 | the release test is false because `sagaState` was just overwritten; the refund and the final save follow, and every failure is swallowed |
| `Saga.OrderSaga.RefundPayment` | services/order-service/src/sagas/order.saga.js:241-258 | one `/refund` for the order's payment unless it is lost; `payment.refunded` is published only when it was answered 200 |
| `Saga.OrderSaga.ReleaseInventory` | services/order-service/src/sagas/order.saga.js:219-239 | one `/release` per item, in order, for each request that is not lost; a lost one does not stop the loop, and `inventory.released` is published at the end |
| `Saga.OrderSaga.ReleaseItem` | services/order-service/src/sagas/order.saga.js:223-233 | one iteration of the release loop; a lost request is skipped |
| `OrderController.ErrorMessage` | services/order-service/src/controllers/order.controller.js:25 | the reply carries the error's message when it is non-empty, and exactly "Failed to create order" when it is empty |
| `OrderController.GetOrderById` | services/order-service/src/controllers/order.controller.js:29-46 | 500 iff the id is not read as a UUID, 404 iff it is read as an unknown id, otherwise 200 with the order stored under the canonical id, with its items |
| `OrderController.EverySpellingFindsOrder` | services/order-service/src/controllers/order.controller.js:29-46 | every spelling of a stored order id, including an upper-case one, finds that order, and the cancel guard judges that order |
| `OrderController.Matching` | services/order-service/src/controllers/order.controller.js:54-60 | the listed positions are strictly decreasing in creation order (newest first), each holds an order of the user, and every order of the user is listed |
| `OrderController.JoinedCountOvercounts` | services/order-service/src/controllers/order.controller.js:54-68 | the count over the joined items is never below the number of orders, and equals it iff no order has more than one item |
| `OrderController.GetUserOrders` | services/order-service/src/controllers/order.controller.js:48-75 | defaults are page 1 and limit 10. 500 iff the user id is not read as a UUID or the limit or offset is negative. Otherwise the page is the slice at `(page-1)*limit` of the orders stored for the canonical user id, newest first, with the joined count as total and totalPages its ceiling over the limit |
| `OrderController.CancelGuard` | services/order-service/src/controllers/order.controller.js:77-88 | compensation runs iff the id is read as the UUID of an order that is `pending` or `payment_processing`; otherwise the reply is 404 for an unknown id, 400 for any other status, or 500 for text that is not a UUID |
| `OrderController.SecondCancel` | services/order-service/src/controllers/order.controller.js:86-88 | after a completed compensation (`cancelled`), a second cancel is refused with 400; after one whose last save failed, the order can be cancelled again |
| `OrderController.OrderApi.CreateOrder` | services/order-service/src/controllers/order.controller.js:7-27 | validation errors give 400 and no saga run. A saga exception gives 500 with its message. Success gives 201 with the re-read order at `(confirmed, completed)`, the new payment id and the item rows |
| `OrderController.OrderApi.CancelOrder` | services/order-service/src/controllers/order.controller.js:77-98 | a refused guard and a failing `compensating` save change neither the orders nor the payments table. Otherwise compensation runs with "User cancelled" on the order stored under the canonical id: 200, a refund iff a payment id is held, the payments table as serving that refund leaves it, and no release |
| `UserModel.ParseRole` | services/user-service/src/routes/user.routes.js:26-28 | a label names a role iff it is `customer`, `admin` or `support` |
| `UserModel.ParseRoleName` | services/user-service/src/routes/user.routes.js:26-28 | parsing a role's name gives back that role |
| `UserModel.NewUser` | services/user-service/src/controllers/auth.controller.js:30-35 | a registered user has the given fields, the role `customer`, is active and has MFA off with no secret and no login |
| `UserModel.FindByEmail` | services/user-service/src/controllers/auth.controller.js:24 | returns an id with that email, and none iff no listed user has it |
| `UserModel.FindByPk` | services/user-service/src/controllers/user.controller.js:130 | finds the row iff the id is in the table |
| `UserModel.UserTable.ByEmail` | services/user-service/src/controllers/auth.controller.js:59 | the user with that email, and none iff nobody has it |
| `UserModel.UserTable.Create` | services/user-service/src/controllers/auth.controller.js:30-35 | adds the user iff the id is new, keeping emails unique and MFA consistent; otherwise nothing changes |
| `UserModel.UserTable.Save` | services/user-service/src/controllers/user.controller.js:38 | writes the user back under its id and keeps the table valid |
| `AuthMiddleware.TokenOf` | services/user-service/src/middleware/auth.middleware.js:14 | the token is the header with `Bearer ` removed: the header is the scheme followed by the token |
| `AuthMiddleware.ErrorReply` | services/user-service/src/middleware/auth.middleware.js:24-32 | `TokenExpiredError` gives 401 "Token expired", `JsonWebTokenError` gives 401 "Invalid token", anything else gives 500 |
| `AuthMiddleware.Authenticate` | services/user-service/src/middleware/auth.middleware.js:6-33 | a request passes iff it carries a `Bearer ` token that verifies, and then with that token's claims; a missing or other header gives 401 "No token provided" |
| `AuthMiddleware.BearerRoundTrip` | services/user-service/src/middleware/auth.middleware.js:9-22 | the token sent as `Bearer <token>` is the one that gets verified |
| `AuthMiddleware.OtherSchemesRejected` | services/user-service/src/middleware/auth.middleware.js:9-12 | `bearer ` and a bare `Bearer` are answered like a missing token |
| `AuthController.AccessClaims` | services/user-service/src/controllers/auth.controller.js:93-97 | the access token carries the user's id, email and role |
| `AuthController.LoginLadder` | services/user-service/src/controllers/auth.controller.js:55-86 | a missing user, an inactive user and a wrong password get the same "Invalid credentials". With MFA on, a missing code asks for MFA and a wrong code is "Invalid MFA token". Login is granted iff the credentials pass and, with MFA on, the code verifies |
| `AuthController.SecondFactorOnlyWhenOn` | services/user-service/src/controllers/auth.controller.js:71-86 | a second factor is asked for iff the credentials pass and MFA is on; a secret awaiting verification does not change a login |
| `AuthController.RefreshToken` | services/user-service/src/controllers/auth.controller.js:119-148 | 400 without a token. 401 when verification throws, or the user is missing or inactive. Otherwise 200 with an access token for the user as the table holds them now |
| `AuthController.AuthApi.Register` | services/user-service/src/controllers/auth.controller.js:14-47 | 400 with the validator errors, or 409 for a taken email, without changes. Otherwise a new active customer with MFA off is appended and returned with 201 |
| `AuthController.AuthApi.Login` | services/user-service/src/controllers/auth.controller.js:49-117 | only a granted login stamps `lastLoginAt` and issues the tokens; a denial (401) and the MFA prompt change nothing |
| `AuthController.AuthApi.EnableMfa` | services/user-service/src/controllers/auth.controller.js:162-194 | 404 for an unknown user, 400 when MFA is already on; otherwise the secret is stored and MFA stays off |
| `AuthController.AuthApi.VerifyMfa` | services/user-service/src/controllers/auth.controller.js:196-236 | 400 without a code or without a secret, 404 for an unknown user, 401 for a wrong code; otherwise MFA is switched on, and `mfaEnabled` implies a secret throughout |
| `AuthController.AuthApi.DisableMfa` | services/user-service/src/controllers/auth.controller.js:238-269 | 400 without a password, 404 for an unknown user, 401 for a wrong password; otherwise both MFA fields are cleared |
| `UserController.GetUserById` | services/user-service/src/controllers/user.controller.js:126-140 | 200 with the row iff the id is in the table, otherwise 404 |
| `UserController.GetProfile` | services/user-service/src/controllers/user.controller.js:7-19 | the caller sees their own row exactly as an admin asking for it by id |
| `UserController.Fold` | services/user-service/src/controllers/user.controller.js:94-96 | `ILIKE` lower-cases the ASCII letters A-Z and leaves every other character alone; case folding beyond ASCII letters is not modelled |
| `UserController.FoldAll` | services/user-service/src/controllers/user.controller.js:94-96 | folding keeps the length and folds every character |
| `UserController.SearchIgnoresCase` | services/user-service/src/controllers/user.controller.js:92-98 | a search and its folded form select the same users |
| `UserController.SelectedPositions` | services/user-service/src/controllers/user.controller.js:90-109 | the listed positions are strictly decreasing in creation order (newest first, `ORDER BY createdAt DESC`, so no user is listed twice), each holds a user matching the search and the role, and every matching user is listed |
| `UserController.SelectedUsersExact` | services/user-service/src/controllers/user.controller.js:90-109 | every listed user is a stored row matching the search and the role, and every matching row is listed |
| `UserController.GetAllUsers` | services/user-service/src/controllers/user.controller.js:85-124 | defaults are page 1 and limit 10. 500 iff a truthy role names no role, or the limit or offset is negative. Otherwise the page is the slice at `(page-1)*limit` of the selected users, with their exact count as total |
| `UserController.DeactivatedUserCannotLogin` | services/user-service/src/controllers/user.controller.js:187-188 | a soft-deleted user is refused at login with the same 401 as an unknown email |
| `UserController.UserApi.UpdateProfile` | services/user-service/src/controllers/user.controller.js:21-50 | each name given and truthy is written; the email, every other column and every other user are unchanged |
| `UserController.UserApi.ChangePassword` | services/user-service/src/controllers/user.controller.js:52-83 | a wrong current password gives 401 and changes nothing; otherwise the new password is the one that matches afterwards |
| `UserController.UserApi.UpdateUserRole` | services/user-service/src/controllers/user.controller.js:142-170 | 404 for an unknown id; otherwise only the role changes, to the role named |
| `UserController.UserApi.DeleteUser` | services/user-service/src/controllers/user.controller.js:172-197 | the caller's own id gives 400 before any lookup, an unknown id 404; otherwise the user is deactivated and the row kept |
| `UserRoutes.Admit` | services/user-service/src/routes/user.routes.js:10-29 | authentication runs first on every route and its refusal is the reply; a handler is reached iff the token verifies, and an admin route also needs the role `admin` |
| `UserRoutes.TrimStart` | services/user-service/src/routes/user.routes.js:15-16 | removes exactly the leading white space |
| `UserRoutes.TrimEnd` | services/user-service/src/routes/user.routes.js:15-16 | removes exactly the trailing white space |
| `UserRoutes.Trim` | services/user-service/src/routes/user.routes.js:15-16 | the result has no white space at either end and is the part of the input between its leading and its trailing white space: only that white space is removed |
| `UserRoutes.TrimEmptyIffBlank` | services/user-service/src/routes/user.routes.js:15-16 | a string trims to nothing iff it is all white space |
| `UserRoutes.TrimIdempotent` | services/user-service/src/routes/user.routes.js:15-16 | trimming twice is trimming once |
| `UserRoutes.Sanitized` | services/user-service/src/routes/user.routes.js:15-16 | a given name reaches the handler trimmed; an absent one stays absent |
| `UserRoutes.ProfileErrors` | services/user-service/src/routes/user.routes.js:14-17 | no errors iff each given name is non-empty after trimming |
| `UserRoutes.ValidNamesAreWritten` | services/user-service/src/routes/user.routes.js:14-17 | after validation, a given name is truthy when it reaches the handler, so it is written |
| `UserRoutes.PasswordErrors` | services/user-service/src/routes/user.routes.js:18-21 | no errors iff the current password is non-empty and the new one has at least 8 characters |
| `UserRoutes.RoleErrors` | services/user-service/src/routes/user.routes.js:26-28 | no errors iff the role is one of `customer`, `admin`, `support` |
| `UserRoutes.Validate` | services/user-service/src/routes/user.routes.js:13-29 | each route runs its own validators, and the routes without validators none |

## Left out

- **Circuit breaker.** The breaker library's Closed/Open/Half-Open machine, its 5-second timeout and its error threshold are not modelled. An open circuit is one of the failing steps of `Env`. A timeout that abandons a still-running action is not modelled.
- **Concurrency.** It is not modelled. This covers the check-then-act race between concurrent reserves, and a cancel that races a running saga.
- **Floating point.** JavaScript number sums and DECIMAL(10,2) rounding are not modelled. Amounts are integer cents, and DECIMAL(10,2) is a range check.
- **Values from outside.** `Math.random` (the simulated gateway), `new Date()` and the ids the database generates are parameters.
- **Crypto.** bcrypt, JWT signing and verification, and TOTP checking are parameters; a token is its payload. QR-code generation is not modelled: the secret is returned as given.
- **Database read failures** are not modelled: `getItems`, `findByPk` and `findOne` always answer. The user service's generic 500 replies to a database error are modelled only where the model can name the cause: a taken id, or a role the ENUM refuses. A failing `save` in the user service is not modelled.
- **Search.** `LIKE` wildcards and escapes in a search string are not modelled. Case folding covers ASCII letters only.
- **Non-string or non-numeric query values.** Query values are integers, and the `parseInt` of a non-numeric string (NaN) is not modelled.
- **Character counts.** `isLength` counts code points; here the length of a string is its number of characters.
- **Files that are not part of this model.**
  - services/user-service/src/models/user.model.js: the column defaults of a new user are the ones the controllers rely on, and user ids are opaque strings, with no UUID check.
  - services/user-service/src/middleware/role.middleware.js: the role gate admits exactly the listed roles, and its refusal reply is left open (`Forbidden`).
  - services/user-service/src/routes/auth.routes.js: the register and login validators' verdict is the `errors` parameter.
- **Serialisation.** Stripping the password from serialised users (`toJSON`) is not modelled; replies carry the user row.
- **Logout and logging.** `logout` only logs and answers 200, and is not modelled. Logging and the commented-out EventBridge publishing are not modelled; publishing appends to a log.
- **Order-item rows in the reserve and release loops.** `order.getItems()` (services/order-service/src/sagas/order.saga.js:138 and :220) is modelled as giving back the rows `createOrder` wrote, without failure and in the order they were inserted. The query has no `ORDER BY`, so PostgreSQL promises no row order. The model's "in item order" is therefore one admissible order. Another order would change which reserve is refused first and which prefix of the requests is served.
- `Saga.OrderSaga.ReleaseInventory`: modelled and proved, but no path of the model calls it, because the release test in `compensate` can never hold.
- `PaymentRoutes.AfterProcess`: a database failure of the second write, `payment.save()` (services/payment-service/src/routes/payment.routes.js:31 and :51), is not modelled. Such a failure would leave the new row at `processing` and answer 500. No column constraint can refuse that write, because the row already passed them when it was created.
- `PaymentRoutes.AfterProcess`: a new id that is not canonical text is treated as a refused insert. The `UUIDV4` default always generates canonical lower-case text.
- `InventoryRoutes.AfterReserve`: the stock save and the reservation insert (services/inventory-service/src/routes/inventory.routes.js:49-52) fail only on a value a column refuses. A connection or server failure is not modelled; after the stock save it would leave the stock moved without its reservation row, and answer 500.
- `InventoryRoutes.AfterRelease`: the stock save and the reservation update (services/inventory-service/src/routes/inventory.routes.js:86-88) fail only on a value a column refuses. A connection or server failure is not modelled.
- `InventoryRoutes.AfterAdjust`: the create and the save (services/inventory-service/src/routes/inventory.routes.js:106-111 and :117) fail only on a value a column refuses. A connection or server failure is not modelled.
- `Saga.OrderSaga.CreateOrder`: item rows keep their product ids as sent, whereas PostgreSQL stores and returns them in canonical text. The reserve requests built from them therefore carry the client's spelling; the inventory service reads every spelling as the same product.
- `Saga.OrderSaga.CreateOrder`: the in-memory order keeps the user id as passed. Whether the insert's returned row rewrites it to canonical text is not modelled; the stored row holds the canonical text.

=== FILE: auth_controller.dfy ===
/** The user service's `AuthController`: registration, the login ladder,
    refreshing an access token, and the MFA life cycle over the pair
    (`mfaEnabled`, `mfaSecret`). Password hashing, token signing and TOTP
    checking are outside the model: a password matches exactly the one that
    was set, a token is represented by its payload, and the TOTP check and
    the refresh-token verification are parameters. The request validators
    of `register` and `login` live in a routes file that is not part of this
    model; their verdict arrives as the `errors` parameter. */
module AuthController {
  import opened Common
  import opened UserModel
  import AM = AuthMiddleware

  /** The JSON body of a reply. Tokens are given by their payloads. */
  datatype Body =
    | Message(text: string)
    | Errors(errors: seq<ValidationError>)
    | MfaRequired
    | Session(message: string, accessToken: AM.Claims, refreshToken: string, user: User)
    | AccessToken(accessToken: AM.Claims)
    | MfaSetup(message: string, secret: string)
    | Profile(message: string, user: User)

  datatype Reply = Reply(status: int, body: Body)

  const UserExists: string := "User already exists with this email"
  const Registered: string := "User registered successfully"
  const InvalidCredentials: string := "Invalid credentials"
  const InvalidMfa: string := "Invalid MFA token"
  const LoginOk: string := "Login successful"
  const RefreshRequired: string := "Refresh token is required"
  const InvalidRefresh: string := "Invalid refresh token"
  const RefreshRejected: string := "Invalid or expired refresh token"
  const UserNotFound: string := "User not found"
  const MfaAlreadyOn: string := "MFA is already enabled"
  const MfaSecretIssued: string := "MFA secret generated. Please scan the QR code and verify."
  const MfaTokenRequired: string := "MFA token is required"
  const MfaNotSetUp: string := "MFA is not set up"
  const MfaOn: string := "MFA enabled successfully"
  const PasswordRequired: string := "Password is required to disable MFA"
  const InvalidPassword: string := "Invalid password"
  const MfaOff: string := "MFA disabled successfully"
  const InternalError: string := "Internal server error"

  /** The payload of the access token issued for `u`. */
  function AccessClaims(u: User): (c: AM.Claims)
    ensures c.userId == u.id && c.email == u.email && c.role == u.role.Name()
  {
    AM.Claims(u.id, u.email, u.role.Name())
  }

  /** The three states of a user's MFA: no secret, a secret awaiting its
      first code, and switched on. */
  datatype MfaPhase = Off | Pending | On

  function Phase(u: User): MfaPhase {
    if u.mfaEnabled then On else if Truthy(u.mfaSecret) then Pending else Off
  }

  /** `!user || !user.isActive` and `comparePassword` both pass. */
  predicate CredentialsOk(user: Option<User>, password: string) {
    user.Some? && user.value.isActive && ComparePassword(user.value, password)
  }

  /** Where a login attempt ends. */
  datatype LoginStep = Deny(message: string) | AskMfa | Grant

  /** The early returns of `login` after validation, on the user found by
      email. `totp(secret, code)` is `speakeasy.totp.verify`. */
  function LoginLadder(user: Option<User>, password: string, mfaToken: Option<string>,
                       totp: (Option<string>, string) -> bool): (s: LoginStep)
    // a missing user, an inactive user and a wrong password are answered alike
    ensures s == Deny(InvalidCredentials) <==> !CredentialsOk(user, password)
    ensures s.AskMfa? <==> CredentialsOk(user, password) && user.value.mfaEnabled && !Truthy(mfaToken)
    ensures s == Deny(InvalidMfa) <==>
              CredentialsOk(user, password) && user.value.mfaEnabled && Truthy(mfaToken)
              && !totp(user.value.mfaSecret, mfaToken.value)
    ensures s.Grant? <==>
              CredentialsOk(user, password)
              && (user.value.mfaEnabled ==> Truthy(mfaToken) && totp(user.value.mfaSecret, mfaToken.value))
  {
    if user.None? || !user.value.isActive then Deny(InvalidCredentials)
    else if !ComparePassword(user.value, password) then Deny(InvalidCredentials)
    else if user.value.mfaEnabled && !Truthy(mfaToken) then AskMfa
    else if user.value.mfaEnabled && !totp(user.value.mfaSecret, mfaToken.value) then Deny(InvalidMfa)
    else Grant
  }

  /** A second factor is asked for exactly when the credentials are right
      and MFA is on; a secret that still awaits its first code does not
      change how a login goes. */
  lemma SecondFactorOnlyWhenOn(u: User, password: string, mfaToken: Option<string>,
                               totp: (Option<string>, string) -> bool)
    ensures LoginLadder(Some(u), password, None, totp).AskMfa? <==>
              u.isActive && ComparePassword(u, password) && Phase(u) == On
    ensures Phase(u) != On ==>
              LoginLadder(Some(u), password, mfaToken, totp) == LoginLadder(Some(u.(mfaSecret := None)), password, mfaToken, totp)
  {
  }

  /** The reply of `refreshToken`: `verify` is `jwt.verify` with the refresh
      secret, returning the `userId` it decodes, or `None` when it throws. */
  function RefreshToken(users: map<string, User>, token: Option<string>,
                        verify: string -> Option<Option<string>>): (r: Reply)
    ensures r.status in {200, 400, 401}
    ensures r.status == 400 <==> !Truthy(token)
    ensures r.status == 200 <==>
              && Truthy(token) && verify(token.value).Some? && verify(token.value).value.Some?
              && verify(token.value).value.value in users && users[verify(token.value).value.value].isActive
    // the new access token describes the user as the table holds it now
    ensures r.status == 200 ==> r.body == AccessToken(AccessClaims(users[verify(token.value).value.value]))
    ensures Truthy(token) && verify(token.value).None? ==> r == Reply(401, Message(RefreshRejected))
    ensures Truthy(token) && verify(token.value).Some? && r.status != 200 ==> r == Reply(401, Message(InvalidRefresh))
  {
    if !Truthy(token) then Reply(400, Message(RefreshRequired))
    else
      match verify(token.value)
      case None => Reply(401, Message(RefreshRejected))
      case Some(userId) =>
        if userId.None? || userId.value !in users || !users[userId.value].isActive then Reply(401, Message(InvalidRefresh))
        else Reply(200, AccessToken(AccessClaims(users[userId.value])))
  }

  /** The handlers that change the users table. */
  class AuthApi {
    const users: UserTable

    constructor (users: UserTable)
      ensures this.users == users
    {
      this.users := users;
    }

    /** `register`: 409 for a taken email, otherwise a new customer with the
      given fields and MFA off. `newId` is the id the database generates;
      one already in use makes `User.create` throw, answered with 500. */
    method Register(errors: seq<ValidationError>, email: string, password: string,
                    firstName: string, lastName: string, newId: string) returns (reply: Reply)
      requires users.Valid()
      modifies users
      ensures users.Valid()
      ensures errors != [] ==> reply == Reply(400, Errors(errors)) && unchanged(users)
      ensures errors == [] && old(users.ByEmail(email)).Some? ==>
                reply == Reply(409, Message(UserExists)) && unchanged(users)
      ensures errors == [] && old(users.ByEmail(email)).None? && newId in old(users.users) ==>
                reply == Reply(500, Message(InternalError)) && unchanged(users)
      ensures errors == [] && old(users.ByEmail(email)).None? && newId !in old(users.users) ==>
                var u := NewUser(newId, email, password, firstName, lastName);
                && reply == Reply(201, Profile(Registered, u))
                && users.users == old(users.users)[newId := u]
                && users.created == old(users.created) + [newId]
    {
      if errors != [] {
        return Reply(400, Errors(errors));
      }
      var existing := users.ByEmail(email);
      if existing.Some? {
        return Reply(409, Message(UserExists));
      }
      var u := NewUser(newId, email, password, firstName, lastName);
      var ok := users.Create(u);
      if !ok {
        return Reply(500, Message(InternalError));
      }
      return Reply(201, Profile(Registered, u));
    }

    /** `login`: the ladder on the user with that email; only a granted
      login stamps `lastLoginAt` (with `now`) and issues the two tokens. */
    method Login(errors: seq<ValidationError>, email: string, password: string, mfaToken: Option<string>,
                 totp: (Option<string>, string) -> bool, now: int) returns (reply: Reply)
      requires users.Valid()
      modifies users
      ensures users.Valid() && users.created == old(users.created)
      ensures errors != [] ==> reply == Reply(400, Errors(errors)) && unchanged(users)
      ensures errors == [] ==>
                var step := LoginLadder(old(users.ByEmail(email)), password, mfaToken, totp);
                && (step.Deny? ==> reply == Reply(401, Message(step.message)) && unchanged(users))
                && (step.AskMfa? ==> reply == Reply(200, MfaRequired) && unchanged(users))
                && (step.Grant? ==>
                      var u := old(users.ByEmail(email)).value.(lastLoginAt := Some(now));
                      && users.users == old(users.users)[u.id := u]
                      && reply == Reply(200, Session(LoginOk, AccessClaims(u), u.id, u)))
    {
      if errors != [] {
        return Reply(400, Errors(errors));
      }
      var user := users.ByEmail(email);
      var step := LoginLadder(user, password, mfaToken, totp);
      if step.Deny? {
        return Reply(401, Message(step.message));
      }
      if step.AskMfa? {
        return Reply(200, MfaRequired);
      }
      var u := user.value.(lastLoginAt := Some(now));
      users.Save(u);
      return Reply(200, Session(LoginOk, AccessClaims(u), u.id, u));
    }

    /** `enableMFA` for the caller `actor`: stores the freshly generated
      `secret` and leaves MFA off until a code is verified. */
    method EnableMfa(actor: string, secret: string) returns (reply: Reply)
      requires users.Valid()
      modifies users
      ensures users.Valid() && users.created == old(users.created)
      ensures actor !in old(users.users) ==> reply == Reply(404, Message(UserNotFound)) && unchanged(users)
      ensures actor in old(users.users) && old(users.users[actor]).mfaEnabled ==>
                reply == Reply(400, Message(MfaAlreadyOn)) && unchanged(users)
      ensures actor in old(users.users) && !old(users.users[actor]).mfaEnabled ==>
                && users.users == old(users.users)[actor := old(users.users[actor]).(mfaSecret := Some(secret))]
                && reply == Reply(200, MfaSetup(MfaSecretIssued, secret))
                && Phase(users.users[actor]) == (if secret != "" then Pending else Off)
    {
      if actor !in users.users {
        return Reply(404, Message(UserNotFound));
      }
      var u := users.users[actor];
      if u.mfaEnabled {
        return Reply(400, Message(MfaAlreadyOn));
      }
      users.Save(u.(mfaSecret := Some(secret)));
      return Reply(200, MfaSetup(MfaSecretIssued, secret));
    }

    /** `verifyMFA` for the caller `actor`: a valid code for the stored
      secret switches MFA on. */
    method VerifyMfa(actor: string, token: Option<string>, totp: (Option<string>, string) -> bool)
      returns (reply: Reply)
      requires users.Valid()
      modifies users
      ensures users.Valid() && users.created == old(users.created)
      ensures !Truthy(token) ==> reply == Reply(400, Message(MfaTokenRequired)) && unchanged(users)
      ensures Truthy(token) && actor !in old(users.users) ==>
                reply == Reply(404, Message(UserNotFound)) && unchanged(users)
      ensures Truthy(token) && actor in old(users.users) && !Truthy(old(users.users[actor]).mfaSecret) ==>
                reply == Reply(400, Message(MfaNotSetUp)) && unchanged(users)
      ensures Truthy(token) && actor in old(users.users) && Truthy(old(users.users[actor]).mfaSecret) ==>
                var ok := totp(old(users.users[actor]).mfaSecret, token.value);
                && (!ok ==> reply == Reply(401, Message(InvalidMfa)) && unchanged(users))
                && (ok ==> && reply == Reply(200, Message(MfaOn))
                           && users.users == old(users.users)[actor := old(users.users[actor]).(mfaEnabled := true)]
                           && Phase(users.users[actor]) == On)
    {
      if !Truthy(token) {
        return Reply(400, Message(MfaTokenRequired));
      }
      if actor !in users.users {
        return Reply(404, Message(UserNotFound));
      }
      var u := users.users[actor];
      if !Truthy(u.mfaSecret) {
        return Reply(400, Message(MfaNotSetUp));
      }
      if !totp(u.mfaSecret, token.value) {
        return Reply(401, Message(InvalidMfa));
      }
      users.Save(u.(mfaEnabled := true));
      return Reply(200, Message(MfaOn));
    }

    /** `disableMFA` for the caller `actor`: with the right password, clears
      both MFA fields. */
    method DisableMfa(actor: string, password: Option<string>) returns (reply: Reply)
      requires users.Valid()
      modifies users
      ensures users.Valid() && users.created == old(users.created)
      ensures !Truthy(password) ==> reply == Reply(400, Message(PasswordRequired)) && unchanged(users)
      ensures Truthy(password) && actor !in old(users.users) ==>
                reply == Reply(404, Message(UserNotFound)) && unchanged(users)
      ensures Truthy(password) && actor in old(users.users) && !ComparePassword(old(users.users[actor]), password.value) ==>
                reply == Reply(401, Message(InvalidPassword)) && unchanged(users)
      ensures Truthy(password) && actor in old(users.users) && ComparePassword(old(users.users[actor]), password.value) ==>
                && reply == Reply(200, Message(MfaOff))
                && users.users == old(users.users)[actor := old(users.users[actor]).(mfaEnabled := false, mfaSecret := None)]
                && Phase(users.users[actor]) == Off
    {
      if !Truthy(password) {
        return Reply(400, Message(PasswordRequired));
      }
      if actor !in users.users {
        return Reply(404, Message(UserNotFound));
      }
      var u := users.users[actor];
      if !ComparePassword(u, password.value) {
        return Reply(401, Message(InvalidPassword));
      }
      users.Save(u.(mfaEnabled := false, mfaSecret := None));
      return Reply(200, Message(MfaOff));
    }
  }
}

=== FILE: auth_middleware.dfy ===
/** The user service's `authMiddleware`: it takes the bearer token from the
    `Authorization` header, has it verified, and either lets the request
    through with the decoded claims or answers it. Signature checking is the
    `verify` parameter: it returns the claims, or the name of the error
    `jwt.verify` throws. */
module AuthMiddleware {
  import opened Common

  /** The payload of an access token. */
  datatype Claims = Claims(userId: string, email: string, role: string)

  /** What `jwt.verify` does with a token. */
  datatype Verification = Decoded(claims: Claims) | Thrown(errorName: string)

  /** The middleware's verdict: `next()` with `req.user` set, or a reply. */
  datatype Gate = Pass(user: Claims) | Reject(status: int, message: string)

  const Scheme: string := "Bearer "
  const NoToken: string := "No token provided"
  const Expired: string := "Token expired"
  const Invalid: string := "Invalid token"
  const InternalError: string := "Internal server error"

  /** `authHeader.startsWith('Bearer ')`: exact and case-sensitive. */
  predicate HasScheme(header: string) {
    |Scheme| <= |header| && header[..|Scheme|] == Scheme
  }

  /** `authHeader.substring(7)`: the header without the scheme. */
  function TokenOf(header: string): (t: string)
    requires HasScheme(header)
    ensures header == Scheme + t
  {
    header[|Scheme|..]
  }

  /** The reply to a thrown verification error, by the error's name. */
  function ErrorReply(errorName: string): (g: Gate)
    ensures g.Reject?
    ensures g.status == 401 <==> errorName in {"TokenExpiredError", "JsonWebTokenError"}
    ensures errorName == "TokenExpiredError" ==> g.message == Expired
    ensures errorName == "JsonWebTokenError" ==> g.message == Invalid
    ensures g.status != 401 ==> g == Reject(500, InternalError)
  {
    if errorName == "TokenExpiredError" then Reject(401, Expired)
    else if errorName == "JsonWebTokenError" then Reject(401, Invalid)
    else Reject(500, InternalError)
  }

  /** `authMiddleware` on the request's `Authorization` header (`None` when
      the header is absent). */
  function Authenticate(header: Option<string>, verify: string -> Verification): (g: Gate)
    // a request passes exactly when it carries a bearer token that verifies,
    // and then it carries that token's claims
    ensures g.Pass? <==> header.Some? && HasScheme(header.value) && verify(TokenOf(header.value)).Decoded?
    ensures g.Pass? ==> g.user == verify(TokenOf(header.value)).claims
    ensures header.None? || !HasScheme(header.value) ==> g == Reject(401, NoToken)
    ensures header.Some? && HasScheme(header.value) && verify(TokenOf(header.value)).Thrown? ==>
              g == ErrorReply(verify(TokenOf(header.value)).errorName)
  {
    if header.None? || !HasScheme(header.value) then Reject(401, NoToken)
    else
      match verify(TokenOf(header.value))
      case Decoded(claims) => Pass(claims)
      case Thrown(name) => ErrorReply(name)
  }

  /** A token sent as `Bearer <token>` is the token that gets verified. */
  lemma BearerRoundTrip(token: string, verify: string -> Verification)
    ensures HasScheme(Scheme + token) && TokenOf(Scheme + token) == token
    ensures Authenticate(Some(Scheme + token), verify) ==
            (match verify(token) case Decoded(c) => Pass(c) case Thrown(n) => ErrorReply(n))
  {
    assert (Scheme + token)[..|Scheme|] == Scheme;
  }

  /** The scheme is matched case-sensitively and with its space: `bearer`
      and a bare `Bearer` are answered as if no token had been sent, whatever
      the token. */
  lemma OtherSchemesRejected(token: string, verify: string -> Verification)
    ensures Authenticate(Some("bearer " + token), verify) == Reject(401, NoToken)
    ensures Authenticate(Some("Bearer"), verify) == Reject(401, NoToken)
  {
    assert ("bearer " + token)[0] == 'b';
  }
}

=== FILE: common.dfy ===
/** Values shared by every service: optional request fields, JSON bodies,
    JavaScript truthiness, UUID strings and DECIMAL(10,2) money. */
module Common {

  datatype Option<T> = None | Some(value: T)

  /** A JSON value as it arrives in a request body. Numbers are kept as
      integers: no amount in this model is a fraction. */
  datatype Json =
    | JNull
    | JBool(b: bool)
    | JNumber(n: int)
    | JString(s: string)
    | JArray(elems: seq<Json>)
    | JObject(fields: map<string, Json>)

  /** JavaScript truthiness of an optional string field: `undefined`,
      `null` and the empty string are falsy, every other string is truthy. */
  predicate Truthy(s: Option<string>) {
    s.Some? && s.value != ""
  }

  /** Money in integer cents. */
  type Cents = int

  /** A DECIMAL(10,2) column holds at most ten digits, two of them after the
      point: in cents, strictly fewer than 10^10 in absolute value.
      A value outside this range makes the database reject the write. */
  predicate FitsDecimal10x2(c: Cents) {
    -10_000_000_000 < c < 10_000_000_000
  }

  /** A PostgreSQL INTEGER column holds a signed 32-bit value; a write
      outside this range fails with "integer out of range". */
  predicate Int32(x: int) {
    -0x8000_0000 <= x < 0x8000_0000
  }

  predicate IsHexDigit(c: char) {
    ('0' <= c <= '9') || ('a' <= c <= 'f') || ('A' <= c <= 'F')
  }

  predicate IsLowerHexDigit(c: char) {
    ('0' <= c <= '9') || ('a' <= c <= 'f')
  }

  /** What express-validator's `isUUID()` accepts: 8-4-4-4-12 hexadecimal
      digits of either case, separated by hyphens. */
  predicate IsUuid(s: string) {
    && |s| == 36
    && (forall i :: 0 <= i < 36 && i in {8, 13, 18, 23} ==> s[i] == '-')
    && (forall i :: 0 <= i < 36 && i !in {8, 13, 18, 23} ==> IsHexDigit(s[i]))
  }

  /** The canonical text of a UUID, as PostgreSQL stores and prints it:
      8-4-4-4-12 lower-case hexadecimal digits separated by hyphens. */
  predicate CanonicalUuid(s: string) {
    && |s| == 36
    && (forall i :: 0 <= i < 36 && i in {8, 13, 18, 23} ==> s[i] == '-')
    && (forall i :: 0 <= i < 36 && i !in {8, 13, 18, 23} ==> IsLowerHexDigit(s[i]))
  }

  /** ASCII lower case of the letters A to F; every other character is kept. */
  function LowerHex(c: char): char {
    if 'A' <= c <= 'F' then (c as int + 32) as char else c
  }

  function LowerAll(s: string): string {
    seq(|s|, i requires 0 <= i < |s| => LowerHex(s[i]))
  }

  /** What PostgreSQL's `uuid` input reads the digits from: what a pair of
      braces encloses, or else the whole text. */
  function Unbraced(s: string): string {
    if |s| >= 2 && s[0] == '{' && s[|s| - 1] == '}' then s[1..|s| - 1] else s
  }

  /** Where the reading resumes after the group of four digits that starts
      at `g`: past the digits, and past a hyphen right after them if there
      is one. */
  function Next(t: string, g: int): int {
    if 0 <= g + 4 < |t| && t[g + 4] == '-' then g + 5 else g + 4
  }

  /** Where the `k`-th of the eight groups of four digits starts in `t`
      (`k` from 0 to 7). */
  function Start(t: string, k: int): int {
    var g1 := Next(t, 0);
    var g2 := Next(t, g1);
    var g3 := Next(t, g2);
    var g4 := Next(t, g3);
    var g5 := Next(t, g4);
    var g6 := Next(t, g5);
    var g7 := Next(t, g6);
    if k <= 0 then 0 else if k == 1 then g1 else if k == 2 then g2 else if k == 3 then g3
    else if k == 4 then g4 else if k == 5 then g5 else if k == 6 then g6 else g7
  }

  /** A hexadecimal digit of either case at position `p` of `t`. */
  predicate HexDigitAt(t: string, p: int) {
    0 <= p < |t| && IsHexDigit(t[p])
  }

  /** PostgreSQL's `uuid` input accepts `s`: inside an optional pair of
      braces, 32 hexadecimal digits of either case read in eight groups of
      four, with an optional hyphen between two groups (none before the
      first or after the last), the last digit ending the text. */
  predicate PgUuid(s: string) {
    var t := Unbraced(s);
    forall d :: 0 <= d < 32 ==> HexDigitAt(t, DigitPos(t, d)) && (d == 31 ==> DigitPos(t, d) == |t| - 1)
  }

  /** The hyphens of the canonical layout 8-4-4-4-12. */
  predicate HyphenAt(i: int) {
    i == 8 || i == 13 || i == 18 || i == 23
  }

  /** Where the `d`-th of the 32 digits sits in `t`. */
  function DigitPos(t: string, d: int): int {
    Start(t, d / 4) + d % 4
  }

  /** Which of the 32 digits position `i` of the canonical layout holds. */
  function DigitOf(i: int): int {
    if i < 8 then i else if i < 13 then i - 1 else if i < 18 then i - 2 else if i < 23 then i - 3 else i - 4
  }

  function LowerAt(t: string, p: int): char {
    if 0 <= p < |t| then LowerHex(t[p]) else '0'
  }

  /** The canonical text of an id PostgreSQL accepts: its 32 digits in
      lower case, laid out 8-4-4-4-12. This is what a `uuid` column stores,
      compares and sends back, and the key its row is found under. */
  function Canonical(s: string): (r: string)
    requires PgUuid(s)
    ensures CanonicalUuid(r)
  {
    var t := Unbraced(s);
    seq(36, i requires 0 <= i < 36 => if HyphenAt(i) then '-' else LowerAt(t, DigitPos(t, DigitOf(i))))
  }

  /** `a` and `b` are spellings of the same UUID, as a `uuid` comparison sees them. */
  predicate SameUuid(a: string, b: string) {
    PgUuid(a) && PgUuid(b) && Canonical(a) == Canonical(b)
  }

  /** The text `isUUID()` accepts is read by PostgreSQL as its lower case. */
  lemma ValidatedUuidParses(s: string)
    requires IsUuid(s)
    ensures PgUuid(s) && Canonical(s) == LowerAll(s)
  {
    assert IsHexDigit(s[0]) && IsHexDigit(s[35]);
    assert Unbraced(s) == s;
    assert IsHexDigit(s[4]) && s[8] == '-' && s[13] == '-' && s[18] == '-' && s[23] == '-' && IsHexDigit(s[28]);
    assert Start(s, 7) == 32;
    forall i | 0 <= i < 36
      ensures Canonical(s)[i] == LowerAll(s)[i]
    {
      if !HyphenAt(i) {
        assert DigitPos(s, DigitOf(i)) == i;
      }
    }
  }

  /** Canonical text reads back as itself. */
  lemma CanonicalReadsBack(t: string)
    requires CanonicalUuid(t)
    ensures PgUuid(t) && Canonical(t) == t
  {
    assert IsUuid(t);
    ValidatedUuidParses(t);
    forall i | 0 <= i < |t|
      ensures LowerAll(t)[i] == t[i]
    {
      assert HyphenAt(i) || IsLowerHexDigit(t[i]);
    }
  }

  /** Reading a UUID's canonical text gives that text again. */
  lemma CanonicalIdempotent(s: string)
    requires PgUuid(s)
    ensures PgUuid(Canonical(s)) && Canonical(Canonical(s)) == Canonical(s)
  {
    CanonicalReadsBack(Canonical(s));
  }

  /** A spelling of the UUID whose canonical text is `p` (any case, braces,
      hyphens left out, or an upper- or mixed-case `isUUID()` spelling of it)
      is read by PostgreSQL as `p`: it finds the row stored under `p`. */
  lemma SpellingFindsKey(s: string, p: string)
    requires CanonicalUuid(p)
    requires SameUuid(s, p) || (IsUuid(s) && LowerAll(s) == p)
    ensures PgUuid(s) && Canonical(s) == p
  {
    CanonicalReadsBack(p);
    if IsUuid(s) {
      ValidatedUuidParses(s);
    }
  }
}

=== FILE: inventory_model.dfy ===
/** The `inventory` and `reservations` tables of the inventory service. */
module InventoryModel {
  import opened Common

  /** One stock record; there is at most one per product (`productId` is unique). */
  datatype Inventory = Inventory(
    productId: string,
    warehouseId: string,
    availableStock: int,
    reservedStock: int,
    totalStock: int)

  datatype ReservationStatus = Reserved | Released | Confirmed

  const DefaultReservationStatus: ReservationStatus := Reserved

  /** One `reservations` row: which order holds how many units of a product. */
  datatype Reservation = Reservation(productId: string, orderId: string, quantity: int, status: ReservationStatus)

  /** A record as the table keeps it: UUID columns in PostgreSQL's canonical
      text, INTEGER stock columns, and the `min: 0` validators on available
      and reserved stock. `totalStock` has no lower bound of its own. */
  predicate Persistable(inv: Inventory) {
    && CanonicalUuid(inv.productId) && CanonicalUuid(inv.warehouseId)
    && Int32(inv.availableStock) && Int32(inv.reservedStock) && Int32(inv.totalStock)
    && inv.availableStock >= 0 && inv.reservedStock >= 0
  }

  /** A reservations row as the table keeps it: canonical UUID product and
      order ids and an INTEGER quantity. */
  predicate StorableReservation(r: Reservation) {
    CanonicalUuid(r.productId) && CanonicalUuid(r.orderId) && Int32(r.quantity)
  }

  /** Stock conservation: every unit on record is either available or reserved. */
  predicate Balanced(inv: Inventory) {
    inv.availableStock + inv.reservedStock == inv.totalStock
  }

  /** A record created with only `availableStock` and `totalStock` given:
      `reservedStock` takes its default 0. */
  function NewInventory(productId: string, warehouseId: string, quantity: int): (inv: Inventory)
    ensures Balanced(inv) && inv.reservedStock == 0
    ensures inv.availableStock == quantity && inv.productId == productId && inv.warehouseId == warehouseId
    ensures Persistable(inv) <==> 0 <= quantity < 0x8000_0000 && CanonicalUuid(productId) && CanonicalUuid(warehouseId)
  {
    Inventory(productId, warehouseId, quantity, 0, quantity)
  }

  /** Moves `quantity` units from available to reserved stock (a negative
      quantity moves them back). */
  function Shift(inv: Inventory, quantity: int): (r: Inventory)
    ensures r.availableStock + quantity == inv.availableStock
    ensures r.reservedStock == inv.reservedStock + quantity
    ensures r.totalStock == inv.totalStock && r.productId == inv.productId && r.warehouseId == inv.warehouseId
    ensures Balanced(r) <==> Balanced(inv)
  {
    inv.(availableStock := inv.availableStock - quantity, reservedStock := inv.reservedStock + quantity)
  }

  /** Adds `quantity` units (fewer when negative) to available and total
      stock, leaving reserved stock alone. */
  function Restock(inv: Inventory, quantity: int): (r: Inventory)
    ensures r.availableStock == inv.availableStock + quantity && r.totalStock == inv.totalStock + quantity
    ensures r.reservedStock == inv.reservedStock && r.productId == inv.productId && r.warehouseId == inv.warehouseId
    ensures Balanced(r) <==> Balanced(inv)
  {
    inv.(availableStock := inv.availableStock + quantity, totalStock := inv.totalStock + quantity)
  }

  /** Shifting there and back restores the record. */
  lemma ShiftInverse(inv: Inventory, quantity: int)
    ensures Shift(Shift(inv, quantity), -quantity) == inv
  {
  }

  /** Conservation together with the validators bounds the total from below,
      although the column itself has no constraint. */
  lemma TotalNeverNegative(inv: Inventory)
    requires Persistable(inv) && Balanced(inv)
    ensures inv.totalStock >= 0 && inv.availableStock <= inv.totalStock && inv.reservedStock <= inv.totalStock
  {
  }
}

=== FILE: inventory_routes.dfy ===
/** The inventory service's routes over its two tables: `GET /:productId`,
    `POST /reserve`, `POST /release` and `PUT /:productId/adjust`.
    Each route is specified by a function from the ledger before the request
    to the ledger after it and the HTTP status; `InventoryService` performs
    the same updates in place. */
module InventoryRoutes {
  import opened Common
  import opened InventoryModel

  /** The two tables: stock records keyed by the canonical text of their
      product id (the unique key), and the reservation rows in insertion order. */
  datatype Ledger = Ledger(inventory: map<string, Inventory>, reservations: seq<Reservation>)

  /** Every record sits under its own product id, which is in canonical form,
      passes the column constraints and conserves stock. */
  predicate ValidLedger(l: Ledger) {
    forall p :: p in l.inventory ==>
      && l.inventory[p].productId == p
      && Persistable(l.inventory[p]) && Balanced(l.inventory[p])
  }

  /** The ledger after a request, with the response's status and message. */
  datatype Handled = Handled(ledger: Ledger, status: int, message: string)

  const DefaultWarehouseId: string := "00000000-0000-0000-0000-000000000001"

  /** `GET /:productId`: the record, 404, or 500 when PostgreSQL cannot read
      the id as a UUID. Any spelling of the UUID finds the record. */
  function Lookup(l: Ledger, productId: string): (r: (int, Option<Inventory>))
    ensures r.0 in {200, 404, 500}
    ensures r.0 == 500 <==> !PgUuid(productId)
    ensures r.0 == 404 <==> PgUuid(productId) && Canonical(productId) !in l.inventory
    ensures r.0 != 200 ==> r.1.None?
    ensures r.0 == 200 ==> r.1 == Some(l.inventory[Canonical(productId)])
  {
    if !PgUuid(productId) then (500, None)
    else if Canonical(productId) in l.inventory then (200, Some(l.inventory[Canonical(productId)]))
    else (404, None)
  }

  /** Every spelling PostgreSQL reads as the UUID of a stored record finds
      that record, among them each upper- or mixed-case `isUUID()` spelling. */
  lemma LookupFindsEverySpelling(l: Ledger, p: string, s: string)
    requires ValidLedger(l) && p in l.inventory
    requires SameUuid(s, p) || (IsUuid(s) && LowerAll(s) == p)
    ensures Lookup(l, s) == (200, Some(l.inventory[p]))
  {
    SpellingFindsKey(s, p);
  }

  /** The stock record of `productId` exists, has `quantity` units
      available, and would pass the column constraints once they are reserved. */
  predicate CanReserve(l: Ledger, productId: string, quantity: int) {
    && PgUuid(productId)
    && Canonical(productId) in l.inventory
    && l.inventory[Canonical(productId)].availableStock >= quantity
    && Persistable(Shift(l.inventory[Canonical(productId)], quantity))
  }

  /** `POST /reserve`. The stock record is saved before the reservation row
      is created, so an order id the reservations table refuses answers 500
      with the stock already moved. */
  function AfterReserve(l: Ledger, productId: string, quantity: int, orderId: string): (h: Handled)
    ensures h.status in {200, 400, 500}
    // no record, or too little available stock: 400 "Insufficient stock"
    ensures h.status == 400 <==>
              PgUuid(productId)
              && (Canonical(productId) !in l.inventory || l.inventory[Canonical(productId)].availableStock < quantity)
    ensures h.status == 200 <==> CanReserve(l, productId, quantity) && PgUuid(orderId) && Int32(quantity)
    // success moves the units to reserved stock, touches no other record and
    // appends one `reserved` row for the order
    ensures h.status == 200 ==>
              h.ledger == Ledger(l.inventory[Canonical(productId) := Shift(l.inventory[Canonical(productId)], quantity)],
                                 l.reservations + [Reservation(Canonical(productId), Canonical(orderId), quantity, Reserved)])
    // a refused request writes no reservation; it keeps the stock unless only
    // the reservation row was refused
    ensures h.status != 200 ==> h.ledger.reservations == l.reservations
    ensures h.status != 200 ==>
              h.ledger.inventory == (if CanReserve(l, productId, quantity)
                                     then l.inventory[Canonical(productId) := Shift(l.inventory[Canonical(productId)], quantity)]
                                     else l.inventory)
  {
    if !PgUuid(productId) then Handled(l, 500, "Failed to reserve stock")
    else
      var key := Canonical(productId);
      if key !in l.inventory || l.inventory[key].availableStock < quantity then Handled(l, 400, "Insufficient stock")
      else
        var updated := Shift(l.inventory[key], quantity);
        if !Persistable(updated) then Handled(l, 500, "Failed to reserve stock")
        else
          var saved := l.(inventory := l.inventory[key := updated]);
          if !PgUuid(orderId) || !StorableReservation(Reservation(key, Canonical(orderId), quantity, DefaultReservationStatus)) then
            Handled(saved, 500, "Failed to reserve stock")
          else
            var row := Reservation(key, Canonical(orderId), quantity, DefaultReservationStatus);
            Handled(saved.(reservations := l.reservations + [row]), 200, "Stock reserved successfully")
  }

  /** `Reservation.update({ status: 'released' }, { where: { orderId, productId } })`,
      with both ids in canonical form. */
  function MarkReleased(rs: seq<Reservation>, orderId: string, productId: string): seq<Reservation> {
    seq(|rs|, k requires 0 <= k < |rs| =>
      if rs[k].orderId == orderId && rs[k].productId == productId then rs[k].(status := Released) else rs[k])
  }

  /** The stock record of `productId` exists and would pass the column
      constraints with `quantity` units moved back from reserved to available. */
  predicate CanRelease(l: Ledger, productId: string, quantity: int) {
    && PgUuid(productId)
    && Canonical(productId) in l.inventory
    && Persistable(Shift(l.inventory[Canonical(productId)], -quantity))
  }

  /** `POST /release`. Nothing checks that a reservation exists: only the
      column constraints stop a release. As in reserve, the stock record is
      saved before the reservation rows are updated. */
  function AfterRelease(l: Ledger, productId: string, quantity: int, orderId: string): (h: Handled)
    ensures h.status in {200, 404, 500}
    ensures h.status == 404 <==> PgUuid(productId) && Canonical(productId) !in l.inventory
    // succeeds iff the record exists and both stocks stay within [0, 2^31),
    // whatever the reservations say
    ensures h.status == 200 <==> CanRelease(l, productId, quantity) && PgUuid(orderId)
    ensures ValidLedger(l) ==>
              (CanRelease(l, productId, quantity) <==>
                 && PgUuid(productId) && Canonical(productId) in l.inventory
                 && 0 <= l.inventory[Canonical(productId)].reservedStock - quantity < 0x8000_0000
                 && 0 <= l.inventory[Canonical(productId)].availableStock + quantity < 0x8000_0000)
    ensures h.status == 200 ==>
              h.ledger == Ledger(l.inventory[Canonical(productId) := Shift(l.inventory[Canonical(productId)], -quantity)],
                                 MarkReleased(l.reservations, Canonical(orderId), Canonical(productId)))
    ensures h.status == 200 ==>
              forall k :: 0 <= k < |l.reservations| ==>
                var r := l.reservations[k];
                h.ledger.reservations[k] ==
                  (if r.orderId == Canonical(orderId) && r.productId == Canonical(productId)
                   then r.(status := Released) else r)
    ensures h.status != 200 ==> h.ledger.reservations == l.reservations
    ensures h.status != 200 ==>
              h.ledger.inventory == (if CanRelease(l, productId, quantity)
                                     then l.inventory[Canonical(productId) := Shift(l.inventory[Canonical(productId)], -quantity)]
                                     else l.inventory)
  {
    if !PgUuid(productId) then Handled(l, 500, "Failed to release stock")
    else
      var key := Canonical(productId);
      if key !in l.inventory then Handled(l, 404, "Inventory not found")
      else
        var updated := Shift(l.inventory[key], -quantity);
        if !Persistable(updated) then Handled(l, 500, "Failed to release stock")
        else
          var saved := l.(inventory := l.inventory[key := updated]);
          if !PgUuid(orderId) then Handled(saved, 500, "Failed to release stock")
          else Handled(saved.(reservations := MarkReleased(l.reservations, Canonical(orderId), key)),
                       200, "Stock released successfully")
  }

  /** The warehouse of a record created by adjust: the given one if truthy. */
  function WarehouseOrDefault(warehouseId: Option<string>): (w: string)
    ensures Truthy(warehouseId) ==> w == warehouseId.value
    ensures !Truthy(warehouseId) ==> w == DefaultWarehouseId
  {
    if Truthy(warehouseId) then warehouseId.value else DefaultWarehouseId
  }

  /** `PUT /:productId/adjust`: creates the record on first use, otherwise adds
      `quantity` (which may be negative) to available and total stock. */
  function AfterAdjust(l: Ledger, productId: string, quantity: int, warehouseId: Option<string>): (h: Handled)
    ensures h.status in {200, 500}
    ensures h.status == 500 ==> h.ledger == l
    ensures !PgUuid(productId) ==> h.status == 500
    ensures h.ledger.reservations == l.reservations
    ensures forall p :: p in l.inventory && !(PgUuid(productId) && p == Canonical(productId)) ==>
              p in h.ledger.inventory && h.ledger.inventory[p] == l.inventory[p]
    ensures h.status == 200 ==> h.ledger.inventory.Keys == l.inventory.Keys + {Canonical(productId)}
    // a missing product gets a record with available = total = quantity, no
    // reserved stock, and the given warehouse or the default one
    ensures PgUuid(productId) && Canonical(productId) !in l.inventory ==>
              (h.status == 200 <==> 0 <= quantity < 0x8000_0000 && PgUuid(WarehouseOrDefault(warehouseId)))
              && (h.status == 200 ==>
                    h.ledger.inventory[Canonical(productId)] ==
                      Inventory(Canonical(productId), Canonical(WarehouseOrDefault(warehouseId)), quantity, 0, quantity))
    // an existing record gains quantity in available and total stock, while
    // available stock stays non-negative and the total fits an INTEGER
    ensures PgUuid(productId) && Canonical(productId) in l.inventory ==>
              var inv := l.inventory[Canonical(productId)];
              (h.status == 200 <==> Persistable(Restock(inv, quantity)))
              && (ValidLedger(l) ==>
                    (h.status == 200 <==> 0 <= inv.availableStock + quantity && inv.totalStock + quantity < 0x8000_0000))
              && (h.status == 200 ==>
                    h.ledger.inventory[Canonical(productId)] == Restock(inv, quantity))
  {
    if !PgUuid(productId) then Handled(l, 500, "Failed to adjust stock")
    else
      var key := Canonical(productId);
      if key !in l.inventory then
        var w := WarehouseOrDefault(warehouseId);
        if !PgUuid(w) || !Persistable(NewInventory(key, Canonical(w), quantity)) then Handled(l, 500, "Failed to adjust stock")
        else Handled(l.(inventory := l.inventory[key := NewInventory(key, Canonical(w), quantity)]), 200, "Inventory created")
      else
        var inv := l.inventory[key];
        var updated := Restock(inv, quantity);
        if !Persistable(updated) then Handled(l, 500, "Failed to adjust stock")
        else Handled(l.(inventory := l.inventory[key := updated]), 200, "Stock adjusted successfully")
  }

  /** A request as it reaches the inventory service. */
  datatype InventoryRequest =
    | ReserveRequest(productId: string, quantity: int, orderId: string)
    | ReleaseRequest(productId: string, quantity: int, orderId: string)
    | AdjustRequest(productId: string, quantity: int, warehouseId: Option<string>)

  function Handle(l: Ledger, req: InventoryRequest): Handled {
    match req
    case ReserveRequest(p, q, o) => AfterReserve(l, p, q, o)
    case ReleaseRequest(p, q, o) => AfterRelease(l, p, q, o)
    case AdjustRequest(p, q, w) => AfterAdjust(l, p, q, w)
  }

  /** The ledger after serving `reqs` one after the other. */
  function ServeAll(l: Ledger, reqs: seq<InventoryRequest>): Ledger
    decreases |reqs|
  {
    if reqs == [] then l else ServeAll(Handle(l, reqs[0]).ledger, reqs[1..])
  }

  /** Reserve, release and adjust all keep every record under its key,
      non-negative and balanced (an adjust-create starts balanced because
      reservedStock defaults to 0). */
  lemma HandlePreservesValid(l: Ledger, req: InventoryRequest)
    requires ValidLedger(l)
    ensures ValidLedger(Handle(l, req).ledger)
  {
    match req
    case ReserveRequest(p, q, o) => ReserveKeepsValid(l, p, q, o);
    case ReleaseRequest(p, q, o) => ReleaseKeepsValid(l, p, q, o);
    case AdjustRequest(p, q, w) => AdjustKeepsValid(l, p, q, w);
  }

  lemma ReserveKeepsValid(l: Ledger, productId: string, quantity: int, orderId: string)
    requires ValidLedger(l)
    ensures ValidLedger(AfterReserve(l, productId, quantity, orderId).ledger)
  {
  }

  lemma ReleaseKeepsValid(l: Ledger, productId: string, quantity: int, orderId: string)
    requires ValidLedger(l)
    ensures ValidLedger(AfterRelease(l, productId, quantity, orderId).ledger)
  {
  }

  lemma AdjustKeepsValid(l: Ledger, productId: string, quantity: int, warehouseId: Option<string>)
    requires ValidLedger(l)
    ensures ValidLedger(AfterAdjust(l, productId, quantity, warehouseId).ledger)
  {
  }

  /** Reserving and then releasing the same quantity of the same product for
      the same order restores the stock record exactly, and leaves the new
      reservation (with every earlier one of that order and product) released. */
  lemma ReserveThenReleaseRestores(l: Ledger, productId: string, quantity: int, orderId: string)
    requires ValidLedger(l)
    requires AfterReserve(l, productId, quantity, orderId).status == 200
    ensures var l1 := AfterReserve(l, productId, quantity, orderId).ledger;
            var h2 := AfterRelease(l1, productId, quantity, orderId);
            && h2.status == 200
            && h2.ledger.inventory == l.inventory
            && h2.ledger.reservations == MarkReleased(l.reservations, Canonical(orderId), Canonical(productId))
                                         + [Reservation(Canonical(productId), Canonical(orderId), quantity, Released)]
  {
    var key := Canonical(productId);
    var l1 := AfterReserve(l, productId, quantity, orderId).ledger;
    ShiftInverse(l.inventory[key], quantity);
    assert l1.inventory[key := Shift(l1.inventory[key], -quantity)] == l.inventory;
  }

  /** `n` releases of the same quantity in a row. */
  function ReleaseTimes(l: Ledger, productId: string, quantity: int, orderId: string, n: nat): Ledger
    decreases n
  {
    if n == 0 then l else AfterRelease(ReleaseTimes(l, productId, quantity, orderId, n - 1), productId, quantity, orderId).ledger
  }

  /** Release is not guarded by the reservations: repeating it keeps moving
      `quantity` units back to available stock while reserved stock lasts,
      and the first release that would take reserved stock below zero is
      refused by the validator with a 500. */
  lemma RepeatedReleaseDrainsReserved(l: Ledger, productId: string, quantity: int, orderId: string, n: nat)
    requires PgUuid(productId) && PgUuid(orderId) && Canonical(productId) in l.inventory
    requires Persistable(l.inventory[Canonical(productId)]) && Balanced(l.inventory[Canonical(productId)])
    requires quantity >= 1 && n * quantity <= l.inventory[Canonical(productId)].reservedStock
    ensures var ln := ReleaseTimes(l, productId, quantity, orderId, n);
            var before := l.inventory[Canonical(productId)];
            && Canonical(productId) in ln.inventory
            && Persistable(ln.inventory[Canonical(productId)]) && Balanced(ln.inventory[Canonical(productId)])
            && ln.inventory[Canonical(productId)].reservedStock == before.reservedStock - n * quantity
            && ln.inventory[Canonical(productId)].availableStock == before.availableStock + n * quantity
            && ln.inventory[Canonical(productId)].totalStock == before.totalStock
            && ((AfterRelease(ln, productId, quantity, orderId).status == 200)
                <==> ((n + 1) * quantity <= before.reservedStock))
  {
    DrainedRecord(l, productId, quantity, orderId, n);
    ReleaseStep(ReleaseTimes(l, productId, quantity, orderId, n), productId, quantity, orderId);
    assert (n + 1) * quantity == n * quantity + quantity;
  }

  /** The record after `n` releases that reserved stock covers. */
  lemma {:induction false} DrainedRecord(l: Ledger, productId: string, quantity: int, orderId: string, n: nat)
    requires PgUuid(productId) && PgUuid(orderId) && Canonical(productId) in l.inventory
    requires Persistable(l.inventory[Canonical(productId)]) && Balanced(l.inventory[Canonical(productId)])
    requires quantity >= 1 && n * quantity <= l.inventory[Canonical(productId)].reservedStock
    ensures var ln := ReleaseTimes(l, productId, quantity, orderId, n);
            && Canonical(productId) in ln.inventory
            && ln.inventory[Canonical(productId)] == Shift(l.inventory[Canonical(productId)], -(n * quantity))
            && Persistable(ln.inventory[Canonical(productId)])
    decreases n
  {
    if n > 0 {
      assert n * quantity == (n - 1) * quantity + quantity;
      DrainedRecord(l, productId, quantity, orderId, n - 1);
      ReleaseStep(ReleaseTimes(l, productId, quantity, orderId, n - 1), productId, quantity, orderId);
    }
  }

  /** One release against a sound, balanced record: it goes through exactly
      when reserved stock covers the quantity (the available side cannot
      overflow, as it stays below the total). */
  lemma ReleaseStep(l: Ledger, productId: string, quantity: int, orderId: string)
    requires PgUuid(productId) && PgUuid(orderId) && Canonical(productId) in l.inventory
    requires Persistable(l.inventory[Canonical(productId)]) && Balanced(l.inventory[Canonical(productId)])
    requires quantity >= 1
    ensures var rec := l.inventory[Canonical(productId)];
            var h := AfterRelease(l, productId, quantity, orderId);
            && (h.status == 200 <==> quantity <= rec.reservedStock)
            && (h.status == 200 ==> h.ledger.inventory == l.inventory[Canonical(productId) := Shift(rec, -quantity)])
  {
  }

  /** Without release requests, and with non-negative reserve quantities, no
      request sequence lowers the reserved stock of a product on record:
      whatever was reserved stays reserved. */
  lemma {:induction false} ReservedStockNeverFallsWithoutRelease(l: Ledger, reqs: seq<InventoryRequest>, productId: string)
    requires productId in l.inventory
    requires forall k :: 0 <= k < |reqs| ==> !reqs[k].ReleaseRequest?
    requires forall k :: 0 <= k < |reqs| && reqs[k].ReserveRequest? ==> reqs[k].quantity >= 0
    ensures productId in ServeAll(l, reqs).inventory
    ensures ServeAll(l, reqs).inventory[productId].reservedStock >= l.inventory[productId].reservedStock
    decreases |reqs|
  {
    if reqs != [] {
      var l1 := Handle(l, reqs[0]).ledger;
      assert productId in l1.inventory && l1.inventory[productId].reservedStock >= l.inventory[productId].reservedStock;
      ReservedStockNeverFallsWithoutRelease(l1, reqs[1..], productId);
    }
  }

  /** The two tables, updated in place by the route handlers. */
  class InventoryService {
    var inventory: map<string, Inventory>
    var reservations: seq<Reservation>

    function State(): Ledger
      reads this
    {
      Ledger(inventory, reservations)
    }

    ghost predicate Valid()
      reads this
    {
      ValidLedger(State())
    }

    constructor ()
      ensures Valid() && State() == Ledger(map[], [])
    {
      inventory := map[];
      reservations := [];
    }

    method Reserve(productId: string, quantity: int, orderId: string) returns (status: int, message: string)
      requires Valid()
      modifies this
      ensures Handled(State(), status, message) == AfterReserve(old(State()), productId, quantity, orderId)
      ensures Valid()
    {
      if !PgUuid(productId) {
        return 500, "Failed to reserve stock";
      }
      var key := Canonical(productId);
      if key !in inventory || inventory[key].availableStock < quantity {
        return 400, "Insufficient stock";
      }
      var record := inventory[key];
      record := record.(availableStock := record.availableStock - quantity);
      record := record.(reservedStock := record.reservedStock + quantity);
      assert record == Shift(inventory[key], quantity);
      if !Persistable(record) {
        return 500, "Failed to reserve stock";
      }
      inventory := inventory[key := record];
      if !PgUuid(orderId) || !StorableReservation(Reservation(key, Canonical(orderId), quantity, DefaultReservationStatus)) {
        status, message := 500, "Failed to reserve stock";
        assert Handled(State(), status, message) == AfterReserve(old(State()), productId, quantity, orderId);
        ReserveKeepsValid(old(State()), productId, quantity, orderId);
        return;
      }
      reservations := reservations + [Reservation(key, Canonical(orderId), quantity, DefaultReservationStatus)];
      status, message := 200, "Stock reserved successfully";
      assert Handled(State(), status, message) == AfterReserve(old(State()), productId, quantity, orderId);
      ReserveKeepsValid(old(State()), productId, quantity, orderId);
    }

    method Release(productId: string, quantity: int, orderId: string) returns (status: int, message: string)
      requires Valid()
      modifies this
      ensures Handled(State(), status, message) == AfterRelease(old(State()), productId, quantity, orderId)
      ensures Valid()
    {
      if !PgUuid(productId) {
        return 500, "Failed to release stock";
      }
      var key := Canonical(productId);
      if key !in inventory {
        return 404, "Inventory not found";
      }
      var record := inventory[key];
      record := record.(availableStock := record.availableStock + quantity);
      record := record.(reservedStock := record.reservedStock - quantity);
      assert record == Shift(inventory[key], -quantity);
      if !Persistable(record) {
        return 500, "Failed to release stock";
      }
      inventory := inventory[key := record];
      if !PgUuid(orderId) {
        status, message := 500, "Failed to release stock";
        assert Handled(State(), status, message) == AfterRelease(old(State()), productId, quantity, orderId);
        ReleaseKeepsValid(old(State()), productId, quantity, orderId);
        return;
      }
      reservations := MarkReleased(reservations, Canonical(orderId), key);
      status, message := 200, "Stock released successfully";
      assert Handled(State(), status, message) == AfterRelease(old(State()), productId, quantity, orderId);
      ReleaseKeepsValid(old(State()), productId, quantity, orderId);
    }

    method Adjust(productId: string, quantity: int, warehouseId: Option<string>) returns (status: int, message: string)
      requires Valid()
      modifies this
      ensures Handled(State(), status, message) == AfterAdjust(old(State()), productId, quantity, warehouseId)
      ensures Valid()
    {
      if !PgUuid(productId) {
        return 500, "Failed to adjust stock";
      }
      var key := Canonical(productId);
      if key !in inventory {
        var w := WarehouseOrDefault(warehouseId);
        if !PgUuid(w) || !Persistable(NewInventory(key, Canonical(w), quantity)) {
          return 500, "Failed to adjust stock";
        }
        inventory := inventory[key := NewInventory(key, Canonical(w), quantity)];
        status, message := 200, "Inventory created";
        assert Handled(State(), status, message) == AfterAdjust(old(State()), productId, quantity, warehouseId);
        AdjustKeepsValid(old(State()), productId, quantity, warehouseId);
        return;
      }
      var record := inventory[key];
      record := record.(availableStock := record.availableStock + quantity);
      record := record.(totalStock := record.totalStock + quantity);
      assert record == Restock(inventory[key], quantity);
      if !Persistable(record) {
        return 500, "Failed to adjust stock";
      }
      inventory := inventory[key := record];
      status, message := 200, "Stock adjusted successfully";
      assert Handled(State(), status, message) == AfterAdjust(old(State()), productId, quantity, warehouseId);
      AdjustKeepsValid(old(State()), productId, quantity, warehouseId);
    }
  }
}

=== FILE: order_controller.dfy ===
/** The order service's HTTP handlers: `createOrder` runs the validator's
    verdict and then the saga, `getOrderById` and `getUserOrders` read the
    orders table, and `cancelOrder` runs the saga's compensation on a
    pending order. */
module OrderController {
  import opened Common
  import opened OrderModel
  import opened OrderTable
  import OR = OrderRoutes
  import P = Pagination
  import S = Saga

  /** A JSON response: the status code and the fields the handler puts in
      the body (a message, the validation errors, an order with its items). */
  datatype Reply = Reply(status: int, message: string, errors: seq<OR.ValidationError>, order: Option<OrderRow>)

  const Created: string := "Order created successfully"
  const CreateFailed: string := "Failed to create order"
  const NotFound: string := "Order not found"
  const InternalError: string := "Internal server error"
  const NotCancellable: string := "Order cannot be cancelled"
  const CancelledOk: string := "Order cancelled successfully"
  const CancelReason: string := "User cancelled"

  /** `error.message || 'Failed to create order'`. */
  function ErrorMessage(e: S.SagaError): (m: string)
    ensures m != ""
    ensures e.Message() != "" ==> m == e.Message()
    ensures e.Message() == "" ==> m == CreateFailed
  {
    if e.Message() != "" then e.Message() else CreateFailed
  }

  /** `getOrderById`: `findByPk` with the items. PostgreSQL reads the id
      as a UUID in any of its spellings and looks up its canonical text; it
      refuses an id that is no UUID, and the handler answers that error
      with 500. */
  function GetOrderById(rows: map<string, OrderRow>, id: string): (r: Reply)
    ensures r.status in {200, 404, 500}
    ensures r.status == 500 <==> !PgUuid(id)
    ensures r.status == 404 <==> PgUuid(id) && Canonical(id) !in rows
    ensures r.status == 200 ==> Canonical(id) in rows && r.order == Some(rows[Canonical(id)])
    ensures r.status != 200 ==> r.order.None?
  {
    if !PgUuid(id) then Reply(500, InternalError, [], None)
    else if Canonical(id) !in rows then Reply(404, NotFound, [], None)
    else Reply(200, "", [], Some(rows[Canonical(id)]))
  }

  /** Every spelling PostgreSQL reads as the id of a stored order, among them
      each upper- or mixed-case `isUUID()` spelling, finds that order, and
      `cancelOrder` guards that same order. */
  lemma EverySpellingFindsOrder(rows: map<string, OrderRow>, p: string, s: string)
    requires p in rows && CanonicalUuid(p)
    requires SameUuid(s, p) || (IsUuid(s) && LowerAll(s) == p)
    ensures GetOrderById(rows, s) == Reply(200, "", [], Some(rows[p]))
    ensures CancelGuard(rows, s).None? <==> Cancellable(rows[p].status)
  {
    SpellingFindsKey(s, p);
  }

  /** Every id of the creation order `created` has a row. */
  predicate AllStored(rows: map<string, OrderRow>, created: seq<string>) {
    forall i :: 0 <= i < |created| ==> created[i] in rows
  }

  /** Where the orders of the user whose canonical id is `key` sit among
      the first `n` of the creation order `created`, newest first
      (`ORDER BY createdAt DESC`): each is one of that user's, each comes
      before every older one, and none of that user's is missing. */
  function Matching(rows: map<string, OrderRow>, created: seq<string>, key: string, n: nat): (ix: seq<nat>)
    requires AllStored(rows, created) && n <= |created|
    ensures |ix| <= n
    ensures forall k :: 0 <= k < |ix| ==> ix[k] < n && rows[created[ix[k]]].userId == key
    ensures forall j, k :: 0 <= j < k < |ix| ==> ix[j] > ix[k]
    ensures forall i :: 0 <= i < n && rows[created[i]].userId == key ==> i in ix
    decreases n
  {
    if n == 0 then []
    else
      var older := Matching(rows, created, key, n - 1);
      if rows[created[n - 1]].userId == key then [n - 1] + older else older
  }

  /** The rows `getUserOrders` lists for the user whose canonical id is
      `key`, before paging: one per position `Matching` finds. */
  function OrdersOf(rows: map<string, OrderRow>, created: seq<string>, key: string): (orders: seq<OrderRow>)
    requires AllStored(rows, created)
    ensures |orders| <= |created|
  {
    var ix := Matching(rows, created, key, |created|);
    seq(|ix|, k requires 0 <= k < |ix| => rows[created[ix[k]]])
  }

  /** What `findAndCountAll` counts when it includes a has-many
      association: the rows of the LEFT JOIN, one per item, and one for an
      order without items. */
  function JoinedCount(orders: seq<OrderRow>): nat
    decreases |orders|
  {
    if orders == [] then 0
    else (if |orders[0].items| == 0 then 1 else |orders[0].items|) + JoinedCount(orders[1..])
  }

  /** The joined count is never below the number of orders, and equals it
      iff no order has more than one item: the `total` and `totalPages` of
      `getUserOrders` overcount a user with multi-item orders. */
  lemma {:induction false} JoinedCountOvercounts(orders: seq<OrderRow>)
    ensures JoinedCount(orders) >= |orders|
    ensures JoinedCount(orders) == |orders| <==> forall k :: 0 <= k < |orders| ==> |orders[k].items| <= 1
    decreases |orders|
  {
    if orders != [] {
      JoinedCountOvercounts(orders[1..]);
      assert forall k :: 1 <= k < |orders| ==> orders[k] == orders[1..][k - 1];
    }
  }

  /** The body of a successful `getUserOrders`. */
  datatype Listing = Listing(orders: seq<OrderRow>, total: nat, page: int, limit: int, totalPages: Option<int>)

  /** `getUserOrders`: the page `page` (default 1) of `limit` (default 10)
      orders of the user, newest first; a user id that is not a UUID, a
      negative limit or a negative offset is a database error, answered
      with 500 (`None`). */
  function GetUserOrders(rows: map<string, OrderRow>, created: seq<string>, userId: string,
                         page: Option<int>, limit: Option<int>): (r: Option<Listing>)
    requires AllStored(rows, created)
    ensures var pg := P.OrDefault(page, P.DefaultPage);
            var lim := P.OrDefault(limit, P.DefaultLimit);
            && (r.None? <==> !PgUuid(userId) || lim < 0 || P.Offset(pg, lim) < 0)
            && (r.Some? ==>
                  var matching := OrdersOf(rows, created, Canonical(userId));
                  && r.value.page == pg && r.value.limit == lim
                  && |r.value.orders| <= lim
                  && (forall k :: 0 <= k < |r.value.orders| ==>
                        P.Offset(pg, lim) + k < |matching| && r.value.orders[k] == matching[P.Offset(pg, lim) + k])
                  && r.value.total == JoinedCount(matching)
                  && r.value.totalPages == P.TotalPages(JoinedCount(matching), lim))
  {
    var pg := P.OrDefault(page, P.DefaultPage);
    var lim := P.OrDefault(limit, P.DefaultLimit);
    if !PgUuid(userId) then None
    else
      var matching := OrdersOf(rows, created, Canonical(userId));
      var count := JoinedCount(matching);
      match P.Paginate(matching, pg, lim)
      case None => None
      case Some(l) => Some(Listing(l.rows, count, l.page, l.limit, P.TotalPages(count, lim)))
  }

  /** The statuses `cancelOrder` accepts. */
  predicate Cancellable(s: OrderStatus) {
    s == OrderStatus.Pending || s == OrderStatus.PaymentProcessing
  }

  /** The early answers of `cancelOrder`: 500 for an id PostgreSQL refuses,
      404 for an unknown order, 400 for an order past payment; `None` when
      compensation runs. The id is read as `findByPk` reads it. */
  function CancelGuard(rows: map<string, OrderRow>, id: string): (r: Option<Reply>)
    ensures r.None? <==> PgUuid(id) && Canonical(id) in rows && Cancellable(rows[Canonical(id)].status)
    ensures r.Some? ==> r.value.status in {400, 404, 500} && r.value.order.None?
    ensures r.Some? && r.value.status == 404 <==> PgUuid(id) && Canonical(id) !in rows
    ensures r.Some? && r.value.status == 400 <==>
              PgUuid(id) && Canonical(id) in rows && !Cancellable(rows[Canonical(id)].status)
  {
    if !PgUuid(id) then Some(Reply(500, InternalError, [], None))
    else if Canonical(id) !in rows then Some(Reply(404, NotFound, [], None))
    else if !Cancellable(rows[Canonical(id)].status) then Some(Reply(400, NotCancellable, [], None))
    else None
  }

  /** An order that compensation brought to `(cancelled, failed)` is refused
      by a second cancel, while one left at `compensating` by a failed last
      save keeps its old status and can be cancelled again. */
  lemma SecondCancel(rows: map<string, OrderRow>, id: string)
    requires CancelGuard(rows, id).None?
    ensures var key := Canonical(id);
            CancelGuard(rows[key := rows[key].(status := OrderStatus.Cancelled, sagaState := Failed)], id)
            == Some(Reply(400, NotCancellable, [], None))
    ensures var key := Canonical(id);
            CancelGuard(rows[key := rows[key].(sagaState := Compensating)], id).None?
  {
  }

  /** The controller over the saga and the tables it reaches. */
  class OrderApi {
    const saga: S.OrderSaga

    constructor (saga: S.OrderSaga)
      ensures this.saga == saga
    {
      this.saga := saga;
    }

    /** `createOrder`: 400 with the validator's errors and no saga run; else
      the saga, answered with 201 and the order re-read with its items, or
      with 500 and the error's message. */
    method CreateOrder(input: OR.OrderInput, env: S.Env) returns (reply: Reply, ghost outcome: Option<S.Outcome>)
      requires saga.Valid()
      modifies saga, saga.inventory, saga.store, saga.payments
      ensures saga.Valid()
      ensures OR.ValidationErrors(input) != [] ==>
                && reply == Reply(400, "", OR.ValidationErrors(input), None) && outcome.None?
                && saga.store.rows == old(saga.store.rows) && saga.store.created == old(saga.store.created)
                && saga.toInventory == old(saga.toInventory) && saga.toPayments == old(saga.toPayments)
                && saga.published == old(saga.published)
      ensures OR.ValidationErrors(input) == [] ==> outcome.Some?
      ensures outcome.Some? && outcome.value.Threw? ==>
                reply == Reply(500, ErrorMessage(outcome.value.error), [], None)
      ensures outcome.Some? && outcome.value.Succeeded? ==>
                && env.orderId in saga.store.rows
                && reply == Reply(201, Created, [], Some(saga.store.rows[env.orderId]))
                && saga.store.rows[env.orderId].status == Confirmed
                && saga.store.rows[env.orderId].sagaState == Completed
                && saga.store.rows[env.orderId].paymentId == Some(env.paymentId)
                && saga.store.rows[env.orderId].items == S.ItemRows(env.orderId, input.items)
    {
      var errors := OR.ValidationErrors(input);
      if errors != [] {
        return Reply(400, "", errors, None), None;
      }
      var r, created, cause, accepted, delivered, called, refunds :=
        saga.ExecuteOrderSaga(input.userId, input.items, input.shippingAddress, env);
      outcome := Some(r);
      match r
      case Threw(e) =>
        reply := Reply(500, ErrorMessage(e), [], None);
      case Succeeded(order) =>
        reply := Reply(201, Created, [], Some(saga.store.rows[order.id]));
    }

    /** `cancelOrder`: after the guard, `compensate` with the reason
      "User cancelled"; only its first save can throw, answered with 500. */
    method CancelOrder(id: string, env: S.Env) returns (reply: Reply)
      requires saga.Valid()
      modifies saga, saga.store, saga.payments
      ensures saga.Valid() && saga.toInventory == old(saga.toInventory)
      ensures CancelGuard(old(saga.store.rows), id).Some? ==>
                && reply == CancelGuard(old(saga.store.rows), id).value
                && saga.store.rows == old(saga.store.rows) && saga.payments.payments == old(saga.payments.payments)
                && saga.toPayments == old(saga.toPayments) && saga.published == old(saga.published)
      ensures CancelGuard(old(saga.store.rows), id).None? && S.SaveFails(S.CompensatingSave) in env.failing ==>
                && reply == Reply(500, InternalError, [], None)
                && saga.store.rows == old(saga.store.rows) && saga.payments.payments == old(saga.payments.payments)
                && saga.toPayments == old(saga.toPayments) && saga.published == old(saga.published)
      ensures CancelGuard(old(saga.store.rows), id).None? && S.SaveFails(S.CompensatingSave) !in env.failing ==>
                var key := Canonical(id);
                var refunds := S.RefundsSent(key, old(saga.store.rows[key].paymentId), env);
                && reply == Reply(200, CancelledOk, [], None)
                && saga.toPayments == old(saga.toPayments) + refunds
                && saga.payments.payments == S.ServePayments(old(saga.payments.payments), refunds, env)
      ensures CancelGuard(old(saga.store.rows), id).None? && S.SaveFails(S.CompensatingSave) !in env.failing
              && S.SaveFails(S.FailedSave) in env.failing ==>
                var key := Canonical(id);
                saga.store.rows == old(saga.store.rows)[key := old(saga.store.rows[key]).(sagaState := Compensating)]
      ensures CancelGuard(old(saga.store.rows), id).None? && S.SaveFails(S.CompensatingSave) !in env.failing
              && S.SaveFails(S.FailedSave) !in env.failing ==>
                var key := Canonical(id);
                && saga.store.rows == old(saga.store.rows)[key := old(saga.store.rows[key]).(status := OrderStatus.Cancelled, sagaState := Failed)]
                && S.EndsWith(saga.published, S.OrderFailedEvent(key, CancelReason))
    {
      var guard := CancelGuard(saga.store.rows, id);
      if guard.Some? {
        return guard.value;
      }
      var key := Canonical(id);
      var row := saga.store.rows[key];
      var order := new Order(row);
      RewriteSame(saga.store.rows, key);
      var escaped := saga.Compensate(order, CancelReason, env);
      if escaped.Some? {
        return Reply(500, InternalError, [], None);
      }
      return Reply(200, CancelledOk, [], None);
    }
  }
}

=== FILE: order_model.dfy ===
/** The `orders` and `order_items` tables: the business status, the saga
    state, the line items and the column constraints that decide when the
    database rejects a write. */
module OrderModel {
  import opened Common

  /** Business-facing lifecycle of an order (nine values). */
  datatype OrderStatus =
    | Pending
    | PaymentProcessing
    | PaymentCompleted
    | PaymentFailed
    | Confirmed
    | Shipped
    | Delivered
    | Cancelled
    | Refunded
  {
    /** The ENUM tag stored in the column. */
    function Name(): string {
      match this
      case Pending => "pending"
      case PaymentProcessing => "payment_processing"
      case PaymentCompleted => "payment_completed"
      case PaymentFailed => "payment_failed"
      case Confirmed => "confirmed"
      case Shipped => "shipped"
      case Delivered => "delivered"
      case Cancelled => "cancelled"
      case Refunded => "refunded"
    }
  }

  /** Orchestration-facing lifecycle of an order (six values). */
  datatype SagaState =
    | Started
    | InventoryReserved
    | PaymentProcessing
    | Completed
    | Compensating
    | Failed
  {
    function Name(): string {
      match this
      case Started => "started"
      case InventoryReserved => "inventory_reserved"
      case PaymentProcessing => "payment_processing"
      case Completed => "completed"
      case Compensating => "compensating"
      case Failed => "failed"
    }
  }

  const DefaultStatus: OrderStatus := OrderStatus.Pending
  const DefaultSagaState: SagaState := Started

  /** The ENUM column accepts exactly the nine labels: a tag parses iff it
      is the name of a status. */
  function ParseStatus(tag: string): (r: Option<OrderStatus>)
    ensures r.Some? ==> r.value.Name() == tag
    ensures r.None? ==> forall s: OrderStatus :: s.Name() != tag
  {
    if tag == "pending" then Some(OrderStatus.Pending)
    else if tag == "payment_processing" then Some(OrderStatus.PaymentProcessing)
    else if tag == "payment_completed" then Some(PaymentCompleted)
    else if tag == "payment_failed" then Some(PaymentFailed)
    else if tag == "confirmed" then Some(Confirmed)
    else if tag == "shipped" then Some(Shipped)
    else if tag == "delivered" then Some(Delivered)
    else if tag == "cancelled" then Some(Cancelled)
    else if tag == "refunded" then Some(Refunded)
    else None
  }

  function ParseSagaState(tag: string): (r: Option<SagaState>)
    ensures r.Some? ==> r.value.Name() == tag
    ensures r.None? ==> forall s: SagaState :: s.Name() != tag
  {
    if tag == "started" then Some(Started)
    else if tag == "inventory_reserved" then Some(InventoryReserved)
    else if tag == "payment_processing" then Some(SagaState.PaymentProcessing)
    else if tag == "completed" then Some(Completed)
    else if tag == "compensating" then Some(Compensating)
    else if tag == "failed" then Some(Failed)
    else None
  }

  /** Parsing inverts naming, so naming is injective: the nine (six) labels are distinct. */
  lemma EnumsRoundTrip(s: OrderStatus, g: SagaState)
    ensures ParseStatus(s.Name()) == Some(s) && ParseSagaState(g.Name()) == Some(g)
  {
  }

  /** One `order_items` row. `orderId` is the foreign key to its order. */
  datatype OrderItem = OrderItem(orderId: string, productId: string, quantity: int, price: Cents)

  /** The column constraints of `order_items`: the order's generated id in
      canonical text, a product id PostgreSQL reads as a UUID, a 32-bit
      INTEGER quantity of at least 1, a DECIMAL(10,2) price. */
  predicate StorableItem(item: OrderItem) {
    && CanonicalUuid(item.orderId)
    && PgUuid(item.productId)
    && item.quantity >= 1 && Int32(item.quantity)
    && FitsDecimal10x2(item.price)
  }

  /** One `orders` row together with the items that reference it (an order
      has many items, each item belongs to exactly one order). `paymentId`
      is the only nullable column. */
  datatype OrderRow = OrderRow(
    id: string,
    userId: string,
    status: OrderStatus,
    totalAmount: Cents,
    shippingAddress: Json,
    paymentId: Option<string>,
    sagaState: SagaState,
    items: seq<OrderItem>)

  /** The column constraints of `orders`: the id from the `UUIDV4`
      default in canonical text, a user id PostgreSQL reads as a UUID, a
      DECIMAL(10,2) total, a non-null shipping address. */
  predicate StorableOrder(row: OrderRow) {
    && CanonicalUuid(row.id)
    && PgUuid(row.userId)
    && FitsDecimal10x2(row.totalAmount)
    && row.shippingAddress != JNull
  }

  /** Every item of the row is storable and references this row. */
  predicate ItemsBelong(row: OrderRow) {
    forall k :: 0 <= k < |row.items| ==> StorableItem(row.items[k]) && row.items[k].orderId == row.id
  }

  /** A freshly created order: the column defaults and no payment. */
  function NewOrderRow(id: string, userId: string, totalAmount: Cents, shippingAddress: Json): (row: OrderRow)
    ensures row.status == OrderStatus.Pending && row.sagaState == Started
    ensures row.paymentId.None? && row.items == []
    ensures row.id == id && row.userId == userId && row.totalAmount == totalAmount && row.shippingAddress == shippingAddress
  {
    OrderRow(id, userId, DefaultStatus, totalAmount, shippingAddress, None, DefaultSagaState, [])
  }
}

=== FILE: order_routes.dfy ===
/** The request validation that guards `POST /orders`: a list of field checks
    whose failures express-validator collects, in chain order, into an error
    array. An empty array is the saga's precondition. */
module OrderRoutes {
  import opened Common

  /** One line of the request's `items` array (price in cents). */
  datatype ItemInput = ItemInput(productId: string, quantity: int, price: Cents)

  /** The body of `POST /orders`. */
  datatype OrderInput = OrderInput(userId: string, items: seq<ItemInput>, shippingAddress: Json)

  /** An entry of `errors.array()`: a top-level field, or a field of the
      item at `index` (the `items.*.field` wildcard). */
  datatype ValidationError =
    | BodyError(field: string, msg: string)
    | ItemError(index: nat, field: string, msg: string)

  datatype ItemField = ProductId | Quantity | Price

  /** The check each wildcard chain applies to one item. */
  predicate ItemFieldOk(f: ItemField, item: ItemInput) {
    match f
    case ProductId => IsUuid(item.productId)
    case Quantity => item.quantity >= 1
    case Price => item.price >= 0
  }

  function FieldName(f: ItemField): string {
    match f
    case ProductId => "productId"
    case Quantity => "quantity"
    case Price => "price"
  }

  function FieldMessage(f: ItemField): string {
    match f
    case ProductId => "Valid product ID is required"
    case Quantity => "Quantity must be at least 1"
    case Price => "Price must be positive"
  }

  /** The errors one wildcard chain reports for `items[start ..]`, one per
      failing item, in item order. */
  function ItemFieldErrors(items: seq<ItemInput>, f: ItemField, start: nat): seq<ValidationError>
    decreases |items|
  {
    if items == [] then []
    else
      (if ItemFieldOk(f, items[0]) then [] else [ItemError(start, FieldName(f), FieldMessage(f))])
      + ItemFieldErrors(items[1..], f, start + 1)
  }

  /** `errors.array()` for the whole chain list of `orderValidation`. */
  function ValidationErrors(o: OrderInput): seq<ValidationError> {
    (if IsUuid(o.userId) then [] else [BodyError("userId", "Valid user ID is required")])
    + (if |o.items| >= 1 then [] else [BodyError("items", "At least one item is required")])
    + ItemFieldErrors(o.items, ProductId, 0)
    + ItemFieldErrors(o.items, Quantity, 0)
    + ItemFieldErrors(o.items, Price, 0)
    + (if o.shippingAddress.JObject? then [] else [BodyError("shippingAddress", "Shipping address is required")])
  }

  /** The declarative reading of `orderValidation`. */
  predicate ValidOrderInput(o: OrderInput) {
    && IsUuid(o.userId)
    && |o.items| >= 1
    && (forall k :: 0 <= k < |o.items| ==>
          IsUuid(o.items[k].productId) && o.items[k].quantity >= 1 && o.items[k].price >= 0)
    && o.shippingAddress.JObject?
  }

  /** A wildcard chain reports nothing iff every item passes its check, and
      every error it reports names an item, within range, that fails it. */
  lemma {:induction false} ItemFieldErrorsExact(items: seq<ItemInput>, f: ItemField, start: nat)
    ensures ItemFieldErrors(items, f, start) == [] <==> forall k :: 0 <= k < |items| ==> ItemFieldOk(f, items[k])
    ensures forall e :: e in ItemFieldErrors(items, f, start) ==>
              e.ItemError? && start <= e.index < start + |items| && !ItemFieldOk(f, items[e.index - start])
    decreases |items|
  {
    if items != [] {
      ItemFieldErrorsExact(items[1..], f, start + 1);
      if ItemFieldOk(f, items[0]) {
        forall k | 0 <= k < |items| && (forall k' :: 0 <= k' < |items[1..]| ==> ItemFieldOk(f, items[1..][k']))
          ensures ItemFieldOk(f, items[k])
        {
          if k > 0 { assert items[k] == items[1..][k - 1]; }
        }
      }
      forall e | e in ItemFieldErrors(items, f, start)
        ensures e.ItemError? && start <= e.index < start + |items| && !ItemFieldOk(f, items[e.index - start])
      {
        if e !in ItemFieldErrors(items[1..], f, start + 1) {
          assert e == ItemError(start, FieldName(f), FieldMessage(f));
        } else {
          assert items[e.index - start] == items[1..][e.index - (start + 1)];
        }
      }
    }
  }

  /** The request passes validation (the error array is empty) iff it
      satisfies every declared field rule. */
  lemma ValidationAccepts(o: OrderInput)
    ensures ValidationErrors(o) == [] <==> ValidOrderInput(o)
  {
    ItemFieldErrorsExact(o.items, ProductId, 0);
    ItemFieldErrorsExact(o.items, Quantity, 0);
    ItemFieldErrorsExact(o.items, Price, 0);
  }
}

=== FILE: order_saga.dfy ===
/** The order-placement saga: create the order, reserve every item with the
    inventory service, charge the payment service, confirm; on failure,
    compensate. The two remote services are the inventory and payment
    models themselves, reached through a circuit breaker whose fallback
    turns every failure into "<Service> is currently unavailable". Which
    database writes and remote calls fail is decided by an environment. */
module Saga {
  import opened Common
  import opened OrderModel
  import opened OrderTable
  import OR = OrderRoutes
  import IR = InventoryRoutes
  import PR = PaymentRoutes

  /** The two breakers wrapping the remote actions. */
  datatype Breaker = InventoryBreaker | PaymentBreaker {
    function ServiceName(): string {
      match this
      case InventoryBreaker => "InventoryService"
      case PaymentBreaker => "PaymentService"
    }
  }

  /** The `save()` calls of a run, in order. */
  datatype SaveSite = ReservedSave | ProcessingSave | PaidSave | ConfirmSave | CompensatingSave | FailedSave

  /** Every point where a run can fail for reasons outside the model: a
      database write, a breaker that is open, or a request that gets no
      answer. */
  datatype Step =
    | OrderInsert
    | ItemInsert(index: nat)
    | CircuitOpen(breaker: Breaker)
    | ReserveLost(index: nat)
    | PaymentLost
    | ReleaseLost(index: nat)
    | RefundLost
    | SaveFails(site: SaveSite)

  /** The environment of one run: the steps that fail, the ids the database
      and the payment service generate, the simulated gateway's verdict and
      charge id, and the message the database attaches to its errors. */
  datatype Env = Env(
    failing: set<Step>,
    orderId: string,
    paymentId: string,
    approved: bool,
    stripeId: string,
    dbMessage: string)

  /** What a run throws. */
  datatype SagaError =
    | Unavailable(breaker: Breaker)
    | DatabaseError(step: Step, message: string)
  {
    function Message(): string {
      match this
      case Unavailable(b) => b.ServiceName() + " is currently unavailable. Please try again later."
      case DatabaseError(_, m) => m
    }
  }

  /** The events `publishEvent` logs. */
  datatype Event =
    | InventoryReservedEvent(orderId: string, items: seq<OrderItem>)
    | PaymentCompletedEvent(orderId: string, paymentId: string, amount: Cents)
    | OrderConfirmedEvent(orderId: string, userId: string, totalAmount: Cents, items: seq<OrderItem>)
    | OrderFailedEvent(orderId: string, reason: string)
    | InventoryReleasedEvent(orderId: string, items: seq<OrderItem>)
    | PaymentRefundedEvent(orderId: string, paymentId: string)

  /** What `executeOrderSaga` ends with: the order, or the error it throws. */
  datatype Outcome = Succeeded(order: Order) | Threw(error: SagaError)

  /** `items.reduce((sum, item) => sum + item.price * item.quantity, 0)`. */
  function Total(items: seq<OR.ItemInput>): Cents
    decreases |items|
  {
    if items == [] then 0
    else Total(items[..|items| - 1]) + items[|items| - 1].price * items[|items| - 1].quantity
  }

  /** The total is the sum of its lines: it splits over concatenation, so
      the left-to-right reduce agrees with any grouping of the items. */
  lemma {:induction false} TotalSplits(a: seq<OR.ItemInput>, b: seq<OR.ItemInput>)
    ensures Total(a + b) == Total(a) + Total(b)
    decreases |b|
  {
    if b != [] {
      assert (a + b)[..|a + b| - 1] == a + b[..|b| - 1];
      assert (a + b)[|a + b| - 1] == b[|b| - 1];
      TotalSplits(a, b[..|b| - 1]);
    } else {
      assert a + b == a;
    }
  }

  /** Lines with non-negative prices and positive quantities add up to at
      least each line. */
  lemma {:induction false} TotalBoundsLines(items: seq<OR.ItemInput>)
    requires forall k :: 0 <= k < |items| ==> items[k].price >= 0 && items[k].quantity >= 1
    ensures Total(items) >= 0
    ensures forall k :: 0 <= k < |items| ==> items[k].price * items[k].quantity <= Total(items)
    decreases |items|
  {
    if items != [] {
      var init := items[..|items| - 1];
      TotalBoundsLines(init);
      forall k | 0 <= k < |items| ensures items[k].price * items[k].quantity <= Total(items) {
        if k < |items| - 1 {
          assert items[k] == init[k];
        }
      }
    }
  }

  /** The `order_items` rows `createOrder` writes for the input lines. */
  function ItemRows(orderId: string, items: seq<OR.ItemInput>): seq<OrderItem> {
    seq(|items|, k requires 0 <= k < |items| => OrderItem(orderId, items[k].productId, items[k].quantity, items[k].price))
  }

  /** The lines whose item row the table refuses. */
  function FailingItems(orderId: string, items: seq<OR.ItemInput>): set<Step> {
    set k | 0 <= k < |items| && !StorableItem(OrderItem(orderId, items[k].productId, items[k].quantity, items[k].price))
      :: ItemInsert(k)
  }

  /** The `/reserve` requests for the items of an order, in item order:
      the order the rows were inserted in, taken as the order `getItems()`
      reads them back in (the query itself has no `ORDER BY`). */
  function Reserves(orderId: string, items: seq<OrderItem>): seq<IR.InventoryRequest> {
    seq(|items|, k requires 0 <= k < |items| => IR.ReserveRequest(items[k].productId, items[k].quantity, orderId))
  }

  /** Every request of `reqs`, served in order from `l`, was answered 200. */
  predicate AllAccepted(l: IR.Ledger, reqs: seq<IR.InventoryRequest>)
    decreases |reqs|
  {
    reqs == [] || (IR.Handle(l, reqs[0]).status == 200 && AllAccepted(IR.Handle(l, reqs[0]).ledger, reqs[1..]))
  }

  lemma {:induction false} ServeAllSnoc(l: IR.Ledger, reqs: seq<IR.InventoryRequest>, r: IR.InventoryRequest)
    ensures IR.ServeAll(l, reqs + [r]) == IR.Handle(IR.ServeAll(l, reqs), r).ledger
    decreases |reqs|
  {
    if reqs != [] {
      assert (reqs + [r])[1..] == reqs[1..] + [r];
      ServeAllSnoc(IR.Handle(l, reqs[0]).ledger, reqs[1..], r);
    }
  }

  /** The payment table after serving `reqs` in order; a process request
      takes the environment's new id and gateway verdict. */
  function ServePayments(m: map<string, PR.Payment>, reqs: seq<PR.PaymentRequest>, env: Env): map<string, PR.Payment>
    decreases |reqs|
  {
    if reqs == [] then m
    else
      var next := match reqs[0]
        case ProcessRequest(o, a, u) => PR.AfterProcess(m, o, a, u, env.paymentId, env.approved, env.stripeId).payments
        case RefundRequest(p, o) => PR.AfterRefund(m, p, o).payments;
      ServePayments(next, reqs[1..], env)
  }

  /** The `/release` requests `releaseInventory` delivers for the first `n`
      items: one per item whose request is not lost. */
  function ReleasesSent(orderId: string, items: seq<OrderItem>, failing: set<Step>, n: nat): seq<IR.InventoryRequest>
    requires n <= |items|
    decreases n
  {
    if n == 0 then []
    else
      ReleasesSent(orderId, items, failing, n - 1)
      + (if ReleaseLost(n - 1) in failing then []
         else [IR.ReleaseRequest(items[n - 1].productId, items[n - 1].quantity, orderId)])
  }

  /** Every request of `reqs` accepted, one more with it accepted. */
  lemma {:induction false} AllAcceptedSnoc(l: IR.Ledger, reqs: seq<IR.InventoryRequest>, r: IR.InventoryRequest)
    requires AllAccepted(l, reqs) && IR.Handle(IR.ServeAll(l, reqs), r).status == 200
    ensures AllAccepted(l, reqs + [r])
    decreases |reqs|
  {
    if reqs != [] {
      assert (reqs + [r])[1..] == reqs[1..] + [r];
      AllAcceptedSnoc(IR.Handle(l, reqs[0]).ledger, reqs[1..], r);
    } else {
      assert [] + [r] == [r];
      assert [r][1..] == [];
    }
  }

  /** How the reserve phase left the ledger: the first `delivered` reserve
      requests reached the service in order, the first `accepted` of them
      were answered 200, and if one more was delivered it was refused. */
  predicate ReservePhase(l0: IR.Ledger, l1: IR.Ledger, reqs: seq<IR.InventoryRequest>, accepted: nat, delivered: nat) {
    && accepted <= delivered <= |reqs|
    && delivered <= accepted + 1
    && l1 == IR.ServeAll(l0, reqs[..delivered])
    && AllAccepted(l0, reqs[..accepted])
    && (delivered == accepted + 1 ==> IR.Handle(IR.ServeAll(l0, reqs[..accepted]), reqs[accepted]).status != 200)
  }

  /** The phase ends after `i` accepted requests, either with nothing more
      delivered or with the next one refused. */
  lemma ReservePhaseEnds(l0: IR.Ledger, reqs: seq<IR.InventoryRequest>, i: nat, refused: bool)
    requires i <= |reqs| && AllAccepted(l0, reqs[..i])
    requires refused ==> i < |reqs| && IR.Handle(IR.ServeAll(l0, reqs[..i]), reqs[i]).status != 200
    ensures ReservePhase(l0, IR.ServeAll(l0, reqs[..if refused then i + 1 else i]), reqs, i, if refused then i + 1 else i)
  {
  }

  /** The reserve request after `i` accepted ones leaves the ledger that
      serving the first `i + 1` requests leaves. */
  lemma ReserveStep(l0: IR.Ledger, reqs: seq<IR.InventoryRequest>, i: nat, l1: IR.Ledger)
    requires i < |reqs| && l1 == IR.Handle(IR.ServeAll(l0, reqs[..i]), reqs[i]).ledger
    ensures reqs[..i + 1] == reqs[..i] + [reqs[i]]
    ensures l1 == IR.ServeAll(l0, reqs[..i + 1])
  {
    var prefix := reqs[..i];
    assert reqs[..i + 1] == prefix + [reqs[i]];
    ServeAllSnoc(l0, prefix, reqs[i]);
  }

  /** A refused reserve request after `i` accepted ones ends the phase. */
  lemma ReserveRefused(l0: IR.Ledger, reqs: seq<IR.InventoryRequest>, i: nat, l1: IR.Ledger)
    requires i < |reqs| && AllAccepted(l0, reqs[..i])
    requires IR.Handle(IR.ServeAll(l0, reqs[..i]), reqs[i]).status != 200
    requires l1 == IR.ServeAll(l0, reqs[..i + 1])
    ensures ReservePhase(l0, l1, reqs, i, i + 1)
  {
    ReservePhaseEnds(l0, reqs, i, true);
  }

  /** A reserve phase that accepted every request accepted all of `reqs`. */
  lemma PhaseAcceptedAll(l0: IR.Ledger, l1: IR.Ledger, reqs: seq<IR.InventoryRequest>, accepted: nat, delivered: nat)
    requires ReservePhase(l0, l1, reqs, accepted, delivered) && accepted == |reqs|
    ensures AllAccepted(l0, reqs)
  {
    assert reqs[..accepted] == reqs;
  }

  /** Appending one event and then two is appending the three. */
  lemma AppendThree(log: seq<Event>, a: Event, b: Event, c: Event)
    ensures log + [a] + [b, c] == log + [a, b, c]
  {
  }

  /** The `/refund` request a compensation sends: one when the order holds
      a payment id and the request is not lost. */
  function RefundsSent(orderId: string, paymentId: Option<string>, env: Env): (sent: seq<PR.PaymentRequest>)
    ensures |sent| <= 1
    ensures sent != [] <==> Truthy(paymentId) && RefundLost !in env.failing
    ensures sent != [] ==> sent == [PR.RefundRequest(paymentId.value, orderId)]
  {
    if Truthy(paymentId) && RefundLost !in env.failing then [PR.RefundRequest(paymentId.value, orderId)] else []
  }

  /** The events a compensation's refund publishes: `payment.refunded` when
      the request reached the payment service and was answered 200. */
  function RefundEvents(orderId: string, paymentId: Option<string>, m: map<string, PR.Payment>, env: Env): (events: seq<Event>)
    ensures events != [] <==>
              RefundsSent(orderId, paymentId, env) != [] && PR.AfterRefund(m, paymentId.value, orderId).status == 200
    ensures events != [] ==> events == [PaymentRefundedEvent(orderId, paymentId.value)]
  {
    if RefundsSent(orderId, paymentId, env) != [] && PR.AfterRefund(m, paymentId.value, orderId).status == 200
    then [PaymentRefundedEvent(orderId, paymentId.value)] else []
  }

  /** A run reaches the payment service: the inventory breaker let the
      action through, all `reserves` requests were accepted, the two saves
      before the charge succeeded, and the payment breaker let the request
      through and it was answered. */
  predicate ReachesPayment(env: Env, accepted: nat, reserves: nat) {
    && CircuitOpen(InventoryBreaker) !in env.failing && accepted == reserves
    && SaveFails(ReservedSave) !in env.failing && SaveFails(ProcessingSave) !in env.failing
    && CircuitOpen(PaymentBreaker) !in env.failing && PaymentLost !in env.failing
  }

  /** The last event published is `e`. */
  predicate EndsWith(log: seq<Event>, e: Event) {
    |log| > 0 && log[|log| - 1] == e
  }

  /** A log that ends by appending `e` ends with `e`. */
  lemma LastEvent(log: seq<Event>, e: Event)
    ensures EndsWith(log + [e], e)
  {
  }

  /** The errors the forward path of a run can stop with. */
  predicate ForwardError(e: SagaError, env: Env) {
    || e == Unavailable(InventoryBreaker)
    || e == Unavailable(PaymentBreaker)
    || (&& e.DatabaseError? && e.message == env.dbMessage
        && e.step in {SaveFails(ReservedSave), SaveFails(ProcessingSave), SaveFails(PaidSave), SaveFails(ConfirmSave)})
  }

  /** Serving two batches of payment requests is serving them one after the other. */
  lemma {:induction false} ServePaymentsAppend(m: map<string, PR.Payment>, a: seq<PR.PaymentRequest>, b: seq<PR.PaymentRequest>, env: Env)
    ensures ServePayments(m, a + b, env) == ServePayments(ServePayments(m, a, env), b, env)
    decreases |a|
  {
    if a == [] {
      assert a + b == b;
    } else {
      assert (a + b)[0] == a[0];
      assert (a + b)[1..] == a[1..] + b;
      var next := match a[0]
        case ProcessRequest(o, am, u) => PR.AfterProcess(m, o, am, u, env.paymentId, env.approved, env.stripeId).payments
        case RefundRequest(p, o) => PR.AfterRefund(m, p, o).payments;
      ServePaymentsAppend(next, a[1..], b, env);
    }
  }

  /** The reserve requests of a run never lower the reserved stock of a
      product on record: the saga sends no release, so whatever a failed run
      reserved stays reserved. */
  lemma ReservesKeepReserved(l: IR.Ledger, orderId: string, items: seq<OrderItem>, n: nat, productId: string)
    requires n <= |items| && productId in l.inventory
    requires forall k :: 0 <= k < |items| ==> items[k].quantity >= 1
    ensures var after := IR.ServeAll(l, Reserves(orderId, items)[..n]);
            productId in after.inventory && after.inventory[productId].reservedStock >= l.inventory[productId].reservedStock
  {
    IR.ReservedStockNeverFallsWithoutRelease(l, Reserves(orderId, items)[..n], productId);
  }

  /** The saga over the orders table and the two services it calls. The log
      of published events is state of the saga; the requests each service
      received are recorded in ghost logs. */
  class OrderSaga {
    const store: OrderStore
    const inventory: IR.InventoryService
    const payments: PR.PaymentService
    var published: seq<Event>
    ghost var toInventory: seq<IR.InventoryRequest>
    ghost var toPayments: seq<PR.PaymentRequest>

    ghost predicate Valid()
      reads this, store, inventory, payments
    {
      store.Valid() && inventory.Valid() && payments.Valid()
    }

    constructor (store: OrderStore, inventory: IR.InventoryService, payments: PR.PaymentService)
      requires store.Valid() && inventory.Valid() && payments.Valid()
      ensures Valid()
      ensures this.store == store && this.inventory == inventory && this.payments == payments
      ensures published == [] && toInventory == [] && toPayments == []
    {
      this.store := store;
      this.inventory := inventory;
      this.payments := payments;
      published := [];
      toInventory := [];
      toPayments := [];
    }

    /** `publishEvent`: logs the event and never throws. */
    method PublishEvent(e: Event)
      modifies this
      ensures published == old(published) + [e]
      ensures toInventory == old(toInventory) && toPayments == old(toPayments)
    {
      published := published + [e];
    }

    /** `createOrder`: one order row at `(pending, started)` with the total of
      the lines, then one item row per line in order. A failing item insert
      throws and leaves the order row with the items written so far. */
    method CreateOrder(userId: string, items: seq<OR.ItemInput>, shippingAddress: Json, env: Env)
      returns (order: Order?, err: Option<SagaError>)
      requires store.Valid()
      modifies store
      ensures store.Valid()
      ensures old(store.RowsWritable()) ==> store.RowsWritable()
      ensures err.None? <==> order != null
      ensures order != null ==>
                && fresh(order) && env.orderId !in old(store.rows)
                && order.id == env.orderId && order.userId == userId && order.shippingAddress == shippingAddress
                && order.totalAmount == Total(items)
                && order.status == OrderStatus.Pending && order.sagaState == Started && order.paymentId.None?
                && PgUuid(userId)
                && store.rows == old(store.rows)[env.orderId :=
                     NewOrderRow(env.orderId, Canonical(userId), Total(items), shippingAddress).(items := ItemRows(env.orderId, items))]
                && store.created == old(store.created) + [env.orderId]
      ensures err.Some? ==> err.value.DatabaseError? && err.value.message == env.dbMessage
      ensures err == Some(DatabaseError(OrderInsert, env.dbMessage)) ==>
                store.rows == old(store.rows) && store.created == old(store.created)
      // an item that cannot be written orphans the order row: it stays at
      // (pending, started) with the items before it
      ensures err.Some? && err.value.step != OrderInsert ==>
                && err.value.step.ItemInsert? && err.value.step.index < |items|
                && PgUuid(userId)
                && store.rows == old(store.rows)[env.orderId :=
                     NewOrderRow(env.orderId, Canonical(userId), Total(items), shippingAddress)
                       .(items := ItemRows(env.orderId, items[..err.value.step.index]))]
                && store.created == old(store.created) + [env.orderId]
    {
      var row := NewOrderRow(env.orderId, userId, Total(items), shippingAddress);
      var ok := store.Insert(row, OrderInsert in env.failing);
      if !ok {
        return null, Some(DatabaseError(OrderInsert, env.dbMessage));
      }
      // the row as stored: its user id in canonical text
      assert PgUuid(userId);
      var stored := row.(userId := Canonical(userId));
      var failedAt := AddItems(stored, items, env);
      if failedAt.Some? {
        return null, Some(DatabaseError(ItemInsert(failedAt.value), env.dbMessage));
      }
      order := new Order(row);
      return order, None;
    }

    /** The item loop of `createOrder`: one `OrderItem.create` per line, in
      order, stopping at the first that throws. */
    method AddItems(row: OrderRow, items: seq<OR.ItemInput>, env: Env) returns (failedAt: Option<nat>)
      requires store.Valid() && row.id in store.rows && store.rows[row.id] == row && row.items == []
      modifies store
      ensures store.Valid() && store.created == old(store.created)
      ensures failedAt.Some? ==>
                && failedAt.value < |items|
                && store.rows == old(store.rows)[row.id := row.(items := ItemRows(row.id, items[..failedAt.value]))]
      ensures failedAt.None? ==> store.rows == old(store.rows)[row.id := row.(items := ItemRows(row.id, items))]
    {
      var i := 0;
      assert row.(items := ItemRows(row.id, items[..0])) == row;
      while i < |items|
        invariant 0 <= i <= |items|
        invariant store.Valid() && store.created == old(store.created)
        invariant store.rows == old(store.rows)[row.id := row.(items := ItemRows(row.id, items[..i]))]
      {
        var item := OrderItem(row.id, items[i].productId, items[i].quantity, items[i].price);
        var ok := store.AddItem(item, ItemInsert(i) in env.failing);
        if !ok {
          return Some(i);
        }
        assert ItemRows(row.id, items[..i + 1]) == ItemRows(row.id, items[..i]) + [item];
        i := i + 1;
      }
      assert items[..i] == items;
      return None;
    }
  
    /** `reserveInventoryAction`: one `/reserve` request per item of the
      order, in item order, stopping at the first that is lost or refused;
      `inventory.reserved` is published only when all were accepted. */
    method ReserveInventoryAction(orderId: string, items: seq<OrderItem>, env: Env) returns (ok: bool, ghost accepted: nat, ghost delivered: nat)
      requires inventory.Valid()
      modifies this, inventory
      ensures inventory.Valid()
      ensures toPayments == old(toPayments)
      ensures var reqs := Reserves(orderId, items);
              && ReservePhase(old(inventory.State()), inventory.State(), reqs, accepted, delivered)
              && toInventory == old(toInventory) + reqs[..delivered]
              && (ok <==> accepted == |reqs|)
              && (!ok && delivered == accepted ==> ReserveLost(accepted) in env.failing)
      ensures ok ==> published == old(published) + [InventoryReservedEvent(orderId, items)]
      ensures !ok ==> published == old(published)
    {
      ghost var l0 := inventory.State();
      var reqs := Reserves(orderId, items);
      var i := 0;
      ok := true;
      accepted, delivered := 0, 0;
      while i < |items|
        invariant 0 <= i <= |items|
        invariant inventory.Valid()
        invariant toInventory == old(toInventory) + reqs[..i]
        invariant inventory.State() == IR.ServeAll(l0, reqs[..i])
        invariant AllAccepted(l0, reqs[..i])
        invariant published == old(published) && toPayments == old(toPayments)
        invariant ok
      {
        if ReserveLost(i) in env.failing {
          ok := false;
          accepted, delivered := i, i;
          ReservePhaseEnds(l0, reqs, i, false);
          break;
        }
        var status := ReserveItem(reqs, i, l0, old(toInventory));
        if status != 200 {
          ok := false;
          accepted, delivered := i, i + 1;
          break;
        }
        i := i + 1;
      }
      if ok {
        accepted, delivered := i, i;
        ReservePhaseEnds(l0, reqs, i, false);
        PublishEvent(InventoryReservedEvent(orderId, items));
      }
    }

    /** One iteration of the reserve loop: the request for item `i` goes out
      after the first `i` were all accepted. */
    method ReserveItem(reqs: seq<IR.InventoryRequest>, i: nat, ghost l0: IR.Ledger, ghost log0: seq<IR.InventoryRequest>)
      returns (status: int)
      requires inventory.Valid() && i < |reqs| && reqs[i].ReserveRequest?
      requires inventory.State() == IR.ServeAll(l0, reqs[..i]) && AllAccepted(l0, reqs[..i])
      requires toInventory == log0 + reqs[..i]
      modifies this, inventory
      ensures inventory.Valid()
      ensures inventory.State() == IR.ServeAll(l0, reqs[..i + 1])
      ensures toInventory == log0 + reqs[..i + 1]
      ensures toPayments == old(toPayments) && published == old(published)
      ensures status == 200 ==> AllAccepted(l0, reqs[..i + 1])
      ensures status != 200 ==> ReservePhase(l0, inventory.State(), reqs, i, i + 1)
    {
      status := SendReserve(reqs[i]);
      ReserveStep(l0, reqs, i, inventory.State());
      if status == 200 {
        AllAcceptedSnoc(l0, reqs[..i], reqs[i]);
      } else {
        ReserveRefused(l0, reqs, i, inventory.State());
      }
    }

    /** One `axios.post` to `/reserve`, served by the inventory service. */
    method SendReserve(req: IR.InventoryRequest) returns (status: int)
      requires inventory.Valid() && req.ReserveRequest?
      modifies this, inventory
      ensures inventory.Valid()
      ensures inventory.State() == IR.Handle(old(inventory.State()), req).ledger
      ensures status == IR.Handle(old(inventory.State()), req).status
      ensures toInventory == old(toInventory) + [req]
      ensures toPayments == old(toPayments) && published == old(published)
    {
      var message;
      status, message := inventory.Reserve(req.productId, req.quantity, req.orderId);
      toInventory := toInventory + [req];
    }

    /** `inventoryBreaker.fire(order)`: an open circuit rejects the call
      without running the action; any failure of the action comes back as
      the fallback's "InventoryService is currently unavailable". */
    method FireInventory(order: Order, env: Env) returns (err: Option<SagaError>, ghost accepted: nat, ghost delivered: nat)
      requires store.Valid() && inventory.Valid() && order.id in store.rows
      modifies this, inventory
      ensures inventory.Valid()
      ensures toPayments == old(toPayments)
      ensures var reqs := Reserves(order.id, store.rows[order.id].items);
              && ReservePhase(old(inventory.State()), inventory.State(), reqs, accepted, delivered)
              && toInventory == old(toInventory) + reqs[..delivered]
              && (err.None? <==> CircuitOpen(InventoryBreaker) !in env.failing && accepted == |reqs|)
      ensures CircuitOpen(InventoryBreaker) in env.failing ==> delivered == 0
      ensures err.Some? ==> err == Some(Unavailable(InventoryBreaker)) && published == old(published)
      ensures err.None? ==> published == old(published) + [InventoryReservedEvent(order.id, store.rows[order.id].items)]
    {
      if CircuitOpen(InventoryBreaker) in env.failing {
        assert Reserves(order.id, store.rows[order.id].items)[..0] == [];
        return Some(Unavailable(InventoryBreaker)), 0, 0;
      }
      var ok;
      ok, accepted, delivered := ReserveInventoryAction(order.id, store.rows[order.id].items, env);
      if !ok {
        return Some(Unavailable(InventoryBreaker)), accepted, delivered;
      }
      return None, accepted, delivered;
    }

    /** `processPaymentAction`: one `/process` request for the order's total;
      any status but 200 throws. */
    method ProcessPaymentAction(order: Order, env: Env) returns (ok: bool, paymentId: string)
      requires payments.Valid()
      modifies this, payments
      ensures payments.Valid()
      ensures toInventory == old(toInventory)
      ensures var req := PR.ProcessRequest(order.id, order.totalAmount, order.userId);
              var h := PR.AfterProcess(old(payments.payments), order.id, order.totalAmount, order.userId,
                                       env.paymentId, env.approved, env.stripeId);
              && (PaymentLost in env.failing ==>
                    !ok && toPayments == old(toPayments) && payments.payments == old(payments.payments))
              && (PaymentLost !in env.failing ==>
                    toPayments == old(toPayments) + [req] && payments.payments == h.payments && (ok <==> h.status == 200))
      ensures ok ==> paymentId == env.paymentId
      ensures ok ==> published == old(published) + [PaymentCompletedEvent(order.id, env.paymentId, order.totalAmount)]
      ensures !ok ==> published == old(published)
    {
      if PaymentLost in env.failing {
        return false, "";
      }
      var status, _, id := payments.Process(order.id, order.totalAmount, order.userId, env.paymentId, env.approved, env.stripeId);
      toPayments := toPayments + [PR.ProcessRequest(order.id, order.totalAmount, order.userId)];
      if status != 200 {
        return false, "";
      }
      PublishEvent(PaymentCompletedEvent(order.id, id.value, order.totalAmount));
      return true, id.value;
    }

    /** `paymentBreaker.fire(order)`. */
    method FirePayment(order: Order, env: Env) returns (err: Option<SagaError>, paymentId: Option<string>)
      requires payments.Valid()
      modifies this, payments
      ensures payments.Valid()
      ensures toInventory == old(toInventory)
      ensures var req := PR.ProcessRequest(order.id, order.totalAmount, order.userId);
              var h := PR.AfterProcess(old(payments.payments), order.id, order.totalAmount, order.userId,
                                       env.paymentId, env.approved, env.stripeId);
              && (toPayments == old(toPayments) || toPayments == old(toPayments) + [req])
              && (toPayments == old(toPayments) + [req] <==>
                    CircuitOpen(PaymentBreaker) !in env.failing && PaymentLost !in env.failing)
              && payments.payments == ServePayments(old(payments.payments), toPayments[|old(toPayments)|..], env)
              && (err.None? <==> toPayments == old(toPayments) + [req] && h.status == 200)
      ensures err.None? <==> paymentId.Some?
      ensures err.None? ==> paymentId == Some(env.paymentId)
      ensures err.None? ==> published == old(published) + [PaymentCompletedEvent(order.id, env.paymentId, order.totalAmount)]
      ensures err.Some? ==> err == Some(Unavailable(PaymentBreaker)) && published == old(published)
    {
      if CircuitOpen(PaymentBreaker) in env.failing {
        return Some(Unavailable(PaymentBreaker)), None;
      }
      var ok, id := ProcessPaymentAction(order, env);
      assert toPayments[|old(toPayments)|..] == if PaymentLost in env.failing then []
        else [PR.ProcessRequest(order.id, order.totalAmount, order.userId)];
      if !ok {
        return Some(Unavailable(PaymentBreaker)), None;
      }
      return None, Some(id);
    }

    /** The order instance and its row agree on the three columns the saga
      assigns. */
    ghost predicate Synced(order: Order)
      reads store, order
    {
      && order.id in store.rows
      && store.rows[order.id].status == order.status
      && store.rows[order.id].sagaState == order.sagaState
      && store.rows[order.id].paymentId == order.paymentId
    }

    /** Step 2 of `executeOrderSaga`: reserve through the breaker, then save
      `inventory_reserved`. `saved` is what the row holds afterwards. */
    method ReserveStage(order: Order, env: Env)
      returns (err: Option<SagaError>, ghost accepted: nat, ghost delivered: nat, ghost saved: Columns)
      requires store.Valid() && inventory.Valid() && Synced(order)
      requires order.Assigned() == Columns(OrderStatus.Pending, Started, None)
      modifies this, inventory, store, order
      ensures store.Valid() && inventory.Valid() && store.created == old(store.created)
      ensures toPayments == old(toPayments)
      ensures var reqs := Reserves(order.id, old(store.rows[order.id].items));
              && ReservePhase(old(inventory.State()), inventory.State(), reqs, accepted, delivered)
              && toInventory == old(toInventory) + reqs[..delivered]
              && (err != Some(Unavailable(InventoryBreaker)) <==>
                    CircuitOpen(InventoryBreaker) !in env.failing && accepted == |reqs|)
      ensures store.rows == old(store.rows)[order.id := WithColumns(old(store.rows[order.id]), saved)]
      ensures err == Some(Unavailable(InventoryBreaker)) ==>
                && order.Assigned() == saved == Columns(OrderStatus.Pending, Started, None)
                && published == old(published)
      ensures err != Some(Unavailable(InventoryBreaker)) ==>
                && order.Assigned() == Columns(OrderStatus.Pending, InventoryReserved, None)
                && published == old(published) + [InventoryReservedEvent(order.id, old(store.rows[order.id].items))]
                && (err.None? <==> SaveFails(ReservedSave) !in env.failing)
                && saved == (if err.None? then order.Assigned() else Columns(OrderStatus.Pending, Started, None))
                && (err.Some? ==> err == Some(DatabaseError(SaveFails(ReservedSave), env.dbMessage)))
    {
      RewriteSame(store.rows, order.id);
      saved := order.Assigned();
      err, accepted, delivered := FireInventory(order, env);
      if err.Some? {
        return;
      }
      order.sagaState := InventoryReserved;
      var ok := store.Save(order, SaveFails(ReservedSave) in env.failing);
      if ok {
        saved := order.Assigned();
      } else {
        err := Some(DatabaseError(SaveFails(ReservedSave), env.dbMessage));
      }
    }

    /** Step 3 of `executeOrderSaga`: save `payment_processing`, then charge
      and record the payment. */
    method ChargeStage(order: Order, env: Env) returns (err: Option<SagaError>, ghost saved: Columns)
      requires store.Valid() && payments.Valid() && Synced(order)
      requires order.Assigned() == Columns(OrderStatus.Pending, InventoryReserved, None)
      modifies this, store, payments, order
      ensures store.Valid() && payments.Valid() && store.created == old(store.created)
      ensures toInventory == old(toInventory)
      ensures order.sagaState == SagaState.PaymentProcessing
      ensures var h := PR.AfterProcess(old(payments.payments), order.id, order.totalAmount, order.userId,
                                       env.paymentId, env.approved, env.stripeId);
              var called := SaveFails(ProcessingSave) !in env.failing && CircuitOpen(PaymentBreaker) !in env.failing
                            && PaymentLost !in env.failing;
              && (called ==>
                    && toPayments == old(toPayments) + [PR.ProcessRequest(order.id, order.totalAmount, order.userId)]
                    && payments.payments == h.payments)
              && (!called ==> toPayments == old(toPayments) && payments.payments == old(payments.payments))
              && (order.paymentId.Some? <==> called && h.status == 200)
      ensures order.paymentId.None? ==> order.status == OrderStatus.PaymentProcessing && published == old(published)
      ensures order.paymentId.Some? ==>
                && order.paymentId == Some(env.paymentId) && order.status == PaymentCompleted
                && published == old(published) + [PaymentCompletedEvent(order.id, env.paymentId, order.totalAmount)]
      ensures store.rows == old(store.rows)[order.id := WithColumns(old(store.rows[order.id]), saved)]
      ensures err.None? <==> order.paymentId.Some? && SaveFails(PaidSave) !in env.failing
      ensures err.None? ==> saved == order.Assigned()
      ensures SaveFails(ProcessingSave) in env.failing ==>
                err == Some(DatabaseError(SaveFails(ProcessingSave), env.dbMessage)) && saved == old(order.Assigned())
      ensures SaveFails(ProcessingSave) !in env.failing && err.Some? ==>
                && saved == Columns(OrderStatus.PaymentProcessing, SagaState.PaymentProcessing, None)
                && err == (if order.paymentId.None? then Some(Unavailable(PaymentBreaker))
                           else Some(DatabaseError(SaveFails(PaidSave), env.dbMessage)))
    {
      RewriteSame(store.rows, order.id);
      saved := order.Assigned();
      order.sagaState := SagaState.PaymentProcessing;
      order.status := OrderStatus.PaymentProcessing;
      ghost var rows0 := store.rows;
      var ok := store.Save(order, SaveFails(ProcessingSave) in env.failing);
      if !ok {
        return Some(DatabaseError(SaveFails(ProcessingSave), env.dbMessage)), saved;
      }
      saved := order.Assigned();
      ghost var later;
      err, later := RecordPayment(order, env);
      RewriteRow(rows0, order.id, saved, later);
      saved := later;
    }

    /** The second half of step 3: `paymentBreaker.fire`, then the payment id
      and `payment_completed` are saved. */
    method RecordPayment(order: Order, env: Env) returns (err: Option<SagaError>, ghost saved: Columns)
      requires store.Valid() && payments.Valid() && Synced(order)
      requires order.Assigned() == Columns(OrderStatus.PaymentProcessing, SagaState.PaymentProcessing, None)
      modifies this, store, payments, order
      ensures store.Valid() && payments.Valid() && store.created == old(store.created)
      ensures toInventory == old(toInventory)
      ensures order.sagaState == SagaState.PaymentProcessing
      ensures var h := PR.AfterProcess(old(payments.payments), order.id, order.totalAmount, order.userId,
                                       env.paymentId, env.approved, env.stripeId);
              var called := CircuitOpen(PaymentBreaker) !in env.failing && PaymentLost !in env.failing;
              && (called ==>
                    && toPayments == old(toPayments) + [PR.ProcessRequest(order.id, order.totalAmount, order.userId)]
                    && payments.payments == h.payments)
              && (!called ==> toPayments == old(toPayments) && payments.payments == old(payments.payments))
              && (order.paymentId.Some? <==> called && h.status == 200)
      ensures store.rows == old(store.rows)[order.id := WithColumns(old(store.rows[order.id]), saved)]
      ensures order.paymentId.None? ==>
                && order.status == OrderStatus.PaymentProcessing && published == old(published)
                && err == Some(Unavailable(PaymentBreaker)) && saved == old(order.Assigned())
      ensures order.paymentId.Some? ==>
                && order.paymentId == Some(env.paymentId) && order.status == PaymentCompleted
                && published == old(published) + [PaymentCompletedEvent(order.id, env.paymentId, order.totalAmount)]
                && (err.None? <==> SaveFails(PaidSave) !in env.failing)
                && saved == (if err.None? then order.Assigned() else old(order.Assigned()))
                && (err.Some? ==> err == Some(DatabaseError(SaveFails(PaidSave), env.dbMessage)))
    {
      RewriteSame(store.rows, order.id);
      saved := order.Assigned();
      var paymentId;
      err, paymentId := FirePayment(order, env);
      if err.Some? {
        return;
      }
      order.paymentId := paymentId;
      order.status := PaymentCompleted;
      var ok := store.Save(order, SaveFails(PaidSave) in env.failing);
      if ok {
        saved := order.Assigned();
      } else {
        err := Some(DatabaseError(SaveFails(PaidSave), env.dbMessage));
      }
    }

    /** Steps 4 and 5 of `executeOrderSaga`: save `(confirmed, completed)`
      and publish `order.confirmed` with the order's items. */
    method ConfirmStage(order: Order, env: Env) returns (err: Option<SagaError>, ghost saved: Columns)
      requires store.Valid() && Synced(order)
      requires order.status == PaymentCompleted && order.sagaState == SagaState.PaymentProcessing
      modifies this, store, order
      ensures store.Valid() && store.created == old(store.created)
      ensures toInventory == old(toInventory) && toPayments == old(toPayments)
      ensures order.Assigned() == Columns(Confirmed, Completed, old(order.paymentId))
      ensures store.rows == old(store.rows)[order.id := WithColumns(old(store.rows[order.id]), saved)]
      ensures err.None? <==> SaveFails(ConfirmSave) !in env.failing
      ensures err.Some? ==>
                && err == Some(DatabaseError(SaveFails(ConfirmSave), env.dbMessage))
                && saved == old(order.Assigned()) && published == old(published)
      ensures err.None? ==>
                && saved == order.Assigned()
                && published == old(published)
                     + [OrderConfirmedEvent(order.id, order.userId, order.totalAmount, old(store.rows[order.id].items))]
    {
      RewriteSame(store.rows, order.id);
      saved := order.Assigned();
      order.status := Confirmed;
      order.sagaState := Completed;
      var ok := store.Save(order, SaveFails(ConfirmSave) in env.failing);
      if !ok {
        return Some(DatabaseError(SaveFails(ConfirmSave), env.dbMessage)), saved;
      }
      saved := order.Assigned();
      PublishEvent(OrderConfirmedEvent(order.id, order.userId, order.totalAmount, store.rows[order.id].items));
      return None, saved;
    }

    /** Steps 3 to 5 of `executeOrderSaga`, once the reservation is saved. */
    method PayAndConfirm(order: Order, env: Env) returns (err: Option<SagaError>, ghost saved: Columns)
      requires store.Valid() && payments.Valid() && Synced(order)
      requires order.Assigned() == Columns(OrderStatus.Pending, InventoryReserved, None)
      modifies this, store, payments, order
      ensures store.Valid() && payments.Valid() && store.created == old(store.created)
      ensures toInventory == old(toInventory)
      ensures var h := PR.AfterProcess(old(payments.payments), order.id, order.totalAmount, order.userId,
                                       env.paymentId, env.approved, env.stripeId);
              var called := SaveFails(ProcessingSave) !in env.failing && CircuitOpen(PaymentBreaker) !in env.failing
                            && PaymentLost !in env.failing;
              && (called ==>
                    && toPayments == old(toPayments) + [PR.ProcessRequest(order.id, order.totalAmount, order.userId)]
                    && payments.payments == h.payments)
              && (!called ==> toPayments == old(toPayments) && payments.payments == old(payments.payments))
              && (order.paymentId.Some? <==> called && h.status == 200)
      ensures order.paymentId.Some? ==> order.paymentId == Some(env.paymentId)
      ensures store.rows == old(store.rows)[order.id := WithColumns(old(store.rows[order.id]), saved)]
      ensures ForwardPair(saved.status, saved.sagaState) && ForwardPair(order.status, order.sagaState)
      ensures err.Some? ==> ForwardError(err.value, env)
      ensures err.None? ==>
                && order.Assigned() == saved == Columns(Confirmed, Completed, Some(env.paymentId))
                && published == old(published)
                     + [PaymentCompletedEvent(order.id, env.paymentId, order.totalAmount),
                        OrderConfirmedEvent(order.id, order.userId, order.totalAmount, old(store.rows[order.id].items))]
    {
      ghost var rows0 := store.rows;
      ghost var items := store.rows[order.id].items;
      err, saved := ChargeStage(order, env);
      if err.Some? {
        return;
      }
      assert store.rows[order.id].items == items;
      ghost var paid, charged := payments.payments, toPayments;
      ghost var later;
      err, later := ConfirmStage(order, env);
      assert payments.payments == paid && toPayments == charged;
      RewriteRow(rows0, order.id, saved, later);
      saved := later;
    }

    /** Steps 2 to 5 of `executeOrderSaga`, from a created order to the
      `order.confirmed` event; the first failure stops the run. The payment
      service is called only after every reserve request was accepted and
      both saves after it succeeded. */
    method Forward(order: Order, env: Env)
      returns (err: Option<SagaError>, ghost accepted: nat, ghost delivered: nat, ghost saved: Columns)
      requires Valid() && Synced(order)
      requires order.Assigned() == Columns(OrderStatus.Pending, Started, None)
      modifies this, inventory, store, payments, order
      ensures Valid() && store.created == old(store.created)
      ensures var reqs := Reserves(order.id, old(store.rows[order.id].items));
              && ReservePhase(old(inventory.State()), inventory.State(), reqs, accepted, delivered)
              && toInventory == old(toInventory) + reqs[..delivered]
      ensures var reqs := Reserves(order.id, old(store.rows[order.id].items));
              var h := PR.AfterProcess(old(payments.payments), order.id, order.totalAmount, order.userId,
                                       env.paymentId, env.approved, env.stripeId);
              var called := ReachesPayment(env, accepted, |reqs|);
              && (called ==>
                    && toPayments == old(toPayments) + [PR.ProcessRequest(order.id, order.totalAmount, order.userId)]
                    && payments.payments == h.payments)
              && (!called ==> toPayments == old(toPayments) && payments.payments == old(payments.payments))
              && (order.paymentId.Some? <==> called && h.status == 200)
      ensures order.paymentId.Some? ==> order.paymentId == Some(env.paymentId)
      ensures store.rows == old(store.rows)[order.id := WithColumns(old(store.rows[order.id]), saved)]
      ensures ForwardPair(saved.status, saved.sagaState) && ForwardPair(order.status, order.sagaState)
      ensures err.Some? ==> ForwardError(err.value, env)
      ensures err.None? ==>
                && order.Assigned() == saved == Columns(Confirmed, Completed, Some(env.paymentId))
                && published == old(published)
                     + [InventoryReservedEvent(order.id, old(store.rows[order.id].items)),
                        PaymentCompletedEvent(order.id, env.paymentId, order.totalAmount),
                        OrderConfirmedEvent(order.id, order.userId, order.totalAmount, old(store.rows[order.id].items))]
    {
      ghost var rows0 := store.rows;
      ghost var items := store.rows[order.id].items;
      err, accepted, delivered, saved := ReserveStage(order, env);
      if err.Some? {
        return;
      }
      ghost var published1 := published;
      ghost var later;
      err, later := PayAndConfirm(order, env);
      RewriteRow(rows0, order.id, saved, later);
      saved := later;
      if err.None? {
        var reserved := InventoryReservedEvent(order.id, items);
        var paid := PaymentCompletedEvent(order.id, env.paymentId, order.totalAmount);
        var confirmed := OrderConfirmedEvent(order.id, order.userId, order.totalAmount, items);
        AppendThree(old(published), reserved, paid, confirmed);
      }
    }

    /** `executeOrderSaga`: `createOrder`, then the run of the created order.
      A failure inside `createOrder` leaves `order` null, so it is rethrown
      without compensation and nothing reaches either service. */
    method ExecuteOrderSaga(userId: string, items: seq<OR.ItemInput>, shippingAddress: Json, env: Env)
      returns (r: Outcome, ghost created: bool, ghost cause: Option<SagaError>, ghost accepted: nat,
               ghost delivered: nat, ghost called: bool, ghost refunds: seq<PR.PaymentRequest>)
      requires Valid()
      modifies this, inventory, store, payments
      ensures Valid()
      ensures old(store.RowsWritable()) ==> store.RowsWritable()
      ensures !created ==>
                && r.Threw? && r.error.DatabaseError? && r.error.message == env.dbMessage
                && !called && refunds == []
                && toInventory == old(toInventory) && toPayments == old(toPayments) && published == old(published)
                && inventory.State() == old(inventory.State()) && payments.payments == old(payments.payments)
      ensures created ==>
                && env.orderId !in old(store.rows) && store.created == old(store.created) + [env.orderId]
                && var row := store.rows[env.orderId];
                   && PgUuid(userId) && row.userId == Canonical(userId) && row.totalAmount == Total(items)
                   && row.shippingAddress == shippingAddress && row.items == ItemRows(env.orderId, items)
      // only reserve requests reach the inventory service, one per item in order
      ensures created ==>
                var reqs := Reserves(env.orderId, ItemRows(env.orderId, items));
                && ReservePhase(old(inventory.State()), inventory.State(), reqs, accepted, delivered)
                && toInventory == old(toInventory) + reqs[..delivered]
                && (called <==> ReachesPayment(env, accepted, |reqs|))
                && (called ==> AllAccepted(old(inventory.State()), reqs))
      // one charge, only after every reserve was accepted, then at most one refund
      ensures !called ==> toPayments == old(toPayments) && refunds == []
      ensures called && refunds == [] ==>
                toPayments == old(toPayments) + [PR.ProcessRequest(env.orderId, Total(items), userId)]
      ensures refunds != [] ==>
                toPayments == old(toPayments) + [PR.ProcessRequest(env.orderId, Total(items), userId)] + refunds
      ensures r.Succeeded? ==>
                && created && cause.None? && refunds == []
                && fresh(r.order) && r.order.id == env.orderId
                && r.order.Assigned() == Columns(Confirmed, Completed, Some(env.paymentId))
                && WithColumns(store.rows[env.orderId], r.order.Assigned()) == store.rows[env.orderId]
      ensures created && r.Threw? ==> cause.Some?
      ensures created && r.Threw? && SaveFails(CompensatingSave) in env.failing ==>
                && r.error == DatabaseError(SaveFails(CompensatingSave), env.dbMessage)
                && refunds == [] && ForwardPair(store.rows[env.orderId].status, store.rows[env.orderId].sagaState)
      ensures created && r.Threw? && SaveFails(CompensatingSave) !in env.failing ==>
                && r.error == cause.value
                && refunds == RefundsSent(env.orderId, store.rows[env.orderId].paymentId, env)
      ensures created && r.Threw? && SaveFails(CompensatingSave) !in env.failing && SaveFails(FailedSave) in env.failing ==>
                store.rows[env.orderId].sagaState == Compensating
      ensures created && r.Threw? && SaveFails(CompensatingSave) !in env.failing && SaveFails(FailedSave) !in env.failing ==>
                && store.rows[env.orderId].status == Cancelled && store.rows[env.orderId].sagaState == Failed
                && EndsWith(published, OrderFailedEvent(env.orderId, cause.value.Message()))
    {
      var order, err := CreateOrder(userId, items, shippingAddress, env);
      if order == null {
        return Threw(err.value), false, None, 0, 0, false, [];
      }
      ghost var saved;
      ghost var l0 := inventory.State();
      created := true;
      r, cause, accepted, delivered, called, refunds, saved := RunCreated(order, env);
      if called {
        PhaseAcceptedAll(l0, inventory.State(), Reserves(env.orderId, ItemRows(env.orderId, items)), accepted, delivered);
      }
    }

    /** Steps 2 to 5 of `executeOrderSaga` and its `catch` block, for an
      order that was created: a failure runs `compensate` with the error's
      message and is rethrown, unless the first save of `compensate` throws,
      whose error then escapes instead. `saved` holds the columns the row
      ends with. */
    method RunCreated(order: Order, env: Env)
      returns (r: Outcome, ghost cause: Option<SagaError>, ghost accepted: nat, ghost delivered: nat,
               ghost called: bool, ghost refunds: seq<PR.PaymentRequest>, ghost saved: Columns)
      requires Valid() && Synced(order)
      requires order.Assigned() == Columns(OrderStatus.Pending, Started, None)
      modifies this, inventory, store, payments, order
      ensures Valid() && store.created == old(store.created)
      ensures old(store.RowsWritable()) ==> store.RowsWritable()
      ensures store.rows == old(store.rows)[order.id := WithColumns(old(store.rows[order.id]), saved)]
      // only reserve requests reach the inventory service: nothing is released
      ensures var reqs := Reserves(order.id, old(store.rows[order.id].items));
              && ReservePhase(old(inventory.State()), inventory.State(), reqs, accepted, delivered)
              && toInventory == old(toInventory) + reqs[..delivered]
              && (called <==> ReachesPayment(env, accepted, |reqs|))
      // one charge, only after every reserve was accepted, then at most one refund
      ensures !called ==> toPayments == old(toPayments) && refunds == []
      ensures called && refunds == [] ==>
                toPayments == old(toPayments) + [PR.ProcessRequest(order.id, order.totalAmount, order.userId)]
      ensures refunds != [] ==>
                toPayments == old(toPayments) + [PR.ProcessRequest(order.id, order.totalAmount, order.userId)] + refunds
      // the payment table: untouched, charged once, or charged and refunded
      ensures var h := PR.AfterProcess(old(payments.payments), order.id, order.totalAmount, order.userId,
                                       env.paymentId, env.approved, env.stripeId);
              && (!called ==> payments.payments == old(payments.payments))
              && (called && refunds == [] ==> payments.payments == h.payments)
              && (refunds != [] ==> payments.payments == ServePayments(h.payments, refunds, env))
              && (order.paymentId.Some? <==> called && h.status == 200)
      ensures order.paymentId.Some? ==> called && order.paymentId == Some(env.paymentId)
      ensures r.Succeeded? <==> cause.None?
      ensures r.Succeeded? ==>
                && r.order == order && refunds == []
                && order.Assigned() == saved == Columns(Confirmed, Completed, Some(env.paymentId))
      ensures r.Threw? && SaveFails(CompensatingSave) in env.failing ==>
                && r.error == DatabaseError(SaveFails(CompensatingSave), env.dbMessage)
                && refunds == [] && ForwardPair(saved.status, saved.sagaState)
      ensures r.Threw? && SaveFails(CompensatingSave) !in env.failing ==>
                && r.error == cause.value
                && refunds == RefundsSent(order.id, order.paymentId, env)
      ensures r.Threw? && SaveFails(CompensatingSave) !in env.failing && SaveFails(FailedSave) in env.failing ==>
                saved.sagaState == Compensating && saved.paymentId == order.paymentId
      ensures r.Threw? && SaveFails(CompensatingSave) !in env.failing && SaveFails(FailedSave) !in env.failing ==>
                && saved == Columns(Cancelled, Failed, order.paymentId)
                && EndsWith(published, OrderFailedEvent(order.id, cause.value.Message()))
    {
      ghost var rows0 := store.rows;
      ghost var reqs := Reserves(order.id, store.rows[order.id].items);
      var err;
      err, accepted, delivered, saved := Forward(order, env);
      called := ReachesPayment(env, accepted, |reqs|);
      cause := err;
      if err.None? {
        refunds := [];
        if AllWritable(rows0) {
          WriteKeepsWritable(rows0, order.id, WithColumns(rows0[order.id], saved));
        }
        return Succeeded(order), cause, accepted, delivered, called, refunds, saved;
      }
      ghost var rows1 := store.rows;
      ghost var later;
      r, refunds, later := Recover(order, err.value, env);
      RewriteRow(rows0, order.id, saved, later);
      saved := later;
      if AllWritable(rows0) {
        WriteKeepsWritable(rows0, order.id, WithColumns(rows0[order.id], saved));
      }
    }

    /** The `catch` block of `executeOrderSaga`: compensate with the error's
      message, then rethrow it, or throw the error of the first save of
      `compensate` when that one fails. `last` holds the columns the row
      ends with. */
    method Recover(order: Order, cause: SagaError, env: Env)
      returns (r: Outcome, ghost refunds: seq<PR.PaymentRequest>, ghost last: Columns)
      requires Valid() && order.id in store.rows
      requires ForwardPair(order.status, order.sagaState)
      requires WritablePair(store.rows[order.id].status, store.rows[order.id].sagaState)
      modifies this, store, payments, order
      ensures Valid() && store.created == old(store.created)
      ensures WritablePair(last.status, last.sagaState)
      ensures store.rows == old(store.rows)[order.id := WithColumns(old(store.rows[order.id]), last)]
      ensures toInventory == old(toInventory) && inventory.State() == old(inventory.State())
      ensures order.paymentId == old(order.paymentId)
      ensures refunds == [] ==> toPayments == old(toPayments) && payments.payments == old(payments.payments)
      ensures refunds != [] ==>
                && toPayments == old(toPayments) + refunds
                && payments.payments == ServePayments(old(payments.payments), refunds, env)
      ensures order.paymentId.None? ==> refunds == []
      ensures r.Threw?
      ensures SaveFails(CompensatingSave) in env.failing ==>
                && r.error == DatabaseError(SaveFails(CompensatingSave), env.dbMessage)
                && refunds == [] && order.sagaState == Compensating
                && last == Columns(old(store.rows[order.id].status), old(store.rows[order.id].sagaState), old(store.rows[order.id].paymentId))
      ensures SaveFails(CompensatingSave) !in env.failing ==>
                && r.error == cause
                && refunds == RefundsSent(order.id, order.paymentId, env)
                && order.status == Cancelled && order.sagaState == Failed
      ensures SaveFails(CompensatingSave) !in env.failing && SaveFails(FailedSave) in env.failing ==>
                last == Columns(old(order.status), Compensating, order.paymentId)
      ensures SaveFails(CompensatingSave) !in env.failing && SaveFails(FailedSave) !in env.failing ==>
                && last == Columns(Cancelled, Failed, order.paymentId)
                && EndsWith(published, OrderFailedEvent(order.id, cause.Message()))
    {
      ghost var before := order.Assigned();
      ghost var pay0 := payments.payments;
      RewriteSame(store.rows, order.id);
      var escaped := Compensate(order, cause.Message(), env);
      if escaped.Some? {
        assert ServePayments(pay0, [], env) == pay0;
        return Threw(escaped.value), [], Columns(store.rows[order.id].status, store.rows[order.id].sagaState, store.rows[order.id].paymentId);
      }
      refunds := RefundsSent(order.id, order.paymentId, env);
      if SaveFails(FailedSave) in env.failing {
        last := before.(sagaState := Compensating);
      } else {
        last := order.Assigned();
        LastEvent(old(published) + RefundEvents(order.id, order.paymentId, pay0, env), OrderFailedEvent(order.id, cause.Message()));
      }
      r := Threw(cause);
    }

    /** `compensate`: save `compensating` (a failure here escapes), then run
      the guarded part, whose failures are swallowed. */
    method Compensate(order: Order, reason: string, env: Env) returns (escaped: Option<SagaError>)
      requires store.Valid() && payments.Valid() && order.id in store.rows
      modifies this, store, payments, order
      ensures store.Valid() && payments.Valid() && store.created == old(store.created)
      ensures toInventory == old(toInventory)
      ensures order.paymentId == old(order.paymentId)
      ensures escaped.Some? <==> SaveFails(CompensatingSave) in env.failing
      ensures escaped.Some? ==>
                && escaped == Some(DatabaseError(SaveFails(CompensatingSave), env.dbMessage))
                && order.Assigned() == old(order.Assigned()).(sagaState := Compensating)
                && store.rows == old(store.rows) && toPayments == old(toPayments)
                && payments.payments == old(payments.payments) && published == old(published)
      ensures escaped.None? ==>
                && toPayments == old(toPayments) + RefundsSent(order.id, order.paymentId, env)
                && payments.payments == ServePayments(old(payments.payments), RefundsSent(order.id, order.paymentId, env), env)
                && order.status == Cancelled && order.sagaState == Failed
      ensures escaped.None? && SaveFails(FailedSave) in env.failing ==>
                && store.rows == old(store.rows)[order.id := WithColumns(old(store.rows[order.id]), old(order.Assigned()).(sagaState := Compensating))]
                && published == old(published) + RefundEvents(order.id, order.paymentId, old(payments.payments), env)
      ensures escaped.None? && SaveFails(FailedSave) !in env.failing ==>
                && store.rows == old(store.rows)[order.id := WithColumns(old(store.rows[order.id]), order.Assigned())]
                && published == old(published) + RefundEvents(order.id, order.paymentId, old(payments.payments), env)
                                 + [OrderFailedEvent(order.id, reason)]
    {
      order.sagaState := Compensating;
      ghost var rows0 := store.rows;
      ghost var first := order.Assigned();
      var ok := store.Save(order, SaveFails(CompensatingSave) in env.failing);
      if !ok {
        return Some(DatabaseError(SaveFails(CompensatingSave), env.dbMessage));
      }
      ghost var last := CompensateGuarded(order, reason, env);
      RewriteRow(rows0, order.id, first, last);
      return None;
    }

    /** The `try` block of `compensate`, run after `compensating` was saved.
      The release branch tests `sagaState` after it was overwritten, so the
      inventory service is never called; a refund is sent when the order
      holds a payment id; then `(cancelled, failed)` is saved and
      `order.failed` published, unless that save fails. */
    method CompensateGuarded(order: Order, reason: string, env: Env) returns (ghost last: Columns)
      requires store.Valid() && payments.Valid() && Synced(order)
      requires order.sagaState == Compensating
      modifies this, store, payments, order
      ensures store.Valid() && payments.Valid() && store.created == old(store.created)
      ensures toInventory == old(toInventory)
      ensures order.paymentId == old(order.paymentId)
      ensures order.status == Cancelled && order.sagaState == Failed
      ensures toPayments == old(toPayments) + RefundsSent(order.id, order.paymentId, env)
      ensures payments.payments == ServePayments(old(payments.payments), RefundsSent(order.id, order.paymentId, env), env)
      ensures store.rows == old(store.rows)[order.id := WithColumns(old(store.rows[order.id]), last)]
      ensures SaveFails(FailedSave) in env.failing ==>
                && last == old(order.Assigned())
                && published == old(published) + RefundEvents(order.id, order.paymentId, old(payments.payments), env)
      ensures SaveFails(FailedSave) !in env.failing ==>
                && last == order.Assigned()
                && published == old(published) + RefundEvents(order.id, order.paymentId, old(payments.payments), env)
                                 + [OrderFailedEvent(order.id, reason)]
    {
      RewriteSame(store.rows, order.id);
      last := order.Assigned();
      // `sagaState` was overwritten before this block: the release condition cannot hold
      if order.sagaState == InventoryReserved || order.sagaState == SagaState.PaymentProcessing {
        assert false;
      }
      if Truthy(order.paymentId) {
        RefundPayment(order, env);
      }
      order.status := Cancelled;
      order.sagaState := Failed;
      var ok := store.Save(order, SaveFails(FailedSave) in env.failing);
      if ok {
        last := order.Assigned();
        PublishEvent(OrderFailedEvent(order.id, reason));
      }
    }

    /** `refundPayment`: one `/refund` request for the order's payment; a lost
      request or an error status is logged and swallowed, and
      `payment.refunded` is published only on success. */
    method RefundPayment(order: Order, env: Env)
      requires payments.Valid() && Truthy(order.paymentId)
      modifies this, payments
      ensures payments.Valid()
      ensures toInventory == old(toInventory)
      ensures toPayments == old(toPayments) + RefundsSent(order.id, order.paymentId, env)
      ensures payments.payments == ServePayments(old(payments.payments), RefundsSent(order.id, order.paymentId, env), env)
      ensures published == old(published) + RefundEvents(order.id, order.paymentId, old(payments.payments), env)
    {
      if RefundLost in env.failing {
        return;
      }
      var status, _ := payments.Refund(order.paymentId.value, order.id);
      toPayments := toPayments + [PR.RefundRequest(order.paymentId.value, order.id)];
      if status == 200 {
        PublishEvent(PaymentRefundedEvent(order.id, order.paymentId.value));
      }
    }

    /** `releaseInventory`: one `/release` request per item of the order, in
      item order; a request that fails is logged and the loop goes on, and
      `inventory.released` is published at the end. */
    method ReleaseInventory(order: Order, env: Env)
      requires store.Valid() && inventory.Valid() && order.id in store.rows
      modifies this, inventory
      ensures inventory.Valid()
      ensures toPayments == old(toPayments)
      ensures var items := store.rows[order.id].items;
              var sent := ReleasesSent(order.id, items, env.failing, |items|);
              && toInventory == old(toInventory) + sent
              && inventory.State() == IR.ServeAll(old(inventory.State()), sent)
              && published == old(published) + [InventoryReleasedEvent(order.id, items)]
    {
      var items := store.rows[order.id].items;
      ghost var l0 := inventory.State();
      var i := 0;
      while i < |items|
        invariant 0 <= i <= |items|
        invariant inventory.Valid()
        invariant toInventory == old(toInventory) + ReleasesSent(order.id, items, env.failing, i)
        invariant inventory.State() == IR.ServeAll(l0, ReleasesSent(order.id, items, env.failing, i))
        invariant published == old(published) && toPayments == old(toPayments)
      {
        ReleaseItem(order.id, items, i, env, l0, old(toInventory));
        i := i + 1;
      }
      PublishEvent(InventoryReleasedEvent(order.id, items));
    }

    /** One iteration of the release loop. */
    method ReleaseItem(orderId: string, items: seq<OrderItem>, i: nat, env: Env,
                       ghost l0: IR.Ledger, ghost log0: seq<IR.InventoryRequest>)
      requires inventory.Valid() && i < |items|
      requires toInventory == log0 + ReleasesSent(orderId, items, env.failing, i)
      requires inventory.State() == IR.ServeAll(l0, ReleasesSent(orderId, items, env.failing, i))
      modifies this, inventory
      ensures inventory.Valid()
      ensures toInventory == log0 + ReleasesSent(orderId, items, env.failing, i + 1)
      ensures inventory.State() == IR.ServeAll(l0, ReleasesSent(orderId, items, env.failing, i + 1))
      ensures published == old(published) && toPayments == old(toPayments)
    {
      ghost var sent := ReleasesSent(orderId, items, env.failing, i);
      if ReleaseLost(i) in env.failing {
        assert sent + [] == sent;
        return;
      }
      var req := IR.ReleaseRequest(items[i].productId, items[i].quantity, orderId);
      var status, message := inventory.Release(req.productId, req.quantity, req.orderId);
      toInventory := toInventory + [req];
      ServeAllSnoc(l0, sent, req);
    }
  }
}

=== FILE: order_table.dfy ===
/** The orders table as the order service uses it: Sequelize instances whose
    fields the saga assigns in memory, and a table that `create` and `save`
    write to. A write can be refused by the column constraints or fail for
    reasons outside the model (the `fails` flag). */
module OrderTable {
  import opened Common
  import opened OrderModel

  /** The (status, sagaState) pairs the order service ever writes: the five
      steps of a run, `compensating` over whatever status the order had when
      compensation began, and the `(cancelled, failed)` end of compensation. */
  predicate WritablePair(s: OrderStatus, g: SagaState) {
    || ForwardPair(s, g)
    || (g == Compensating && s in {OrderStatus.Pending, OrderStatus.PaymentProcessing, PaymentCompleted, Confirmed})
    || (s == Cancelled && g == Failed)
  }

  /** The five steps of a run before any compensation. */
  predicate ForwardPair(s: OrderStatus, g: SagaState) {
    || (s == OrderStatus.Pending && g == Started)
    || (s == OrderStatus.Pending && g == InventoryReserved)
    || (s == OrderStatus.PaymentProcessing && g == SagaState.PaymentProcessing)
    || (s == PaymentCompleted && g == SagaState.PaymentProcessing)
    || (s == Confirmed && g == Completed)
  }

  /** Outside compensation the two enums agree: an order is confirmed iff its
      saga completed, and cancelled iff its saga failed. */
  lemma ConfirmedIffCompleted(s: OrderStatus, g: SagaState)
    requires WritablePair(s, g) && g != Compensating
    ensures s == Confirmed <==> g == Completed
    ensures s == Cancelled <==> g == Failed
  {
  }

  /** Every row of `rows` holds a pair the service writes. */
  predicate AllWritable(rows: map<string, OrderRow>) {
    forall id :: id in rows ==> WritablePair(rows[id].status, rows[id].sagaState)
  }

  /** Writing a writable pair into one row keeps every row writable. */
  lemma WriteKeepsWritable(rows: map<string, OrderRow>, id: string, row: OrderRow)
    requires AllWritable(rows) && WritablePair(row.status, row.sagaState)
    ensures AllWritable(rows[id := row])
  {
  }

  /** The three columns the saga assigns. */
  datatype Columns = Columns(status: OrderStatus, sagaState: SagaState, paymentId: Option<string>)

  /** `row` with its assigned columns overwritten. */
  function WithColumns(row: OrderRow, c: Columns): OrderRow {
    row.(status := c.status, sagaState := c.sagaState, paymentId := c.paymentId)
  }

  /** Writing back the columns a row already holds leaves the table as it is. */
  lemma RewriteSame(rows: map<string, OrderRow>, id: string)
    requires id in rows
    ensures rows[id := WithColumns(rows[id], Columns(rows[id].status, rows[id].sagaState, rows[id].paymentId))] == rows
  {
  }

  /** Of two writes to the same row, the second one counts. */
  lemma RewriteRow(rows: map<string, OrderRow>, id: string, c1: Columns, c2: Columns)
    requires id in rows
    ensures var once := rows[id := WithColumns(rows[id], c1)];
            once[id := WithColumns(once[id], c2)] == rows[id := WithColumns(rows[id], c2)]
  {
  }

  /** A loaded order row: the columns the saga never writes are constants,
      the three it assigns are fields. */
  class Order {
    const id: string
    const userId: string
    const totalAmount: Cents
    const shippingAddress: Json
    var status: OrderStatus
    var sagaState: SagaState
    var paymentId: Option<string>

    constructor (row: OrderRow)
      ensures id == row.id && userId == row.userId && totalAmount == row.totalAmount
      ensures shippingAddress == row.shippingAddress
      ensures status == row.status && sagaState == row.sagaState && paymentId == row.paymentId
    {
      id := row.id;
      userId := row.userId;
      totalAmount := row.totalAmount;
      shippingAddress := row.shippingAddress;
      status := row.status;
      sagaState := row.sagaState;
      paymentId := row.paymentId;
    }

    /** The values of the assigned columns in memory. */
    function Assigned(): Columns
      reads this
    {
      Columns(status, sagaState, paymentId)
    }
  }

  /** The `orders` table with its items, and the ids in creation order
      (what `ORDER BY createdAt` sorts by). */
  class OrderStore {
    var rows: map<string, OrderRow>
    var created: seq<string>

    /** Every row sits under its own id, the UUID columns of `orders` hold
      canonical text, and `created` lists exactly the stored ids. */
    ghost predicate Valid()
      reads this
    {
      && (forall id :: id in rows ==> rows[id].id == id && CanonicalUuid(id) && CanonicalUuid(rows[id].userId))
      && (forall id :: id in rows <==> id in created)
    }

    /** Every row holds one of the pairs the service writes. */
    predicate RowsWritable()
      reads this
    {
      AllWritable(rows)
    }

    constructor ()
      ensures Valid() && RowsWritable() && rows == map[] && created == []
    {
      rows := map[];
      created := [];
    }

    /** `Order.create`: refused by a column constraint or a taken key; the
      user id is stored in PostgreSQL's canonical text. */
    method Insert(row: OrderRow, fails: bool) returns (ok: bool)
      requires Valid()
      modifies this
      ensures Valid()
      ensures ok <==> !fails && StorableOrder(row) && ItemsBelong(row) && row.id !in old(rows)
      ensures ok ==> rows == old(rows)[row.id := row.(userId := Canonical(row.userId))] && created == old(created) + [row.id]
      ensures !ok ==> rows == old(rows) && created == old(created)
    {
      if fails || !StorableOrder(row) || !ItemsBelong(row) || row.id in rows {
        return false;
      }
      rows := rows[row.id := row.(userId := Canonical(row.userId))];
      created := created + [row.id];
      return true;
    }

    /** `OrderItem.create`: refused by a column constraint or a dangling
      foreign key. */
    method AddItem(item: OrderItem, fails: bool) returns (ok: bool)
      requires Valid()
      modifies this
      ensures Valid()
      ensures created == old(created)
      ensures ok <==> !fails && StorableItem(item) && item.orderId in old(rows)
      ensures ok ==> rows == old(rows)[item.orderId := old(rows)[item.orderId].(items := old(rows)[item.orderId].items + [item])]
      ensures !ok ==> rows == old(rows)
    {
      if fails || !StorableItem(item) || item.orderId !in rows {
        return false;
      }
      var row := rows[item.orderId];
      rows := rows[item.orderId := row.(items := row.items + [item])];
      return true;
    }

    /** `order.save()`: writes the three assignable columns of the instance. */
    method Save(order: Order, fails: bool) returns (ok: bool)
      requires Valid() && order.id in rows
      modifies this
      ensures Valid()
      ensures created == old(created)
      ensures ok <==> !fails
      ensures ok ==> rows == old(rows)[order.id := WithColumns(old(rows)[order.id], order.Assigned())]
      ensures !ok ==> rows == old(rows)
    {
      if fails {
        return false;
      }
      var row := rows[order.id];
      rows := rows[order.id := row.(status := order.status, sagaState := order.sagaState, paymentId := order.paymentId)];
      return true;
    }
  }
}

=== FILE: pagination.dfy ===
/** The page arithmetic shared by the order list (`getUserOrders`) and the
    user list (`getAllUsers`): `offset = (page - 1) * limit`,
    `totalPages = Math.ceil(count / limit)`, and the LIMIT/OFFSET slice the
    database returns. */
module Pagination {
  import opened Common

  const DefaultPage: int := 1
  const DefaultLimit: int := 10

  /** A query parameter that was not given takes its default. */
  function OrDefault(given: Option<int>, default: int): int {
    if given.Some? then given.value else default
  }

  function Offset(page: int, limit: int): int {
    (page - 1) * limit
  }

  /** `Math.ceil(count / limit)`. With `limit == 0` JavaScript computes
      Infinity or NaN, which JSON serialises as `null`: that is `None`. */
  function TotalPages(count: nat, limit: int): (r: Option<int>)
    ensures r.None? <==> limit == 0
    // r is the ceiling of count / limit: the least integer not below it
    ensures limit > 0 ==> (r.value - 1) * limit < count <= r.value * limit
    ensures limit < 0 ==> r.value * limit <= count < (r.value - 1) * limit
  {
    if limit == 0 then None
    else if limit > 0 then
      var q := (count + limit - 1) / limit;
      CeilingBounds(count, limit);
      Some(q)
    else
      // Dafny's division is Euclidean: for a negative divisor and a
      // non-negative dividend its quotient is already the ceiling.
      var q := count / limit;
      assert count == q * limit + count % limit;
      Some(q)
  }

  lemma CeilingBounds(count: nat, limit: int)
    requires limit > 0
    ensures ((count + limit - 1) / limit - 1) * limit < count <= ((count + limit - 1) / limit) * limit
  {
    var q := (count + limit - 1) / limit;
    var r := (count + limit - 1) % limit;
    assert count + limit - 1 == q * limit + r;
    assert (q - 1) * limit == q * limit - limit;
  }

  /** What a page query returns: the rows of the page and the pagination block. */
  datatype Listing<T> = Listing(rows: seq<T>, total: nat, page: int, limit: int, totalPages: Option<int>)

  /** The page `page` of `matching` (already filtered and in the order the
      query sorts by). PostgreSQL rejects a negative LIMIT or OFFSET, which the
      controller answers with a 500: that is `None`. */
  function Paginate<T>(matching: seq<T>, page: int, limit: int): (r: Option<Listing<T>>)
    ensures r.None? <==> limit < 0 || Offset(page, limit) < 0
    ensures r.Some? ==> r.value.total == |matching| && r.value.page == page && r.value.limit == limit
    ensures r.Some? ==> |r.value.rows| <= limit
    ensures r.Some? ==> forall k :: 0 <= k < |r.value.rows| ==>
              Offset(page, limit) + k < |matching| && r.value.rows[k] == matching[Offset(page, limit) + k]
    ensures r.Some? ==> r.value.totalPages == TotalPages(|matching|, limit)
  {
    var offset := Offset(page, limit);
    if limit < 0 || offset < 0 then None
    else
      var from := if offset < |matching| then offset else |matching|;
      var to := if offset + limit < |matching| then offset + limit else |matching|;
      Some(Listing(matching[from..to], |matching|, page, limit, TotalPages(|matching|, limit)))
  }

  /** The pages 1 .. totalPages partition the rows: row `i` lies on page
      `i / limit + 1`, that page is within totalPages, and no other page
      holds it. */
  lemma {:induction false} EveryRowOnExactlyOnePage(count: nat, limit: int, i: nat)
    requires limit > 0 && i < count
    ensures var p := i / limit + 1;
            && 1 <= p <= TotalPages(count, limit).value
            && Offset(p, limit) <= i < Offset(p, limit) + limit
    ensures forall p' :: Offset(p', limit) <= i < Offset(p', limit) + limit ==> p' == i / limit + 1
  {
    var p := i / limit + 1;
    var tp := TotalPages(count, limit).value;
    assert i == (i / limit) * limit + i % limit;
    assert Offset(p, limit) == (i / limit) * limit;
    // p <= tp: otherwise tp * limit <= (p - 1) * limit <= i < count, against count <= tp * limit
    if p > tp {
      assert tp <= p - 1;
      MulMonotone(tp, p - 1, limit);
      assert false;
    }
    forall p' | Offset(p', limit) <= i < Offset(p', limit) + limit
      ensures p' == p
    {
      if p' < p {
        MulMonotone(p', p - 1, limit);
      } else if p' > p {
        MulMonotone(p, p' - 1, limit);
      }
    }
  }

  lemma MulMonotone(a: int, b: int, limit: int)
    requires a <= b && limit > 0
    ensures a * limit <= b * limit
  {
    assert b * limit - a * limit == (b - a) * limit;
  }
}

=== FILE: payment_routes.dfy ===
/** The payment service's `payments` table and its routes `POST /process`,
    `POST /refund` and `GET /:id`. The card charge is simulated: whether it
    is approved, the new row's id and the gateway's charge id are parameters. */
module PaymentRoutes {
  import opened Common

  datatype PaymentStatus = Pending | Processing | Completed | Failed | Refunded

  /** One `payments` row (amount in cents). */
  datatype Payment = Payment(
    id: string,
    orderId: string,
    userId: string,
    amount: Cents,
    currency: string,
    status: PaymentStatus,
    stripePaymentId: Option<string>,
    paymentMethod: Option<string>,
    failureReason: Option<string>)

  const DefaultCurrency: string := "USD"
  const FailureReason: string := "Simulated payment failure"

  /** A row as the table keeps it: the three UUID columns in PostgreSQL's
      canonical text and a DECIMAL(10,2) amount. */
  predicate StorablePayment(p: Payment) {
    CanonicalUuid(p.id) && CanonicalUuid(p.orderId) && CanonicalUuid(p.userId) && FitsDecimal10x2(p.amount)
  }

  /** Every row sits under its own id and is storable. */
  predicate ValidPayments(m: map<string, Payment>) {
    forall id :: id in m ==> m[id].id == id && StorablePayment(m[id])
  }

  /** The table after a request, the response's status and message, and the
      `paymentId` field of a successful `/process` response. */
  datatype PaymentHandled = PaymentHandled(payments: map<string, Payment>, status: int, message: string, paymentId: Option<string>)

  /** `POST /process`: a row is created in state `processing`, then set to
      `completed` (with the gateway's charge id) or `failed` (with the
      failure reason). Nothing looks for an earlier payment of the same order.
      `newId` is the value of the `UUIDV4` default, which is generated in
      canonical lower-case text; the order and user ids may be any spelling
      PostgreSQL reads as a UUID and are stored canonically. */
  function AfterProcess(m: map<string, Payment>, orderId: string, amount: Cents, userId: string,
                        newId: string, approved: bool, stripeId: string): (h: PaymentHandled)
    ensures h.status in {200, 400, 500}
    // the insert is refused (500, nothing written) iff a column is invalid or the id is taken
    ensures h.status == 500 <==>
              !CanonicalUuid(newId) || !PgUuid(orderId) || !PgUuid(userId) || !FitsDecimal10x2(amount) || newId in m
    ensures h.status == 500 ==> h.payments == m && h.paymentId.None?
    ensures h.status != 500 ==> h.status == (if approved then 200 else 400)
    // otherwise exactly one row is added and the existing ones are untouched
    ensures h.status != 500 ==>
              && h.payments.Keys == m.Keys + {newId}
              && (forall id :: id in m ==> h.payments[id] == m[id])
              && var p := h.payments[newId];
                 && p.orderId == Canonical(orderId) && p.userId == Canonical(userId)
                 && p.amount == amount && p.currency == DefaultCurrency
                 && (approved ==> p.status == Completed && p.stripePaymentId == Some(stripeId) && p.failureReason.None?)
                 && (!approved ==> p.status == Failed && p.failureReason == Some(FailureReason) && p.stripePaymentId.None?)
    // the success response names the new row
    ensures h.status == 200 <==> h.paymentId == Some(newId)
  {
    if !PgUuid(orderId) || !PgUuid(userId) then PaymentHandled(m, 500, "Payment processing error", None)
    else
    var created := Payment(newId, Canonical(orderId), Canonical(userId), amount, DefaultCurrency, Processing, None, None, None);
    if !StorablePayment(created) || newId in m then PaymentHandled(m, 500, "Payment processing error", None)
    else if approved then
      PaymentHandled(m[newId := created.(status := Completed, stripePaymentId := Some(stripeId))],
                     200, "Payment processed successfully", Some(newId))
    else
      PaymentHandled(m[newId := created.(status := Failed, failureReason := Some(FailureReason))],
                     400, "Payment processing failed", None)
  }

  /** `POST /refund`: marks the payment refunded whatever its state; the
      order id in the body is only logged. The id is looked up the way
      PostgreSQL reads it: any spelling of a stored id finds its row, and
      text that is no UUID makes the query fail. */
  function AfterRefund(m: map<string, Payment>, paymentId: string, orderId: string): (h: PaymentHandled)
    ensures h.status in {200, 404, 500}
    ensures h.status == 500 <==> !PgUuid(paymentId)
    ensures h.status == 404 <==> PgUuid(paymentId) && Canonical(paymentId) !in m
    ensures h.status != 200 ==> h.payments == m
    ensures h.status == 200 ==>
              var key := Canonical(paymentId);
              key in m && h.payments == m[key := m[key].(status := Refunded)]
    ensures h.paymentId.None?
  {
    if !PgUuid(paymentId) then PaymentHandled(m, 500, "Refund processing error", None)
    else
      var key := Canonical(paymentId);
      if key !in m then PaymentHandled(m, 404, "Payment not found", None)
      else PaymentHandled(m[key := m[key].(status := Refunded)], 200, "Payment refunded successfully", None)
  }

  /** `GET /:id`, looked up the way PostgreSQL reads the id. */
  function FindPayment(m: map<string, Payment>, id: string): (r: (int, Option<Payment>))
    ensures r.0 in {200, 404, 500}
    ensures r.0 == 500 <==> !PgUuid(id)
    ensures r.0 == 404 <==> PgUuid(id) && Canonical(id) !in m
    ensures r.0 == 200 ==> Canonical(id) in m && r.1 == Some(m[Canonical(id)])
    ensures r.0 != 200 ==> r.1.None?
  {
    if !PgUuid(id) then (500, None)
    else if Canonical(id) in m then (200, Some(m[Canonical(id)]))
    else (404, None)
  }

  /** Every spelling PostgreSQL reads as the id of a stored payment finds
      that payment, among them each upper- or mixed-case `isUUID()` spelling;
      and refunding through any of them refunds that payment. */
  lemma EverySpellingFindsPayment(m: map<string, Payment>, p: string, s: string, orderId: string)
    requires ValidPayments(m) && p in m
    requires SameUuid(s, p) || (IsUuid(s) && LowerAll(s) == p)
    ensures FindPayment(m, s) == (200, Some(m[p]))
    ensures AfterRefund(m, s, orderId).status == 200
    ensures AfterRefund(m, s, orderId).payments == m[p := m[p].(status := Refunded)]
  {
    SpellingFindsKey(s, p);
  }

  /** A request as it reaches the payment service. */
  datatype PaymentRequest =
    | ProcessRequest(orderId: string, amount: Cents, userId: string)
    | RefundRequest(paymentId: string, orderId: string)

  /** Both routes keep the table valid. */
  lemma RoutesPreserveValid(m: map<string, Payment>, orderId: string, amount: Cents, userId: string,
                            newId: string, approved: bool, stripeId: string, paymentId: string)
    requires ValidPayments(m)
    ensures ValidPayments(AfterProcess(m, orderId, amount, userId, newId, approved, stripeId).payments)
    ensures ValidPayments(AfterRefund(m, paymentId, orderId).payments)
  {
    ProcessKeepsValid(m, orderId, amount, userId, newId, approved, stripeId);
    RefundKeepsValid(m, paymentId, orderId);
  }

  lemma ProcessKeepsValid(m: map<string, Payment>, orderId: string, amount: Cents, userId: string,
                          newId: string, approved: bool, stripeId: string)
    requires ValidPayments(m)
    ensures ValidPayments(AfterProcess(m, orderId, amount, userId, newId, approved, stripeId).payments)
  {
  }

  lemma RefundKeepsValid(m: map<string, Payment>, paymentId: string, orderId: string)
    requires ValidPayments(m)
    ensures ValidPayments(AfterRefund(m, paymentId, orderId).payments)
  {
  }

  /** Refunding is idempotent: a second refund of the same payment answers
      200 again and changes nothing. */
  lemma RefundIdempotent(m: map<string, Payment>, paymentId: string, orderId: string, orderId': string)
    requires AfterRefund(m, paymentId, orderId).status == 200
    ensures var once := AfterRefund(m, paymentId, orderId);
            var twice := AfterRefund(once.payments, paymentId, orderId');
            twice.status == 200 && twice.payments == once.payments
  {
    var once := AfterRefund(m, paymentId, orderId);
    var key := Canonical(paymentId);
    assert once.payments[key].(status := Refunded) == once.payments[key];
  }

  /** Processing the same order twice charges it twice: with two fresh ids and
      an approving gateway both calls succeed and two completed payments of
      that order exist. */
  lemma ProcessIsNotDeduplicated(m: map<string, Payment>, orderId: string, amount: Cents, userId: string,
                                 id1: string, id2: string, stripe1: string, stripe2: string)
    requires PgUuid(orderId) && PgUuid(userId) && FitsDecimal10x2(amount)
    requires CanonicalUuid(id1) && CanonicalUuid(id2) && id1 != id2 && id1 !in m && id2 !in m
    ensures var h1 := AfterProcess(m, orderId, amount, userId, id1, true, stripe1);
            var h2 := AfterProcess(h1.payments, orderId, amount, userId, id2, true, stripe2);
            && h1.status == 200 && h2.status == 200
            && h2.payments[id1].orderId == Canonical(orderId) && h2.payments[id1].status == Completed
            && h2.payments[id2].orderId == Canonical(orderId) && h2.payments[id2].status == Completed
  {
  }

  /** The table, updated in place by the route handlers. */
  class PaymentService {
    var payments: map<string, Payment>

    ghost predicate Valid()
      reads this
    {
      ValidPayments(payments)
    }

    constructor ()
      ensures Valid() && payments == map[]
    {
      payments := map[];
    }

    method Process(orderId: string, amount: Cents, userId: string, newId: string, approved: bool, stripeId: string)
      returns (status: int, message: string, paymentId: Option<string>)
      requires Valid()
      modifies this
      ensures PaymentHandled(payments, status, message, paymentId)
              == AfterProcess(old(payments), orderId, amount, userId, newId, approved, stripeId)
      ensures Valid()
    {
      if !PgUuid(orderId) || !PgUuid(userId) {
        return 500, "Payment processing error", None;
      }
      var payment := Payment(newId, Canonical(orderId), Canonical(userId), amount, DefaultCurrency, Processing, None, None, None);
      if !StorablePayment(payment) || newId in payments {
        return 500, "Payment processing error", None;
      }
      if approved {
        payment := payment.(status := Completed);
        payment := payment.(stripePaymentId := Some(stripeId));
        payments := payments[newId := payment];
        status, message, paymentId := 200, "Payment processed successfully", Some(payment.id);
      } else {
        payment := payment.(status := Failed);
        payment := payment.(failureReason := Some(FailureReason));
        payments := payments[newId := payment];
        status, message, paymentId := 400, "Payment processing failed", None;
      }
      assert PaymentHandled(payments, status, message, paymentId)
             == AfterProcess(old(payments), orderId, amount, userId, newId, approved, stripeId);
      ProcessKeepsValid(old(payments), orderId, amount, userId, newId, approved, stripeId);
    }

    method Refund(paymentId: string, orderId: string) returns (status: int, message: string)
      requires Valid()
      modifies this
      ensures PaymentHandled(payments, status, message, None) == AfterRefund(old(payments), paymentId, orderId)
      ensures Valid()
    {
      if !PgUuid(paymentId) {
        return 500, "Refund processing error";
      }
      var key := Canonical(paymentId);
      if key !in payments {
        return 404, "Payment not found";
      }
      var payment := payments[key];
      payment := payment.(status := Refunded);
      payments := payments[key := payment];
      status, message := 200, "Payment refunded successfully";
      assert PaymentHandled(payments, status, message, None) == AfterRefund(old(payments), paymentId, orderId);
      RefundKeepsValid(old(payments), paymentId, orderId);
    }
  }
}

=== FILE: user_controller.dfy ===
/** The user service's `UserController`: the caller's own profile and
    password, and the admin operations on other users (list, show, change
    role, soft delete). `actor` is the `userId` of the caller's verified
    access token. The user model file is not part of this model, so user ids
    are opaque strings: an id the table does not hold is answered as not
    found. */
module UserController {
  import opened Common
  import opened UserModel
  import P = Pagination
  import AC = AuthController

  /** The JSON body of a reply. */
  datatype Body =
    | Message(text: string)
    | Errors(errors: seq<ValidationError>)
    | Profile(message: string, user: User)
    | Users(listing: P.Listing<User>)

  datatype Reply = Reply(status: int, body: Body)

  const UserNotFound: string := "User not found"
  const ProfileUpdated: string := "Profile updated successfully"
  const WrongPassword: string := "Current password is incorrect"
  const PasswordChanged: string := "Password changed successfully"
  const RoleUpdated: string := "User role updated successfully"
  const SelfDelete: string := "Cannot delete your own account"
  const Deleted: string := "User deleted successfully"
  const InternalError: string := "Internal server error"

  /** `getUserById`: the row with that id, or 404. */
  function GetUserById(users: map<string, User>, id: string): (r: Reply)
    ensures r.status in {200, 404}
    ensures r.status == 200 <==> id in users
    ensures id in users ==> r.body == Profile("", users[id])
    ensures id !in users ==> r.body == Message(UserNotFound)
  {
    match FindByPk(users, id)
    case None => Reply(404, Message(UserNotFound))
    case Some(u) => Reply(200, Profile("", u))
  }

  /** `getProfile`: the caller sees their own row exactly as an admin who
      asks for it by id. */
  function GetProfile(users: map<string, User>, actor: string): (r: Reply)
    ensures r == GetUserById(users, actor)
  {
    if actor in users then Reply(200, Profile("", users[actor])) else Reply(404, Message(UserNotFound))
  }

  /** ASCII case folding, what `ILIKE` does to the letters A-Z. */
  function Fold(c: char): (d: char)
    ensures 'A' <= c <= 'Z' ==> d as int == c as int + 32
    ensures !('A' <= c <= 'Z') ==> d == c
  {
    if 'A' <= c <= 'Z' then (c as int + 32) as char else c
  }

  function FoldAll(s: string): (t: string)
    ensures |t| == |s| && forall i :: 0 <= i < |s| ==> t[i] == Fold(s[i])
  {
    seq(|s|, i requires 0 <= i < |s| => Fold(s[i]))
  }

  /** `needle` occurs in `hay` starting at index `i`. */
  predicate OccursAt(needle: string, hay: string, i: int) {
    0 <= i <= |hay| - |needle| && hay[i..i + |needle|] == needle
  }

  /** `needle` occurs in `hay` as a contiguous run. */
  predicate Occurs(needle: string, hay: string) {
    exists i | 0 <= i <= |hay| - |needle| :: OccursAt(needle, hay, i)
  }

  /** `column ILIKE '%search%'` on the first name, the last name or the email. */
  predicate Matches(u: User, search: string) {
    var s := FoldAll(search);
    Occurs(s, FoldAll(u.firstName)) || Occurs(s, FoldAll(u.lastName)) || Occurs(s, FoldAll(u.email))
  }

  /** The search ignores case: searching for a string and for its folded
      form select the same users. */
  lemma {:induction false} SearchIgnoresCase(u: User, search: string)
    ensures Matches(u, search) == Matches(u, FoldAll(search))
  {
    assert FoldAll(FoldAll(search)) == FoldAll(search);
  }

  /** The `where` clause of `getAllUsers`: a truthy search, and a role. */
  predicate Selected(u: User, search: Option<string>, role: Option<Role>) {
    && (Truthy(search) ==> Matches(u, search.value))
    && (role.Some? ==> u.role == role.value)
  }

  /** Where the selected users sit among the first `n` of the creation
      order `created`, newest first (`ORDER BY createdAt DESC`): each
      position holds a selected user, each comes before every older one (so
      none is listed twice), and no selected position is missing. */
  function SelectedPositions(users: map<string, User>, created: seq<string>,
                             search: Option<string>, role: Option<Role>, n: nat): (ix: seq<nat>)
    requires forall k :: 0 <= k < |created| ==> created[k] in users
    requires n <= |created|
    ensures |ix| <= n
    ensures forall k :: 0 <= k < |ix| ==> ix[k] < n && Selected(users[created[ix[k]]], search, role)
    ensures forall j, k :: 0 <= j < k < |ix| ==> ix[j] > ix[k]
    ensures forall i :: 0 <= i < n && Selected(users[created[i]], search, role) ==> i in ix
    decreases n
  {
    if n == 0 then []
    else
      var older := SelectedPositions(users, created, search, role, n - 1);
      if Selected(users[created[n - 1]], search, role) then [n - 1] + older else older
  }

  /** The rows `getAllUsers` lists before paging: one per position
      `SelectedPositions` finds. */
  function SelectedUsers(users: map<string, User>, created: seq<string>,
                         search: Option<string>, role: Option<Role>): (r: seq<User>)
    requires forall k :: 0 <= k < |created| ==> created[k] in users
    ensures |r| <= |created|
  {
    var ix := SelectedPositions(users, created, search, role, |created|);
    seq(|ix|, k requires 0 <= k < |ix| => users[created[ix[k]]])
  }

  /** The listing is sound and complete: every listed user is a selected
      row of the table, and every selected row is listed. */
  lemma SelectedUsersExact(users: map<string, User>, created: seq<string>,
                           search: Option<string>, role: Option<Role>)
    requires forall k :: 0 <= k < |created| ==> created[k] in users
    ensures forall k :: 0 <= k < |SelectedUsers(users, created, search, role)| ==>
              var u := SelectedUsers(users, created, search, role)[k];
              Selected(u, search, role) && u in users.Values
    ensures forall i :: 0 <= i < |created| && Selected(users[created[i]], search, role) ==>
              users[created[i]] in SelectedUsers(users, created, search, role)
  {
    var ix := SelectedPositions(users, created, search, role, |created|);
    var r := SelectedUsers(users, created, search, role);
    forall i | 0 <= i < |created| && Selected(users[created[i]], search, role)
      ensures users[created[i]] in r
    {
      var k :| 0 <= k < |ix| && ix[k] == i;
      assert r[k] == users[created[i]];
    }
  }

  /** `getAllUsers`: the page `page` (default 1) of `limit` (default 10)
      selected users. A truthy `role` that names no role is refused by the
      ENUM column, and a negative LIMIT or OFFSET by the database: both are
      answered with 500 (`None`). The count here has no join, so `total` is
      the exact number of selected users. */
  function GetAllUsers(users: map<string, User>, created: seq<string>, page: Option<int>, limit: Option<int>,
                       search: Option<string>, role: Option<string>): (r: Option<P.Listing<User>>)
    requires forall k :: 0 <= k < |created| ==> created[k] in users
    ensures var pg := P.OrDefault(page, P.DefaultPage);
            var lim := P.OrDefault(limit, P.DefaultLimit);
            && (r.None? <==> (Truthy(role) && ParseRole(role.value).None?) || lim < 0 || P.Offset(pg, lim) < 0)
            && (r.Some? ==>
                  var filter := if Truthy(role) then ParseRole(role.value) else None;
                  var matching := SelectedUsers(users, created, search, filter);
                  && r.value.page == pg && r.value.limit == lim
                  && |r.value.rows| <= lim
                  && (forall k :: 0 <= k < |r.value.rows| ==>
                        P.Offset(pg, lim) + k < |matching| && r.value.rows[k] == matching[P.Offset(pg, lim) + k])
                  && r.value.total == |matching|
                  && r.value.totalPages == P.TotalPages(|matching|, lim))
  {
    var pg := P.OrDefault(page, P.DefaultPage);
    var lim := P.OrDefault(limit, P.DefaultLimit);
    if Truthy(role) && ParseRole(role.value).None? then None
    else
      var filter := if Truthy(role) then ParseRole(role.value) else None;
      P.Paginate(SelectedUsers(users, created, search, filter), pg, lim)
  }

  /** A deactivated user is refused at login with the same 401 as an unknown
      email: soft deletion locks the account while keeping its row. */
  lemma DeactivatedUserCannotLogin(t: UserTable, id: string, password: string, mfaToken: Option<string>,
                                   totp: (Option<string>, string) -> bool)
    requires t.Valid() && id in t.users && !t.users[id].isActive
    ensures AC.LoginLadder(t.ByEmail(t.users[id].email), password, mfaToken, totp) == AC.Deny(AC.InvalidCredentials)
  {
    var found := t.ByEmail(t.users[id].email);
    assert found.Some?;
    assert found.value.id == id;
  }

  /** The handlers that change the users table. */
  class UserApi {
    const users: UserTable

    constructor (users: UserTable)
      ensures this.users == users
    {
      this.users := users;
    }

    /** `updateProfile`: sets each name that is given and truthy; the email
      and every other column keep their values. */
    method UpdateProfile(actor: string, errors: seq<ValidationError>, firstName: Option<string>, lastName: Option<string>)
      returns (reply: Reply)
      requires users.Valid()
      modifies users
      ensures users.Valid() && users.created == old(users.created)
      ensures errors != [] ==> reply == Reply(400, Errors(errors)) && unchanged(users)
      ensures errors == [] && actor !in old(users.users) ==> reply == Reply(404, Message(UserNotFound)) && unchanged(users)
      ensures errors == [] && actor in old(users.users) ==>
                var u := old(users.users[actor]);
                && users.users.Keys == old(users.users.Keys)
                && (forall id :: id in users.users && id != actor ==> users.users[id] == old(users.users[id]))
                && users.users[actor].firstName == (if Truthy(firstName) then firstName.value else u.firstName)
                && users.users[actor].lastName == (if Truthy(lastName) then lastName.value else u.lastName)
                && users.users[actor] == u.(firstName := users.users[actor].firstName, lastName := users.users[actor].lastName)
                && reply == Reply(200, Profile(ProfileUpdated, users.users[actor]))
    {
      if errors != [] {
        return Reply(400, Errors(errors));
      }
      if actor !in users.users {
        return Reply(404, Message(UserNotFound));
      }
      var u := users.users[actor];
      if Truthy(firstName) {
        u := u.(firstName := firstName.value);
      }
      if Truthy(lastName) {
        u := u.(lastName := lastName.value);
      }
      users.Save(u);
      return Reply(200, Profile(ProfileUpdated, u));
    }

    /** `changePassword`: only the right current password lets the new one in. */
    method ChangePassword(actor: string, errors: seq<ValidationError>, currentPassword: string, newPassword: string)
      returns (reply: Reply)
      requires users.Valid()
      modifies users
      ensures users.Valid() && users.created == old(users.created)
      ensures errors != [] ==> reply == Reply(400, Errors(errors)) && unchanged(users)
      ensures errors == [] && actor !in old(users.users) ==> reply == Reply(404, Message(UserNotFound)) && unchanged(users)
      ensures errors == [] && actor in old(users.users) && !ComparePassword(old(users.users[actor]), currentPassword) ==>
                reply == Reply(401, Message(WrongPassword)) && unchanged(users)
      ensures errors == [] && actor in old(users.users) && ComparePassword(old(users.users[actor]), currentPassword) ==>
                && reply == Reply(200, Message(PasswordChanged))
                && users.users == old(users.users)[actor := old(users.users[actor]).(password := newPassword)]
                // afterwards the new password is the one that matches
                && ComparePassword(users.users[actor], newPassword)
                && (currentPassword != newPassword ==> !ComparePassword(users.users[actor], currentPassword))
    {
      if errors != [] {
        return Reply(400, Errors(errors));
      }
      if actor !in users.users {
        return Reply(404, Message(UserNotFound));
      }
      var u := users.users[actor];
      if !ComparePassword(u, currentPassword) {
        return Reply(401, Message(WrongPassword));
      }
      users.Save(u.(password := newPassword));
      return Reply(200, Message(PasswordChanged));
    }

    /** `updateUserRole`: sets only the role. A role that is not one of the
      ENUM's labels is refused by the column, answered with 500. */
    method UpdateUserRole(errors: seq<ValidationError>, id: string, role: string) returns (reply: Reply)
      requires users.Valid()
      modifies users
      ensures users.Valid() && users.created == old(users.created)
      ensures errors != [] ==> reply == Reply(400, Errors(errors)) && unchanged(users)
      ensures errors == [] && id !in old(users.users) ==> reply == Reply(404, Message(UserNotFound)) && unchanged(users)
      ensures errors == [] && id in old(users.users) && ParseRole(role).None? ==>
                reply == Reply(500, Message(InternalError)) && unchanged(users)
      ensures errors == [] && id in old(users.users) && ParseRole(role).Some? ==>
                && users.users == old(users.users)[id := old(users.users[id]).(role := ParseRole(role).value)]
                && users.users[id].role.Name() == role
                && reply == Reply(200, Profile(RoleUpdated, users.users[id]))
    {
      if errors != [] {
        return Reply(400, Errors(errors));
      }
      if id !in users.users {
        return Reply(404, Message(UserNotFound));
      }
      var parsed := ParseRole(role);
      if parsed.None? {
        return Reply(500, Message(InternalError));
      }
      var u := users.users[id].(role := parsed.value);
      users.Save(u);
      return Reply(200, Profile(RoleUpdated, u));
    }

    /** `deleteUser` by the admin `actor`: refuses the admin's own id before
      any lookup, and otherwise deactivates the user, keeping the row. */
    method DeleteUser(actor: string, id: string) returns (reply: Reply)
      requires users.Valid()
      modifies users
      ensures users.Valid() && users.created == old(users.created)
      ensures id == actor ==> reply == Reply(400, Message(SelfDelete)) && unchanged(users)
      ensures id != actor && id !in old(users.users) ==> reply == Reply(404, Message(UserNotFound)) && unchanged(users)
      ensures id != actor && id in old(users.users) ==>
                && reply == Reply(200, Message(Deleted))
                && users.users == old(users.users)[id := old(users.users[id]).(isActive := false)]
                && users.users.Keys == old(users.users.Keys)
                && !users.users[id].isActive
    {
      if id == actor {
        return Reply(400, Message(SelfDelete));
      }
      if id !in users.users {
        return Reply(404, Message(UserNotFound));
      }
      users.Save(users.users[id].(isActive := false));
      return Reply(200, Message(Deleted));
    }
  }
}

=== FILE: user_model.dfy ===
/** The `users` table of the user service as its controllers use it. The
    model file that declares it is not part of this model: the columns are
    the ones the controllers read and assign, and a new user takes the
    defaults the controllers rely on (role `customer`, active, MFA off). The
    stored password stands for its hash; `comparePassword` holds exactly for
    the password that was set. */
module UserModel {
  import opened Common

  datatype Role = Customer | Admin | Support {
    /** The ENUM label, as it is stored and put in the access token. */
    function Name(): string {
      match this
      case Customer => "customer"
      case Admin => "admin"
      case Support => "support"
    }
  }

  /** The role a label names, if any: the labels are exactly the names of
      the three roles. */
  function ParseRole(text: string): (r: Option<Role>)
    ensures r.Some? ==> r.value.Name() == text
    ensures r.None? ==> text !in {"customer", "admin", "support"}
  {
    if text == "customer" then Some(Customer)
    else if text == "admin" then Some(Admin)
    else if text == "support" then Some(Support)
    else None
  }

  lemma ParseRoleName(r: Role)
    ensures ParseRole(r.Name()) == Some(r)
  {
  }

  /** One `users` row. `lastLoginAt` is a timestamp from the caller's clock. */
  datatype User = User(
    id: string,
    email: string,
    password: string,
    firstName: string,
    lastName: string,
    role: Role,
    isActive: bool,
    mfaEnabled: bool,
    mfaSecret: Option<string>,
    lastLoginAt: Option<int>)

  /** A registered user before any change: the column defaults. */
  function NewUser(id: string, email: string, password: string, firstName: string, lastName: string): (u: User)
    ensures u.role == Customer && u.isActive && !u.mfaEnabled && u.mfaSecret.None? && u.lastLoginAt.None?
    ensures u.id == id && u.email == email && u.password == password
    ensures u.firstName == firstName && u.lastName == lastName
  {
    User(id, email, password, firstName, lastName, Customer, true, false, None, None)
  }

  /** `user.comparePassword(candidate)`. */
  predicate ComparePassword(u: User, candidate: string) {
    candidate == u.password
  }

  /** MFA is only ever on with a secret to check codes against. */
  predicate MfaConsistent(u: User) {
    u.mfaEnabled ==> Truthy(u.mfaSecret)
  }

  /** No two users share an email. */
  predicate UniqueEmails(users: map<string, User>) {
    forall a, b :: a in users && b in users && users[a].email == users[b].email ==> a == b
  }

  /** `User.findOne({ where: { email } })`: the id of a user in `ids` with
      that email. */
  function FindByEmail(users: map<string, User>, ids: seq<string>, email: string): (r: Option<string>)
    requires forall k :: 0 <= k < |ids| ==> ids[k] in users
    ensures r.Some? ==> r.value in users && users[r.value].email == email
    ensures r.None? <==> forall k :: 0 <= k < |ids| ==> users[ids[k]].email != email
    decreases |ids|
  {
    if ids == [] then None
    else if users[ids[0]].email == email then Some(ids[0])
    else
      var r := FindByEmail(users, ids[1..], email);
      assert forall k :: 1 <= k < |ids| ==> ids[k] == ids[1..][k - 1];
      r
  }

  /** `User.findByPk(id)`. */
  function FindByPk(users: map<string, User>, id: string): (r: Option<User>)
    ensures r.Some? <==> id in users
    ensures r.Some? ==> r.value == users[id]
  {
    if id in users then Some(users[id]) else None
  }

  /** An entry of express-validator's errors array: the field that failed. */
  datatype ValidationError = ValidationError(field: string)

  /** The users table: rows by id, and the ids in creation order (what
      `ORDER BY createdAt` sorts by). */
  class UserTable {
    var users: map<string, User>
    var created: seq<string>

    ghost predicate Valid()
      reads this
    {
      && (forall id :: id in users ==> users[id].id == id && MfaConsistent(users[id]))
      && (forall k :: 0 <= k < |created| ==> created[k] in users)
      && (forall id :: id in users ==> id in created)
      && UniqueEmails(users)
    }

    constructor ()
      ensures Valid() && users == map[] && created == []
    {
      users := map[];
      created := [];
    }

    /** `User.findOne({ where: { email } })` over the whole table: the one
      user with that email, if there is one. */
    function ByEmail(email: string): (r: Option<User>)
      requires Valid()
      reads this
      ensures r.Some? ==> r.value.id in users && users[r.value.id] == r.value && r.value.email == email
      ensures r.None? <==> forall id :: id in users ==> users[id].email != email
    {
      var found := FindByEmail(users, created, email);
      assert found.None? ==> forall id :: id in users ==> exists k :: 0 <= k < |created| && created[k] == id;
      if found.Some? then Some(users[found.value]) else None
    }

    /** `User.create`: refused when the id is taken. */
    method Create(u: User) returns (ok: bool)
      requires Valid() && MfaConsistent(u)
      requires forall id :: id in users ==> users[id].email != u.email
      modifies this
      ensures Valid()
      ensures ok <==> u.id !in old(users)
      ensures ok ==> users == old(users)[u.id := u] && created == old(created) + [u.id]
      ensures !ok ==> unchanged(this)
    {
      if u.id in users {
        return false;
      }
      users := users[u.id := u];
      created := created + [u.id];
      return true;
    }

    /** `user.save()`: writes the instance back under its id. */
    method Save(u: User)
      requires Valid() && u.id in users && MfaConsistent(u)
      requires u.email == users[u.id].email
      modifies this
      ensures Valid() && created == old(created)
      ensures users == old(users)[u.id := u]
    {
      users := users[u.id := u];
    }
  }
}

=== FILE: user_routes.dfy ===
/** The user service's routes: every route runs `authMiddleware` first; the
    admin routes then require the role `admin`; three routes run field
    validators whose errors the handlers answer with 400. The role
    middleware's file is not part of this model: it is taken to admit
    exactly the roles it lists, and how it answers a refusal is left open
    (`Forbidden`). */
module UserRoutes {
  import opened Common
  import opened UserModel
  import AM = AuthMiddleware

  datatype Route =
    | GetProfile
    | PutProfile
    | PutPassword
    | ListUsers
    | GetUser(id: string)
    | PutRole(id: string)
    | DeleteUser(id: string)

  /** The routes mounted behind `roleMiddleware(['admin'])`. */
  predicate AdminOnly(r: Route) {
    r.ListUsers? || r.GetUser? || r.PutRole? || r.DeleteUser?
  }

  /** How far a request gets before its handler. */
  datatype Admission = Refused(status: int, message: string) | Forbidden | Admitted(user: AM.Claims)

  /** The middleware chain of a route on the request's `Authorization` header. */
  function Admit(r: Route, header: Option<string>, verify: string -> AM.Verification): (a: Admission)
    // authentication comes first, on every route: its refusal is the answer
    ensures AM.Authenticate(header, verify).Reject? ==>
              a == Refused(AM.Authenticate(header, verify).status, AM.Authenticate(header, verify).message)
    // a request reaches its handler only with verified claims, and an admin
    // route only with the role `admin` in them
    ensures a.Admitted? <==>
              AM.Authenticate(header, verify).Pass?
              && (AdminOnly(r) ==> AM.Authenticate(header, verify).user.role == Admin.Name())
    ensures a.Admitted? ==> a.user == AM.Authenticate(header, verify).user
    ensures a.Forbidden? ==> AdminOnly(r)
  {
    match AM.Authenticate(header, verify)
    case Reject(status, message) => Refused(status, message)
    case Pass(claims) =>
      if AdminOnly(r) && claims.role != Admin.Name() then Forbidden else Admitted(claims)
  }

  /** The characters JavaScript's `\s` and `String.prototype.trim` treat as
      white space: the ASCII blanks, the line terminators and the Unicode
      space separators. */
  predicate IsSpace(c: char) {
    || c == '\t' || c == '\n' || c == '\U{000B}' || c == '\U{000C}' || c == '\r' || c == ' '
    || c == '\U{00A0}' || c == '\U{1680}' || ('\U{2000}' <= c <= '\U{200A}')
    || c == '\U{2028}' || c == '\U{2029}' || c == '\U{202F}' || c == '\U{205F}'
    || c == '\U{3000}' || c == '\U{FEFF}'
  }

  /** The first position at or after `i` that does not hold white space
      (`|s|` when there is none). */
  function SpaceEnd(s: string, i: nat): (n: nat)
    requires i <= |s|
    ensures i <= n <= |s|
    ensures forall k :: i <= k < n ==> IsSpace(s[k])
    ensures n < |s| ==> !IsSpace(s[n])
    decreases |s| - i
  {
    if i < |s| && IsSpace(s[i]) then SpaceEnd(s, i + 1) else i
  }

  /** The position right after the last character before `j` that is not
      white space (0 when there is none). */
  function SpaceStart(s: string, j: nat): (n: nat)
    requires j <= |s|
    ensures n <= j
    ensures forall k :: n <= k < j ==> IsSpace(s[k])
    ensures n > 0 ==> !IsSpace(s[n - 1])
    decreases j
  {
    if j > 0 && IsSpace(s[j - 1]) then SpaceStart(s, j - 1) else j
  }

  /** `s` without its leading white space. */
  function TrimStart(s: string): (r: string)
    ensures |r| <= |s| && r == s[|s| - |r|..]
    ensures r == [] || !IsSpace(r[0])
    ensures forall i :: 0 <= i < |s| - |r| ==> IsSpace(s[i])
  {
    s[SpaceEnd(s, 0)..]
  }

  /** `s` without its trailing white space. */
  function TrimEnd(s: string): (r: string)
    ensures |r| <= |s| && r == s[..|r|]
    ensures r == [] || !IsSpace(r[|r| - 1])
    ensures forall i :: |r| <= i < |s| ==> IsSpace(s[i])
  {
    s[..SpaceStart(s, |s|)]
  }

  /** The `trim()` sanitizer: `s` without white space at either end, and
      nothing else removed: the result is the part of `s` between its
      leading and its trailing white space. */
  function Trim(s: string): (t: string)
    ensures |t| <= |s|
    ensures t == [] || (!IsSpace(t[0]) && !IsSpace(t[|t| - 1]))
    ensures var i := |s| - |TrimStart(s)|;
            && 0 <= i <= |s| - |t| && t == s[i..i + |t|]
            && (forall k :: 0 <= k < i ==> IsSpace(s[k]))
            && (forall k :: i + |t| <= k < |s| ==> IsSpace(s[k]))
  {
    TrimEnd(TrimStart(s))
  }

  /** A string trims to nothing exactly when it is all white space. */
  lemma TrimEmptyIffBlank(s: string)
    ensures Trim(s) == [] <==> forall i :: 0 <= i < |s| ==> IsSpace(s[i])
  {
  }

  /** Trimming twice trims nothing more. */
  lemma {:induction false} TrimIdempotent(s: string)
    ensures Trim(Trim(s)) == Trim(s)
  {
    var t := Trim(s);
    assert TrimStart(t) == t;
    assert TrimEnd(t) == t;
  }

  /** `body(field).optional().trim().notEmpty()`: an absent field passes;
      a given one must have something left after trimming. */
  predicate NameOk(name: Option<string>) {
    name.None? || Trim(name.value) != []
  }

  /** The value the handler sees after the `trim()` sanitizer. */
  function Sanitized(name: Option<string>): (s: Option<string>)
    ensures s.None? <==> name.None?
    ensures s.Some? ==> s.value == Trim(name.value)
  {
    if name.None? then None else Some(Trim(name.value))
  }

  /** The validators of `PUT /profile`. */
  function ProfileErrors(firstName: Option<string>, lastName: Option<string>): (errs: seq<ValidationError>)
    ensures errs == [] <==> NameOk(firstName) && NameOk(lastName)
    ensures forall e :: e in errs ==> e.field in {"firstName", "lastName"}
  {
    (if NameOk(firstName) then [] else [ValidationError("firstName")])
    + (if NameOk(lastName) then [] else [ValidationError("lastName")])
  }

  /** A profile update that passes validation hands the handler only
      truthy names: each name given is written, trimmed. */
  lemma ValidNamesAreWritten(firstName: Option<string>, lastName: Option<string>)
    requires ProfileErrors(firstName, lastName) == []
    ensures firstName.Some? ==> Truthy(Sanitized(firstName)) && Sanitized(firstName).value == Trim(firstName.value)
    ensures lastName.Some? ==> Truthy(Sanitized(lastName)) && Sanitized(lastName).value == Trim(lastName.value)
    ensures firstName.None? ==> !Truthy(Sanitized(firstName))
    ensures lastName.None? ==> !Truthy(Sanitized(lastName))
  {
  }

  /** The validators of `PUT /password`: `currentPassword` non-empty and
      `newPassword` at least 8 characters; an absent field counts as the
      empty string. */
  function PasswordErrors(currentPassword: Option<string>, newPassword: Option<string>): (errs: seq<ValidationError>)
    ensures errs == [] <==> Truthy(currentPassword) && newPassword.Some? && |newPassword.value| >= 8
    ensures ValidationError("newPassword") in errs <==> newPassword.None? || |newPassword.value| < 8
  {
    (if Truthy(currentPassword) then [] else [ValidationError("currentPassword")])
    + (if newPassword.Some? && |newPassword.value| >= 8 then [] else [ValidationError("newPassword")])
  }

  /** The validator of `PUT /:id/role`: one of the three role labels. */
  function RoleErrors(role: Option<string>): (errs: seq<ValidationError>)
    ensures errs == [] <==> role.Some? && ParseRole(role.value).Some?
    ensures errs == [] ==> role.value in {"customer", "admin", "support"}
  {
    if role.Some? && ParseRole(role.value).Some? then [] else [ValidationError("role")]
  }

  /** The validators a route runs on the body, by route. */
  function Validate(r: Route, firstName: Option<string>, lastName: Option<string>,
                    currentPassword: Option<string>, newPassword: Option<string>,
                    role: Option<string>): (errs: seq<ValidationError>)
    ensures r.PutProfile? ==> errs == ProfileErrors(firstName, lastName)
    ensures r.PutPassword? ==> errs == PasswordErrors(currentPassword, newPassword)
    ensures r.PutRole? ==> errs == RoleErrors(role)
    ensures !(r.PutProfile? || r.PutPassword? || r.PutRole?) ==> errs == []
  {
    match r
    case PutProfile => ProfileErrors(firstName, lastName)
    case PutPassword => PasswordErrors(currentPassword, newPassword)
    case PutRole(_) => RoleErrors(role)
    case _ => []
  }
}
